=== FILE: README.md ===
# Subleet core, modelled in Dafny

This project models the core of Subleet in Dafny and proves properties of it. Subleet crawls a web site, condenses what it scraped, and has a language model analyse it in token-bounded parts. A small admin dashboard issues API keys for the resulting chat assistants.

Four pieces are modelled:

- **The crawler** (`data_scrapper/main.py`):
  - the origin of the start URL;
  - canonicalisation of discovered links and the admission filter;
  - link extraction;
  - structured-content extraction from a parsed page, and the choice of root element;
  - the breadth-first `scrape` loop.
- **The analyser** (`data_scrapper/content_analyzer.py`):
  - the JSON optimisation pass;
  - the flattening of pages into prompt lines;
  - the per-model context limit;
  - the section-preserving split into parts under a token budget, including the truncation of oversized lines;
  - the part-by-part analysis with URL merging and its fallback summary.
- **API keys** (`dashboard-admin/app/types/api-key.ts`, `dashboard-admin/lib/api-key-utils.ts`):
  - the format validators and constants;
  - key generation;
  - the `iv:ciphertext` hex envelope of the stored key.
- **The browser cache** (`dashboard-admin/lib/cache-utils.ts`): time-stamped items that stay fresh for five minutes.

Everything the core receives from outside is a parameter of the model:

| outside dependency | parameter |
|---|---|
| a parsed HTML tree | `Html.Node` |
| `urljoin` | `join` |
| `RobotFileParser.can_fetch` | `canFetch` |
| HTTP fetch and parse | `fetch` |
| the tiktoken-based estimator | `est` |
| `json.dumps` | `dumps` |
| the completion service | `complete`, `unify` |
| SHA-256 | `sha256` |
| AES-256-CBC | `cipher`, `decipher` |
| `crypto.randomBytes` | the random bytes given to `GenerateApiKey` and `EncryptApiKey` |
| `Date.now()` | `now` |

Each loop of the source appears twice:

- once as written: a step function over the loop's variables, or a method;
- once as a reference definition that says what the loop computes.

A lemma or the method's contract ties the two together. The split is the largest example:

- `Splitting.SplitParts` is the reference. It prepares each line, cuts the lines into sections (`Packing.Units`), packs the sections greedily (`Packing.Groups`), and makes each group a part.
- `Splitting.SplitContent` runs the loop of `_split_content` with its eight variables and is proved to return exactly `SplitParts`.
- The lemmas on `SplitParts` then state what the split guarantees:
  - nothing is lost or reordered;
  - every part fits the budget unless it is a single section;
  - a part is closed only when the next section would overflow it;
  - every later part opens on a heading.

Two behaviours that follow from the code are stated as lemmas:

- `gpt-3.5-turbo` (3000 tokens) and unknown models (2000) have limits below the 4000 tokens the split reserves (`ModelLimits.SmallLimits`).
- With such a negative budget:
  - Python's negative slice keeps the front of a line rather than nothing (`Splitting.NegativeBudgetKeepsFront`);
  - every section becomes a part of its own (`Splitting.NegativeBudgetOnePartPerUnit`);
  - a line the estimator counts as zero tokens raises a division by zero (`Splitting.Prepare`).

## Model

| member | source | states |
|---|---|---|
| `Strings.Strip` | data_scrapper/main.py:161-177 | `str.strip()`: the result has no leading or trailing whitespace; it is the slice of the input that starts after the leading whitespace and has only whitespace after it; a stripped string is unchanged |
| `Strings.Lower` | data_scrapper/main.py:71 | lower-casing the scheme keeps the length and maps each ASCII capital to its small letter |
| `Strings.SplitAtFirst` | dashboard-admin/lib/api-key-utils.ts:48 | splitting on a separator yields the text before its first occurrence, then the split of the rest |
| `Strings.ParsePadded` | data_scrapper/main.py:250 | `str(n).zfill(w)` is all digits and reads back as `n` |
| `Strings.PaddedInjective` | data_scrapper/main.py:250 | distinct page counters give distinct zero-padded ids |
| `Html.Find` | data_scrapper/main.py:139-141 | `soup.find(p)` is the first element satisfying `p` in document order |
| `Html.FindSucceedsIffPresent` | data_scrapper/main.py:139-141 | `find` succeeds exactly when some descendant satisfies the test, and then returns such a descendant |
| `Html.FirstMatchSpec` | data_scrapper/main.py:139 | the first match exists iff some element matches, and it is a member that matches |
| `Html.Filter` | data_scrapper/main.py:107 | `find_all` returns exactly the matching members of the list: every node it returns matches and every matching node is returned |
| `Html.FilterAppend` | data_scrapper/main.py:107 | `find_all` keeps document order: the matches of two runs are the matches of each, in turn |
| `Html.DescendantsAppend` | data_scrapper/main.py:107 | the document-order listing of two runs of trees is the listing of each, in turn |
| `Html.FindAll` | data_scrapper/main.py:107 | a node is found iff it is a descendant of the document and matches |
| `Html.FindAllAppend` | data_scrapper/main.py:107 | `find_all` over two runs of trees finds the matches of the first run, then those of the second |
| `Html.ChildrenNamed` | data_scrapper/main.py:176 | `find_all('li', recursive=False)` returns direct children with that tag, and every direct child with that tag |
| `Urls.LstripControl` | data_scrapper/main.py:69-72 | `urlparse` first drops the leading C0 controls and spaces: the result is a suffix of the URL, what was dropped is all controls or spaces, and it does not start with one |
| `Urls.RemoveUnsafe` | data_scrapper/main.py:69-72 | `urlparse` then deletes every tab, CR and LF: none is left |
| `Urls.RemoveUnsafeAppend` | data_scrapper/main.py:69-72 | the deletion works character by character: it distributes over concatenation |
| `Urls.RemoveUnsafeKeepsSafe` | data_scrapper/main.py:69-72 | a URL without tab, CR or LF is left unchanged |
| `Urls.BaseUrlIsPrefix` | data_scrapper/main.py:69-72 | for a start URL `scheme://rest`, the origin is the scheme, `://` and the netloc, up to the first `/`, `?` or `#`, of `rest` without its tabs, CRs and LFs; when `rest` has none of those, the origin is a prefix of the URL, so the start URL passes the origin rule |
| `Urls.LeadingBlankIgnored` | data_scrapper/main.py:276 | controls and spaces typed before the start URL (read by `input()`, which does not strip it) leave the origin that `_get_base_url` (lines 69-72) derives from it unchanged |
| `Urls.UnsafeCharsIgnored` | data_scrapper/main.py:69-72 | tabs, CRs and LFs after the scheme leave the origin unchanged |
| `Urls.TypedWithLeadingSpace` | data_scrapper/main.py:276 | the start URL typed as `" http://x/a"` gets the origin `"http://x"` from `_get_base_url` (lines 69-72) |
| `Urls.IndexOf` | data_scrapper/main.py:71 | the position found holds the character and no earlier position does; absence means the character does not occur |
| `Urls.DropFragment` | data_scrapper/main.py:96-98 | removing the fragment leaves the prefix before the first `#`, which contains no `#`; a URL without `#` is unchanged |
| `Urls.NormalizeUrl` | data_scrapper/main.py:92-102 | the joined URL cut at its first `#`, less exactly one trailing `/` when it ended in one |
| `Urls.CanonicalIdempotentIff` | data_scrapper/main.py:99-102 | normalising a second time changes nothing exactly when the normalised URL does not end in `/` |
| `Urls.NormalizeIdempotent` | data_scrapper/main.py:92-102 | a normalised link that does not end in `/` is a fixed point when `urljoin` leaves absolute URLs alone |
| `Urls.DoubleSlashNotIdempotent` | data_scrapper/main.py:99-101 | a URL ending in `//` loses one slash per normalisation |
| `Urls.CheckUrl` | data_scrapper/main.py:74-90 | the admission verdict: off-origin iff not prefixed by the base URL; robots-denied iff on origin, robots respected and fetching refused; ignored iff it passes both and ends in one of the five extensions; admitted otherwise |
| `Urls.BlocklistSpelledOut` | data_scrapper/main.py:86-87 | the extension test is exactly "ends with .pdf, .jpg, .png, .gif or .zip" |
| `Urls.PrefixRuleAdmitsOtherHost` | data_scrapper/main.py:77-78 | the origin rule is a string prefix test, so `http://example.com.evil.net/page` passes for base `http://example.com` |
| `Extractor.HeadingLevelOf` | data_scrapper/main.py:157 | a tag is a heading exactly when it is one of `h1`–`h6` |
| `Extractor.ListItems` | data_scrapper/main.py:175-177 | one stripped text per direct `li` child |
| `Extractor.ExtractChild` | data_scrapper/main.py:153-203 | one child yields at most one content item, and every item is well formed |
| `Extractor.ExtractSeq` | data_scrapper/main.py:149-203 | a child list yields at most one item per child, all well formed |
| `Extractor.ExtractAppend` | data_scrapper/main.py:153 | children are processed independently and in order: extraction distributes over concatenation |
| `Extractor.UnrecognisedIgnored` | data_scrapper/main.py:153-203 | text nodes and unrecognised tags contribute nothing |
| `Extractor.HeadingRule` | data_scrapper/main.py:157-164 | a heading always yields one heading item carrying its stripped text, even when empty |
| `Extractor.ParagraphRule` | data_scrapper/main.py:166-172 | a paragraph yields an item iff its stripped text is non-empty, and the item carries that text |
| `Extractor.ListRule` | data_scrapper/main.py:174-184 | a `ul`/`ol` yields an item iff it has a direct `li` child |
| `Extractor.SomeChildNamed` | data_scrapper/main.py:176 | `find_all(name, recursive=False)` finds something iff some direct child has that tag |
| `Extractor.ImageRule` | data_scrapper/main.py:186-192 | an image yields an item iff it has a non-empty `src` |
| `Extractor.ContainerRule` | data_scrapper/main.py:194-203 | a `div`/`section`/`article` yields a container iff its children yield something, and the container holds exactly those items |
| `Extractor.EmptyContainerPruned` | data_scrapper/main.py:198 | empty containers vanish, also when nested |
| `Extractor.SelectRoot` | data_scrapper/main.py:138-141 | the root is the first `main`, else the first `article`, else the first `div.content`, else the first `body`, and none only when the page has none of them |
| `Extractor.FindIffHas` | data_scrapper/main.py:138-141 | `soup.find(p)` returns something iff the page has an element satisfying `p`, and then it returns such an element of the page |
| `Extractor.MetadataSpec` | data_scrapper/main.py:131-136 | a key is in the metadata iff some `meta` names it (`name`, else `property`) with non-empty content, and its value is the content of the last such `meta` |
| `Extractor.DocumentMetadata` | data_scrapper/main.py:131-136 | over the whole page, a key is in the page's metadata iff some `meta` tag of the document files it, and its value is the content of such a tag |
| `Extractor.ExtractData` | data_scrapper/main.py:119-147 | the page keeps its URL, its content is well formed, and it is empty when no root is found |
| `Extractor.LinksFrom` | data_scrapper/main.py:104-117 | every link returned is fragment-free and admitted, and a link is returned iff some non-skipped `href` normalises to it |
| `Extractor.LinksAppend` | data_scrapper/main.py:106-117 | anchors are processed independently and in order |
| `Extractor.DocumentLinks` | data_scrapper/main.py:104-117 | over the whole page, a link is returned iff some anchor of the document with an `href` yields it |
| `Extractor.ExtractLinksAppend` | data_scrapper/main.py:104-117 | the links of two runs of trees are the links of each run, in document order |
| `Crawler.PageId` | data_scrapper/main.py:250 | page ids are at least five digits and read back as the page counter |
| `Crawler.PageIdsDistinct` | data_scrapper/main.py:250-251 | no two pages share an id |
| `Crawler.Successes` | data_scrapper/main.py:235-259 | a URL is filed iff it was requested and its fetch succeeded, never more than were requested, and no URL twice when no URL was requested twice |
| `Crawler.Unvisited` | data_scrapper/main.py:255-257 | a link is queued iff it is among the page's links and not yet visited |
| `Crawler.UnvisitedAppend` | data_scrapper/main.py:255-257 | the links are queued in the order the page gives them: filtering a concatenation is the concatenation of the filtered parts |
| `Crawler.Dedup` | data_scrapper/main.py:223-230 | the first occurrence of each URL, in order: contains exactly the URLs of its input, each once |
| `Crawler.DedupSnoc` | data_scrapper/main.py:223-230 | popping a URL already visited adds no request; popping a new one appends it |
| `Crawler.EnqueuedSnoc` | data_scrapper/main.py:223-257 | a request that files nothing leaves the queue's history unchanged |
| `Crawler.EnqueuedFiled` | data_scrapper/main.py:249-257 | filing a page appends exactly its unvisited links to the queue's history |
| `Crawler.Step` | data_scrapper/main.py:221-266 | one iteration: the front of the queue is popped (line 223); a visited URL is dropped without a request; a new one is requested, and a page is filed iff its fetch succeeds |
| `Crawler.StepFiled` | data_scrapper/main.py:249-251 | pages stay keyed by counter, each the extraction of its own fetch, in request order |
| `Crawler.StepTraced` | data_scrapper/main.py:253-257 | every queued or requested URL is the start URL or a link of a filed page |
| `Crawler.UnfiledTraced` | data_scrapper/main.py:223-247 | popping a URL without filing a page keeps every queued and requested URL traced to the start URL or a filed page |
| `Crawler.FiledTraced` | data_scrapper/main.py:249-257 | filing the popped URL and queueing some of its links keeps every queued and requested URL traced |
| `Crawler.StepClosed` | data_scrapper/main.py:253-257 | every link of a filed page is visited or queued |
| `Crawler.StepOrdered` | data_scrapper/main.py:223-257 | one iteration keeps the queue first-in first-out (`popleft` at line 223, `append` at line 257): popped URLs followed by the queue are the start URL followed by each filed page's unvisited links, in filing order, and the requests are the first occurrences among the popped URLs |
| `Crawler.SkipOrdered` | data_scrapper/main.py:223-230 | popping a visited URL keeps that order |
| `Crawler.FailedOrdered` | data_scrapper/main.py:223-247 | popping a new URL whose fetch fails keeps that order |
| `Crawler.FetchedOrdered` | data_scrapper/main.py:223-257 | popping a new URL whose fetch succeeds, and appending its unvisited links at the back, keeps that order |
| `Crawler.FiledOrdered` | data_scrapper/main.py:249-257 | the same for any filed entry of that URL with its unvisited links appended |
| `Crawler.StepInv` | data_scrapper/main.py:221-266 | one iteration preserves all of the loop's invariants |
| `Crawler.InitInv` | data_scrapper/main.py:221 | the invariants hold with only the start URL queued |
| `Crawler.OutcomeStarted` | data_scrapper/main.py:221-233 | when the loop stops and the page limit is positive, the start URL was the first request |
| `Crawler.OutcomeTraced` | data_scrapper/main.py:253-257 | when the loop stops, every request after the first is a link discovered on a filed page |
| `Crawler.OutcomeClosed` | data_scrapper/main.py:221-257 | when the queue ran dry before the page limit, every link of every filed page was requested |
| `Crawler.OutcomeBreadthFirst` | data_scrapper/main.py:221-257 | when the loop stops, the requests are the first occurrences of a prefix of the queue's history: breadth-first order |
| `Crawler.Scrape` | data_scrapper/main.py:215-272 | the `scrape` loop with the base URL the constructor derives from the start URL: at most `max_pages` pages, keyed `00000`, `00001`, …, each the extraction of its URL, URLs requested at most once and filed at most once, starting at the start URL, closed under discovered links when the limit is not reached, and requested in first-in first-out order: the first occurrences of a prefix of the start URL followed by each filed page's unvisited links (lines 223 and 257) |
| `Optimizer.LiftChild` | data_scrapper/content_analyzer.py:127-141 | a container child is lifted iff it is a heading, paragraph or list, and lifted items are slim |
| `Optimizer.Lift` | data_scrapper/content_analyzer.py:127-141 | lifting a container's children keeps at most one item per child, all slim |
| `Optimizer.OptimizeNode` | data_scrapper/content_analyzer.py:95-141 | an item becomes slim items; an image survives iff it has a `src`; an already slim item is kept as is |
| `Optimizer.OptimizePage` | data_scrapper/content_analyzer.py:86-143 | a page keeps URL and title, loses its metadata, and all its content is slim |
| `Optimizer.Optimize` | data_scrapper/content_analyzer.py:74-145 | every page id is kept, in order, with its page optimised |
| `Optimizer.SlimIsFixed` | data_scrapper/content_analyzer.py:95-141 | slim content is left unchanged |
| `Optimizer.OptimizeIdempotent` | data_scrapper/content_analyzer.py:74-145 | optimising twice is optimising once |
| `Optimizer.OptimizeAppend` | data_scrapper/content_analyzer.py:95 | items are optimised independently and in order |
| `Optimizer.NestedDropped` | data_scrapper/content_analyzer.py:130-141 | only one level is lifted: a container or image inside a container disappears |
| `Sections.PageMarker` | data_scrapper/content_analyzer.py:343 | a page's marker line is a section heading |
| `Sections.HeadingLine` | data_scrapper/content_analyzer.py:348 | a heading's line is a section heading |
| `Sections.SectionUrls` | data_scrapper/content_analyzer.py:218-228 | a line contributes at most one URL entry, and only a heading contributes any |
| `Sections.UrlsOfAppend` | data_scrapper/content_analyzer.py:210 | the URLs of consecutive lines are merged left to right, later entries winning |
| `Sections.MarkerRoundTrip` | data_scrapper/content_analyzer.py:219-224 | parsing a page marker back gives exactly `{title: url}` |
| `Sections.MarkerLines` | data_scrapper/content_analyzer.py:343 | a page marker splits into the title line, the URL line and an empty line |
| `Sections.HeadingRoundTrip` | data_scrapper/content_analyzer.py:225-228 | parsing a heading line back looks its text up in the page URLs |
| `Sections.NoHeadingNoUrls` | data_scrapper/content_analyzer.py:229-254 | lines without a heading carry no URLs |
| `Flattening.ListLine` | data_scrapper/content_analyzer.py:355-358 | a list's line starts and ends with a newline and is never taken for a heading |
| `Flattening.RenderNode` | data_scrapper/content_analyzer.py:345-358 | images and containers produce no line; a heading produces its heading line; a list never produces a heading |
| `Flattening.RenderPage` | data_scrapper/content_analyzer.py:338-358 | a page's lines open with its marker |
| `Flattening.Lines` | data_scrapper/content_analyzer.py:334-358 | there are at least as many lines as pages, and the first page's marker comes first |
| `Flattening.LinesAppend` | data_scrapper/content_analyzer.py:334-358 | the lines of two runs of pages are the lines of each run, in turn |
| `Flattening.PageLinesAt` | data_scrapper/content_analyzer.py:334-358 | every page contributes its marker and its content's lines, after the pages before it and before the pages after it |
| `Flattening.PageEntries` | data_scrapper/content_analyzer.py:339-350 | a page maps its title and each heading text to its URL, and nothing else |
| `Flattening.PageUrlsSpec` | data_scrapper/content_analyzer.py:334-350 | a title is in `page_urls` iff some page names it, and it maps to the URL of the last page that does |
| `Flattening.RenderAppend` | data_scrapper/content_analyzer.py:345 | items are flattened independently and in order |
| `Flattening.ContainerContentLost` | data_scrapper/content_analyzer.py:345-358 | without optimisation a container's content is not flattened at all |
| `Flattening.ParagraphMistakenForMarker` | data_scrapper/content_analyzer.py:188 | a paragraph that begins `### Page:` is taken for a section heading by the split |
| `Packing.TokensAppend` | data_scrapper/content_analyzer.py:209 | token counts add up over concatenation |
| `Packing.Units` | data_scrapper/content_analyzer.py:176-229 | lines are cut into at most as many units as lines, and some unit exists when there is a line |
| `Packing.UnitsConcat` | data_scrapper/content_analyzer.py:176-256 | the units are exactly the lines, in order |
| `Packing.UnitsWell` | data_scrapper/content_analyzer.py:188-254 | every unit is a section or a loose line that precedes any heading; with a heading the last unit is a section |
| `Packing.UnitsUnique` | data_scrapper/content_analyzer.py:188-254 | well-formed units are recovered from their concatenation |
| `Packing.PackStep` | data_scrapper/content_analyzer.py:193-210 | adding a unit closes at most one group |
| `Packing.PackGood` | data_scrapper/content_analyzer.py:193-254 | greedy packing keeps order, budget, closing and opening invariants over any well-formed unit list |
| `Packing.GroupsCover` | data_scrapper/content_analyzer.py:195-280 | the groups hold exactly the units, in order |
| `Packing.GroupsNonEmptyWithin` | data_scrapper/content_analyzer.py:195-210 | every group is non-empty and within budget unless it is a single unit |
| `Packing.GroupsClosed` | data_scrapper/content_analyzer.py:195 | a group is closed only when the next unit would overflow it |
| `Packing.GroupsOpen` | data_scrapper/content_analyzer.py:243-254 | every group after the first starts with a section, unless all before it is loose |
| `Packing.GroupsSpec` | data_scrapper/content_analyzer.py:183-280 | the four properties of greedy packing together |
| `Splitting.EffectiveBudget` | data_scrapper/content_analyzer.py:166-172 | the budget is at most the model limit less the 4000 reserved tokens |
| `Splitting.SliceTo` | data_scrapper/content_analyzer.py:235 | Python's `s[:k]`: a prefix of `s` of `k` characters, or of `len(s)+k` when `k` is negative |
| `Splitting.KeptChars` | data_scrapper/content_analyzer.py:233-234 | the kept length is at least 0 for a budget of at least 0 and at most 0 for a negative budget, and its magnitude is at most 9/10 of the length scaled by the budget's magnitude over tokens |
| `Splitting.KeptCharsTruncates` | data_scrapper/content_analyzer.py:233-234 | the kept length is `int(len * (eff / tokens) * 0.9)`: the exact quotient `9 * len * eff / (10 * tokens)` truncated toward zero, so its magnitude `m` is the largest with `10 * tokens * m <= 9 * len * abs(eff)` |
| `Splitting.Prepare` | data_scrapper/content_analyzer.py:229-236 | a heading or a line within budget is kept; an oversized line is cut to a prefix of itself followed by `... [tronqué]`; it fails with a division by zero exactly when a non-heading line counts zero tokens and the budget is negative; heading-ness is preserved |
| `Splitting.TruncatedNotHeading` | data_scrapper/content_analyzer.py:188 | a truncated non-heading never becomes a heading |
| `Splitting.NegativeBudgetKeepsFront` | data_scrapper/content_analyzer.py:233-235 | with budget -5 a ten-token, ten-character line keeps its first six characters |
| `Splitting.PrepareAll` | data_scrapper/content_analyzer.py:182-256 | preparing succeeds iff every line can be prepared, and then line by line |
| `Splitting.PartsOf` | data_scrapper/content_analyzer.py:197-200 | each group becomes the part of its lines and their URLs |
| `Splitting.SplitContent` | data_scrapper/content_analyzer.py:147-288 | `_split_content` returns exactly the reference split under the effective budget, and fails exactly when the budget is negative and a non-heading line counts zero tokens |
| `Splitting.SplitFails` | data_scrapper/content_analyzer.py:229-236 | the split succeeds exactly when the budget is not negative or every line that is not a heading counts at least one token; otherwise it raises a division by zero |
| `Splitting.StepTracks` | data_scrapper/content_analyzer.py:183-256 | each iteration keeps the loop's variables equal to the greedy packing of the units seen so far |
| `Splitting.CloseHolds` | data_scrapper/content_analyzer.py:193-210 | closing a section performs one packing step with it |
| `Splitting.LooseHolds` | data_scrapper/content_analyzer.py:243-254 | a loose line performs one packing step on its own |
| `Splitting.FinishTracks` | data_scrapper/content_analyzer.py:258-280 | the tail code emits the packing of all units |
| `Splitting.SplitCovers` | data_scrapper/content_analyzer.py:147-288 | the parts hold all prepared lines, in order, none twice |
| `Splitting.SplitWithinBudget` | data_scrapper/content_analyzer.py:195-210 | every part fits the budget unless it is a single section |
| `Splitting.SplitClosed` | data_scrapper/content_analyzer.py:195 | a part is closed only when the next section would overflow it |
| `Splitting.SplitOpens` | data_scrapper/content_analyzer.py:243-254 | every part after the first opens on a heading, unless no earlier part has one |
| `Splitting.SplitPartsSpec` | data_scrapper/content_analyzer.py:147-288 | cover, fit, closing and opening together |
| `Splitting.FitsInOnePart` | data_scrapper/content_analyzer.py:183-280 | lines whose tokens fit the budget make at most one part |
| `Splitting.NegativeBudgetOnePartPerUnit` | data_scrapper/content_analyzer.py:195 | under a negative budget every section is a part of its own |
| `ModelLimits.FirstPrefix` | data_scrapper/content_analyzer.py:408-410 | the limit of the first prefix that matches, none iff no prefix matches |
| `ModelLimits.GetMaxTokens` | data_scrapper/content_analyzer.py:390-413 | the first matching prefix's limit, 2000 when none matches |
| `ModelLimits.PrefixOrder` | data_scrapper/content_analyzer.py:400-410 | `gpt-3.5-turbo-16k-0613` gets 14000, `gpt-3.5-turbo-0125` 3000, `gpt-4-turbo` 6500, `gpt-4o-mini-…` 125000, `o1-preview` 2000 |
| `ModelLimits.SmallLimits` | data_scrapper/content_analyzer.py:400-413 | the limit is below 4000 iff the model starts with none of `gpt-4o-mini`, `gpt-4o`, `gpt-4`, `gpt-3.5-turbo-16k` |
| `PartAnalysis.PromptAt` | data_scrapper/content_analyzer.py:486-498 | the first part gets the initial prompt, part `i` a continuation numbered `i+1` after `i` earlier parts, both with the part's lines joined by newlines and its URLs as JSON |
| `PartAnalysis.Entries` | data_scrapper/content_analyzer.py:481-528 | one entry per part, in order, each from the answer to that part's prompt |
| `PartAnalysis.AnalyzeEach` | data_scrapper/content_analyzer.py:481-528 | the loop's prompts, numbered from the analyses collected so far, agree with the positional numbering |
| `PartAnalysis.CollectUrls` | data_scrapper/content_analyzer.py:533-535 | `all_urls` is the merge of every part's URLs |
| `PartAnalysis.AnalyzeParts` | data_scrapper/content_analyzer.py:466-586 | parts count and partial analyses as listed; the summary is the unification answer, or the numbered fallback together with the unification error |
| `PartAnalysis.MergeUrlsSpec` | data_scrapper/content_analyzer.py:533-535 | a title is in `all_urls` iff some part has it, and it maps to the URL of the last part that does |
| `PartAnalysis.EntriesNumbered` | data_scrapper/content_analyzer.py:512-528 | entries are numbered 1..n, keep their part's URLs, and hold the answer or a placeholder naming the same number |
| `PartAnalysis.ContinuationNumbering` | data_scrapper/content_analyzer.py:497-498 | the continuation note, part label and system context all call part `i` part `i+1`, and the note counts `i` earlier parts |
| `PartAnalysis.FallbackOrder` | data_scrapper/content_analyzer.py:570-573 | the fallback summary lists each part's analysis under `# Partie n`, in order, separated by blank lines |
| `PartAnalysis.UnificationLabels` | data_scrapper/content_analyzer.py:600-603 | each block of the unification prompt is labelled `### ANALYSE PARTIE n/N ###` with its part number and the number of parts |
| `ApiKeys.IsValidProjectId` | dashboard-admin/app/types/api-key.ts:123-125 | valid iff the value is a non-empty string |
| `ApiKeys.IsValidApiKey` | dashboard-admin/app/types/api-key.ts:127-131 | valid iff a string of at least 17 characters whose first six are `sleet_` |
| `ApiKeys.IsValidEncryptionSecret` | dashboard-admin/app/types/api-key.ts:133-136 | valid iff a string of at least 32 characters |
| `ApiKeys.ApiKeyShape` | dashboard-admin/app/types/api-key.ts:79-84 | a key is valid iff it is the prefix followed by more than ten characters |
| `ApiKeys.ApiKeyNeedsPrefix` | dashboard-admin/app/types/api-key.ts:127-131 | without the prefix no length makes a key valid |
| `ApiKeys.SecretConfigured` | dashboard-admin/app/api/public/projects/create/route.ts:98-102 | the route proceeds only when a secret is configured |
| `ApiKeys.GuardAgreesWithValidator` | dashboard-admin/app/api/public/projects/create/route.ts:99 | the route's guard accepts exactly the secrets `isValidEncryptionSecret` accepts |
| `ApiKeyEnvelope.HexValue` | dashboard-admin/lib/api-key-utils.ts:51 | a digit of either case has a value below 16; anything else has none |
| `ApiKeyEnvelope.HexEncode` | dashboard-admin/lib/api-key-utils.ts:9 | hex output is two lower-case digits per byte |
| `ApiKeyEnvelope.HexDecode` | dashboard-admin/lib/api-key-utils.ts:51 | decoding yields at most one byte per two characters |
| `ApiKeyEnvelope.HexRoundTrip` | dashboard-admin/lib/api-key-utils.ts:37-51 | decoding the hex of bytes gives the bytes back |
| `ApiKeyEnvelope.HexHasNoColon` | dashboard-admin/lib/api-key-utils.ts:37 | hex text never contains the envelope separator |
| `ApiKeyEnvelope.HexInjective` | dashboard-admin/lib/api-key-utils.ts:9 | different bytes have different hex |
| `ApiKeyEnvelope.GenerateApiKey` | dashboard-admin/lib/api-key-utils.ts:7-10 | a generated key is 54 characters, `sleet_` followed by lower-case hex, and passes `isValidApiKey` |
| `ApiKeyEnvelope.GeneratedKeyDeterminesBytes` | dashboard-admin/lib/api-key-utils.ts:8-9 | the random bytes are recovered from the key |
| `ApiKeyEnvelope.EncryptApiKey` | dashboard-admin/lib/api-key-utils.ts:18-38 | the stored form is 32 lower-case hex characters that decode to the IV, a `:`, then lower-case hex |
| `ApiKeyEnvelope.DecryptApiKey` | dashboard-admin/lib/api-key-utils.ts:46-67 | decryption succeeds only with a 32-byte key, a 16-byte IV, a second piece, and ciphertext hex of even length, and then it is the decipher of the decoded IV and ciphertext |
| `ApiKeyEnvelope.SplitEnvelope` | dashboard-admin/lib/api-key-utils.ts:37-48 | splitting the stored form on `:` gives exactly the IV hex and the ciphertext hex |
| `ApiKeyEnvelope.DecryptEncrypt` | dashboard-admin/lib/api-key-utils.ts:18-67 | decrypting with the same secret returns the key, when the decipher inverts the cipher |
| `ApiKeyEnvelope.NoSeparatorFails` | dashboard-admin/lib/api-key-utils.ts:48-63 | a stored value without `:` cannot be decrypted |
| `ApiKeyEnvelope.ShortIvFails` | dashboard-admin/lib/api-key-utils.ts:48-60 | an IV of fewer than 32 hex digits is refused |
| `ApiKeyEnvelope.OddCiphertextFails` | dashboard-admin/lib/api-key-utils.ts:63 | a stored value with one hex digit appended to the ciphertext is refused by `update`, not read by dropping the digit |
| `Cache.SetCache` | dashboard-admin/lib/cache-utils.ts:8-14 | `setCache` adds or replaces exactly the given key with the data stamped `now`, and every other key is unchanged |
| `Cache.GetCache` | dashboard-admin/lib/cache-utils.ts:16-33 | data comes back iff the key holds a well-formed item written less than 300000 ms ago, and it is that item's data |
| `Cache.ClearCache` | dashboard-admin/lib/cache-utils.ts:35-46 | clearing only removes entries and never alters one |
| `Cache.SetThenGet` | dashboard-admin/lib/cache-utils.ts:1-28 | what was set at `t` is read back iff `now < t + 300000`; it comes back unchanged for data that survives the JSON round trip |
| `Cache.SetLeavesOthers` | dashboard-admin/lib/cache-utils.ts:13 | setting one key does not change the reading of another |
| `Cache.StaleStaysStale` | dashboard-admin/lib/cache-utils.ts:25-28 | a stale item stays stale |
| `Cache.ClearOne` | dashboard-admin/lib/cache-utils.ts:36-37 | clearing a key removes that key alone |
| `Cache.ClearAll` | dashboard-admin/lib/cache-utils.ts:39-45 | clearing without a key removes exactly the `cache_` entries and leaves every other reading unchanged |
| `Cache.EmptyKeySweeps` | dashboard-admin/lib/cache-utils.ts:36 | an empty key sweeps like no key |

## Left out

- HTTP, robots.txt fetching, `time.sleep`, logging and file output (`_save_data`, `_save_analysis`) are left out. Fetch and parse are one function from URL to optional tree. This is sound because the loop fetches each URL at most once.
- The robots.txt read failure in the constructor (`main.py:56-62`) is not modelled. `canFetch` stands for whatever the parser answers.
- `urlparse`/`urlunparse` are modelled only as far as the origin and the fragment need. For the origin, the clean-up `urlsplit` does first is modelled: leading C0 controls and spaces are dropped, then every tab, CR and LF is deleted. `urljoin` is a parameter. Removing the fragment (`main.py:97-98`) re-parses the joined URL and rebuilds it with `geturl()`; that pass is taken to return `join`'s output unchanged up to the `#`. So the clean-up that this second parse does is not modelled either. Python's rebuild also lower-cases the scheme and drops an empty `?` or `;`, for example `mailto:x?` becomes `mailto:x`, and the model does not do that. The `ValueError` raised for a malformed IPv6 netloc is not modelled, so link extraction is total.
- Exceptions inside the crawl loop other than a failed fetch, such as an error raised during extraction, are not modelled.
- Page timestamps (`time.time()`) are not part of `Page`. The JSON file round trip between scraping and analysis is not modelled.
- `json.dumps` writes a dict's keys in insertion order (`content_analyzer.py:170`, `489`, `606`). `dumps` receives a `map<string, string>`, which has no order. In the program, two URL dicts with the same entries in different orders can give different prompts and token estimates. In the model they give the same ones.
- `_estimate_token_count` (tiktoken with a `len(text) // 3` fallback) is the parameter `est`. `int(count * 1.1)` is therefore inside the estimator.
- Splitting.KeptChars: computes `int(len * (eff / tokens) * 0.9)` in exact rational arithmetic, truncated toward zero. The float rounding of the source is not modelled.
- The choice between `_analyze_single` and `_analyze_parts` (`content_analyzer.py:360-388`) and `_analyze_single` itself are left out. They depend on the estimate of the full prompt text. `Splitting.FitsInOnePart` states the related property of the split.
- Prompt prose is left out. Only the parts of the prompts that carry numbering, content and URLs are modelled. The timestamp and `model_used` of the analysis result are also left out.
- Headings' empty `children` list is not represented. Nothing downstream reads it.
- Dashboard string lengths are Unicode scalar counts. JavaScript counts UTF-16 code units, so strings outside the Basic Multilingual Plane differ.
- `JSON.stringify`/`JSON.parse` of cache items are not modelled. Every unreadable entry (empty, unparseable, or without a numeric timestamp) is `Unusable` and reads as null.
- AES-256-CBC, SHA-256 and `crypto.randomBytes` are parameters. Their correctness appears as the requirement `Inverts` in `ApiKeyEnvelope.DecryptEncrypt`. The random bytes are assumed to have the lengths Node guarantees.
- ApiKeyEnvelope.DecryptApiKey: the failure cases carry Node's error codes, not its messages.
- The error classes, status enum and React-facing interfaces of `api-key.ts` hold no logic and are left out.

=== FILE: analysis.dfy ===
/**
  `_analyze_parts` (data_scrapper/content_analyzer.py): each part is sent
  to the completion service in order, the first with the initial prompt
  and the others with a continuation prompt that numbers them; a failed
  call leaves a placeholder. The URLs of all parts are merged and the
  partial analyses unified by one more call, or, when that call fails,
  joined under numbered headings.

  The completion service is passed in as `complete` (one call per part)
  and `unify` (the unification call); `json.dumps` as `dumps`. Only the
  parts of the prompts that carry numbering are modelled.
 */
module PartAnalysis {
  import opened Wrappers
  import opened Strings
  import opened Splitting

  /** One partial analysis: its part number, its text, and its part's URLs. */
  datatype Entry = Entry(partNumber: nat, content: string, urls: map<string, string>)

  /**
    The prompt for one part: the system message's context sentence, the
    part's lines joined by newlines and its URL table; a continuation
    prompt also carries the note and the part label that number it.
   */
  datatype PartPrompt =
    | Initial(context: string, content: string, urlsJson: string)
    | Continuation(context: string, note: string, partLabel: string, content: string, urlsJson: string)

  /** The result of the whole analysis. The timestamp and the model name are not modelled. */
  datatype Outcome = Outcome(summary: string, partsCount: nat, parts: seq<string>, unificationError: Option<string>)

  /** The note of `_build_continuation_prompt`, given the number of parts already analysed. */
  function ContinuationNote(previous: nat): string {
    "REMARQUE: Ceci est la partie " + NatToString(previous + 1) + " du contenu. "
      + NatToString(previous) + " parties ont déjà été analysées précédemment."
  }

  /** The context sentence of the system message for the first part. */
  const FirstContext: string := "Ceci est la première partie du contenu à analyser."

  /** The context sentence of the system message for part `n` of `total`. */
  function NextContext(n: nat, total: nat): string {
    "Ceci est la partie " + NatToString(n) + "/" + NatToString(total)
      + " du contenu. Continue l'analyse en tenant compte des résultats précédents."
  }

  /** The text that stands in for the analysis of part `n` when its call fails with `e`. */
  function Placeholder(n: nat, e: string): string {
    "[Erreur d'analyse pour la partie " + NatToString(n) + ": " + e + "]"
  }

  /**
    The prompt the loop builds for part `i`: the initial prompt for the
    first part, and otherwise a continuation prompt numbered from the
    analyses collected so far.
   */
  function BuildPrompt(i: nat, total: nat, part: Part, previous: seq<Entry>, dumps: map<string, string> -> string): PartPrompt {
    var text := JoinSep(part.content, "\n");
    if i == 0 then Initial(FirstContext, text, dumps(part.urls))
    else Continuation(NextContext(i + 1, total), ContinuationNote(|previous|), NatToString(|previous| + 1), text, dumps(part.urls))
  }

  /** The entry the loop appends for part `i`, given the service's answer. */
  function EntryOf(i: nat, part: Part, reply: Result<string>): Entry {
    Entry(i + 1, if reply.Success? then reply.value else Placeholder(i + 1, reply.error), part.urls)
  }

  // ---------------------------------------------------------------------
  // The reference: part `i` is numbered `i + 1` and `i` parts precede it.
  // ---------------------------------------------------------------------

  /** The prompt for part `i` of a list, stated by its position. */
  function PromptAt(i: nat, total: nat, part: Part, dumps: map<string, string> -> string): (pr: PartPrompt)
    ensures i == 0 <==> pr.Initial?
    ensures pr.content == JoinSep(part.content, "\n") && pr.urlsJson == dumps(part.urls)
    ensures pr.Initial? ==> pr.context == FirstContext
    ensures pr.Continuation? ==>
      && pr.context == NextContext(i + 1, total)
      && pr.note == ContinuationNote(i) && pr.partLabel == NatToString(i + 1)
  {
    var text := JoinSep(part.content, "\n");
    if i == 0 then Initial(FirstContext, text, dumps(part.urls))
    else Continuation(NextContext(i + 1, total), ContinuationNote(i), NatToString(i + 1), text, dumps(part.urls))
  }

  /** The entries of a whole list of parts, stated by position. */
  function Entries(parts: seq<Part>, dumps: map<string, string> -> string, complete: PartPrompt -> Result<string>)
    : (es: seq<Entry>)
    ensures |es| == |parts|
    ensures forall i :: 0 <= i < |parts| ==> es[i] == EntryOf(i, parts[i], complete(PromptAt(i, |parts|, parts[i], dumps)))
  {
    seq(|parts|, i requires 0 <= i < |parts| => EntryOf(i, parts[i], complete(PromptAt(i, |parts|, parts[i], dumps))))
  }

  /** `all_urls`: every part's URLs, a later part overwriting an earlier one. */
  function MergeUrls(es: seq<Entry>): map<string, string>
    decreases |es|
  {
    if es == [] then map[] else MergeUrls(es[..|es| - 1]) + es[|es| - 1].urls
  }

  /** One block of the unification prompt: `### ANALYSE PARTIE n/N ###`, a blank line, the text. */
  function UnificationBlock(e: Entry, total: nat): string {
    "### ANALYSE PARTIE " + NatToString(e.partNumber) + "/" + NatToString(total) + " ###\n\n" + e.content
  }

  /** The analyses as the unification prompt lists them. */
  function UnificationText(es: seq<Entry>): string {
    JoinSep(seq(|es|, i requires 0 <= i < |es| => UnificationBlock(es[i], |es|)), "\n\n")
  }

  /** One block of the fallback summary: `# Partie n`, a blank line, the text. */
  function FallbackBlock(e: Entry): string {
    "# Partie " + NatToString(e.partNumber) + "\n\n" + e.content
  }

  /** The summary used when unification fails: the blocks in order, blank-line separated. */
  function FallbackSummary(es: seq<Entry>): string {
    JoinSep(seq(|es|, i requires 0 <= i < |es| => FallbackBlock(es[i])), "\n\n")
  }

  function ContentsOf(es: seq<Entry>): (cs: seq<string>)
    ensures |cs| == |es| && forall i :: 0 <= i < |es| ==> cs[i] == es[i].content
  {
    seq(|es|, i requires 0 <= i < |es| => es[i].content)
  }

  // ---------------------------------------------------------------------
  // The loop as written.
  // ---------------------------------------------------------------------

  /**
    Phase 1 of `_analyze_parts`: the parts in order, the prompt of each
    numbered from the analyses collected before it.
   */
  method AnalyzeEach(parts: seq<Part>, dumps: map<string, string> -> string, complete: PartPrompt -> Result<string>)
    returns (analyses: seq<Entry>)
    ensures analyses == Entries(parts, dumps, complete)
  {
    analyses := [];
    var i := 0;
    while i < |parts|
      invariant 0 <= i <= |parts|
      invariant |analyses| == i
      invariant forall j :: 0 <= j < i ==> analyses[j] == EntryOf(j, parts[j], complete(PromptAt(j, |parts|, parts[j], dumps)))
    {
      var prompt := BuildPrompt(i, |parts|, parts[i], analyses, dumps);
      assert prompt == PromptAt(i, |parts|, parts[i], dumps);
      var reply := complete(prompt);
      analyses := analyses + [EntryOf(i, parts[i], reply)];
      i := i + 1;
    }
  }

  /** The `all_urls` loop: `update` with each analysis's URLs in turn. */
  method CollectUrls(analyses: seq<Entry>) returns (allUrls: map<string, string>)
    ensures allUrls == MergeUrls(analyses)
  {
    allUrls := map[];
    var k := 0;
    while k < |analyses|
      invariant 0 <= k <= |analyses|
      invariant allUrls == MergeUrls(analyses[..k])
    {
      assert analyses[..k + 1][..k] == analyses[..k];
      allUrls := allUrls + analyses[k].urls;
      k := k + 1;
    }
    assert analyses[..k] == analyses;
  }

  /**
    `_analyze_parts(parts, model, client)`. The parts are analysed in
    order; then the URLs are merged and the analyses unified, or joined
    under numbered headings when the unification call fails.
   */
  method AnalyzeParts(parts: seq<Part>, dumps: map<string, string> -> string,
                      complete: PartPrompt -> Result<string>,
                      unify: (string, string) -> Result<string>)
    returns (out: Outcome)
    ensures out.partsCount == |parts|
    ensures out.parts == ContentsOf(Entries(parts, dumps, complete))
    ensures var es := Entries(parts, dumps, complete);
      var u := unify(dumps(MergeUrls(es)), UnificationText(es));
      && (u.Success? ==> out.summary == u.value && out.unificationError == None)
      && (u.Failure? ==> out.summary == FallbackSummary(es) && out.unificationError == Some(u.error))
  {
    var analyses := AnalyzeEach(parts, dumps, complete);
    var allUrls := CollectUrls(analyses);
    var contents := ContentsOf(analyses);
    var u := unify(dumps(allUrls), UnificationText(analyses));
    if u.Success? {
      out := Outcome(u.value, |parts|, contents, None);
    } else {
      out := Outcome(FallbackSummary(analyses), |parts|, contents, Some(u.error));
    }
  }

  // ---------------------------------------------------------------------
  // Properties.
  // ---------------------------------------------------------------------

  /** Part `i` is the last of the entries whose URLs hold `k`. */
  predicate LastHolding(es: seq<Entry>, k: string, i: int) {
    0 <= i < |es| && k in es[i].urls && forall j :: i < j < |es| ==> k !in es[j].urls
  }

  /**
    A title is in the merged URLs exactly when some part's URLs hold it,
    and it maps to the URL of the last part that does.
   */
  lemma {:induction false} MergeUrlsSpec(es: seq<Entry>, k: string)
    ensures k in MergeUrls(es) <==> exists i :: 0 <= i < |es| && k in es[i].urls
    ensures k in MergeUrls(es) ==> exists i :: LastHolding(es, k, i) && MergeUrls(es)[k] == es[i].urls[k]
    decreases |es|
  {
    if es != [] {
      var last := |es| - 1;
      var init := es[..last];
      var m := MergeUrls(es);
      MergeUrlsSpec(init, k);
      assert m == MergeUrls(init) + es[last].urls;
      if k in es[last].urls {
        assert LastHolding(es, k, last) && m[k] == es[last].urls[k];
      } else {
        forall i | 0 <= i < |init| ensures init[i] == es[i] {
        }
        if k in MergeUrls(init) {
          var i :| LastHolding(init, k, i) && MergeUrls(init)[k] == init[i].urls[k];
          assert LastHolding(es, k, i);
        }
      }
    }
  }

  /**
    The entries are numbered 1..n in order and keep their part's URLs;
    each holds the service's answer for its part, or a placeholder that
    names the same number.
   */
  lemma EntriesNumbered(parts: seq<Part>, dumps: map<string, string> -> string, complete: PartPrompt -> Result<string>)
    ensures var es := Entries(parts, dumps, complete);
      forall i :: 0 <= i < |es| ==>
        && es[i].partNumber == i + 1
        && es[i].urls == parts[i].urls
        && (complete(PromptAt(i, |parts|, parts[i], dumps)).Success? ==>
              es[i].content == complete(PromptAt(i, |parts|, parts[i], dumps)).value)
        && (complete(PromptAt(i, |parts|, parts[i], dumps)).Failure? ==>
              StartsWith(es[i].content, "[Erreur d'analyse pour la partie " + NatToString(i + 1) + ": "))
  {
    var es := Entries(parts, dumps, complete);
    forall i | 0 <= i < |es| && complete(PromptAt(i, |parts|, parts[i], dumps)).Failure?
      ensures StartsWith(es[i].content, "[Erreur d'analyse pour la partie " + NatToString(i + 1) + ": ")
    {
      var e := complete(PromptAt(i, |parts|, parts[i], dumps)).error;
      var pre := "[Erreur d'analyse pour la partie " + NatToString(i + 1) + ": ";
      assert es[i].content == pre + (e + "]");
      assert (pre + (e + "]"))[..|pre|] == pre;
    }
  }

  /**
    The continuation prompt of part `i` and its system message both call
    it part `i + 1`, the number its entry carries, the note counting the
    `i` parts already analysed.
   */
  lemma ContinuationNumbering(parts: seq<Part>, i: nat, dumps: map<string, string> -> string, complete: PartPrompt -> Result<string>)
    requires 0 < i < |parts|
    ensures var pr := PromptAt(i, |parts|, parts[i], dumps);
      && pr.Continuation?
      && pr.partLabel == NatToString(Entries(parts, dumps, complete)[i].partNumber)
      && pr.context == NextContext(Entries(parts, dumps, complete)[i].partNumber, |parts|)
      && StartsWith(pr.note, "REMARQUE: Ceci est la partie " + pr.partLabel + " du contenu. " + NatToString(i))
  {
    var pr := PromptAt(i, |parts|, parts[i], dumps);
    var pre := "REMARQUE: Ceci est la partie " + pr.partLabel + " du contenu. " + NatToString(i);
    assert pr.note == pre + " parties ont déjà été analysées précédemment.";
    assert (pre + " parties ont déjà été analysées précédemment.")[..|pre|] == pre;
  }

  /**
    The fallback summary of one part is that part's block; of more, the
    first block, a blank line, and the summary of the others: the blocks
    appear in part order, each under its `# Partie n` heading.
   */
  lemma FallbackOrder(es: seq<Entry>)
    ensures |es| == 1 ==> FallbackSummary(es) == "# Partie " + NatToString(es[0].partNumber) + "\n\n" + es[0].content
    ensures |es| >= 2 ==> FallbackSummary(es) == FallbackBlock(es[0]) + "\n\n" + FallbackSummary(es[1..])
  {
    var bs := seq(|es|, i requires 0 <= i < |es| => FallbackBlock(es[i]));
    if |es| >= 2 {
      assert bs[1..] == seq(|es[1..]|, i requires 0 <= i < |es[1..]| => FallbackBlock(es[1..][i]));
    }
  }

  /** Every block of the unification prompt is labelled with its part number over the number of parts. */
  lemma UnificationLabels(parts: seq<Part>, dumps: map<string, string> -> string, complete: PartPrompt -> Result<string>, i: nat)
    requires i < |parts|
    ensures var es := Entries(parts, dumps, complete);
      StartsWith(UnificationBlock(es[i], |es|),
        "### ANALYSE PARTIE " + NatToString(i + 1) + "/" + NatToString(|parts|) + " ###")
  {
    var es := Entries(parts, dumps, complete);
    var pre := "### ANALYSE PARTIE " + NatToString(i + 1) + "/" + NatToString(|parts|) + " ###";
    assert UnificationBlock(es[i], |es|) == pre + ("\n\n" + es[i].content);
    assert (pre + ("\n\n" + es[i].content))[..|pre|] == pre;
  }
}

=== FILE: api_key.dfy ===
/**
  The API-key format of the dashboard (dashboard-admin/app/types/api-key.ts):
  its constants and the three validators. The validators guard a runtime
  `typeof … === 'string'` test, so their argument is a JavaScript value
  that may or may not be a string.
 */
module ApiKeys {
  import opened Wrappers
  import opened Strings

  /** `API_KEY_CONSTANTS`. */
  const Prefix: string := "sleet_"
  const DefaultByteLength: nat := 24
  const MinSecretLength: nat := 32
  const EncryptionAlgorithm: string := "aes-256-cbc"

  /** A JavaScript value as far as `typeof v === 'string'` can tell. */
  datatype JsValue = JsString(s: string) | NotAString

  /** `isValidProjectId`: a non-empty string. */
  function IsValidProjectId(v: JsValue): (ok: bool)
    ensures ok <==> exists s :: v == JsString(s) && s != []
  {
    v.JsString? && |v.s| > 0
  }

  /** `isValidApiKey`: a string that starts with the prefix and is longer than the prefix plus ten. */
  function IsValidApiKey(v: JsValue): (ok: bool)
    ensures ok <==> v.JsString? && |v.s| >= 17 && v.s[..6] == "sleet_"
  {
    v.JsString? && StartsWith(v.s, Prefix) && |v.s| > |Prefix| + 10
  }

  /** `isValidEncryptionSecret`: a string of at least `MIN_SECRET_LENGTH` characters. */
  function IsValidEncryptionSecret(v: JsValue): (ok: bool)
    ensures ok <==> v.JsString? && |v.s| >= 32
  {
    v.JsString? && |v.s| >= MinSecretLength
  }

  /** A key is valid exactly when it is the prefix followed by more than ten characters. */
  lemma ApiKeyShape(body: string)
    ensures IsValidApiKey(JsString(Prefix + body)) <==> |body| > 10
  {
    assert (Prefix + body)[..6] == Prefix;
  }

  /** A string that does not start with the prefix is refused whatever its length. */
  lemma ApiKeyNeedsPrefix(k: string)
    requires !StartsWith(k, Prefix)
    ensures !IsValidApiKey(JsString(k))
  {
  }

  /**
    The guard of the project-creation route: the environment's secret is
    refused when it is missing, empty (`!secret`) or shorter than 32.
   */
  function SecretConfigured(env: Option<string>): (ok: bool)
    ensures ok ==> env.Some?
  {
    !(env.None? || |env.value| == 0 || |env.value| < 32)
  }

  /**
    The route's guard and `isValidEncryptionSecret` accept the same
    secrets: the constant and the literal 32 agree.
   */
  lemma GuardAgreesWithValidator(env: Option<string>)
    ensures SecretConfigured(env) <==> env.Some? && IsValidEncryptionSecret(JsString(env.value))
  {
  }
}

=== FILE: api_key_utils.dfy ===
/**
  Key generation and the stored-key envelope (dashboard-admin/lib/api-key-utils.ts).
  A key is the prefix and 24 random bytes in hex; its encryption is the
  hex IV, a `:`, and the hex ciphertext. The random bytes, SHA-256 and
  the AES-256-CBC cipher/decipher pair are passed in: only the hex
  encoding, the envelope and Node's argument checks are modelled.
 */
module ApiKeyEnvelope {
  import opened Wrappers
  import opened Strings
  import opened ApiKeys

  newtype byte = x: int | 0 <= x < 256

  /** The IV length of AES-256-CBC and the key length SHA-256 produces, in bytes. */
  const IvLength: nat := 16
  const KeyLength: nat := 32

  // ---------------------------------------------------------------------
  // Node's `hex` encoding.
  // ---------------------------------------------------------------------

  predicate IsLowerHexChar(c: char) {
    ('0' <= c <= '9') || ('a' <= c <= 'f')
  }

  predicate IsLowerHex(s: string) {
    forall i :: 0 <= i < |s| ==> IsLowerHexChar(s[i])
  }

  /** The lower-case digit `Buffer.toString('hex')` writes for a nibble. */
  function HexDigit(d: nat): (c: char)
    requires d < 16
    ensures IsLowerHexChar(c)
  {
    if d < 10 then ('0' as int + d) as char else ('a' as int + d - 10) as char
  }

  /** The value of a hex digit as `Buffer.from(s, 'hex')` reads it: either case. */
  function HexValue(c: char): (r: Option<nat>)
    ensures r.Some? ==> r.value < 16
    ensures r.None? <==> !IsLowerHexChar(c) && !('A' <= c <= 'F')
  {
    if '0' <= c <= '9' then Some(c as int - '0' as int)
    else if 'a' <= c <= 'f' then Some(c as int - 'a' as int + 10)
    else if 'A' <= c <= 'F' then Some(c as int - 'A' as int + 10)
    else None
  }

  /** `Buffer.toString('hex')`: two lower-case digits per byte, high nibble first. */
  function HexEncode(bs: seq<byte>): (h: string)
    ensures |h| == 2 * |bs|
    ensures IsLowerHex(h)
    decreases |bs|
  {
    if bs == [] then []
    else
      var b := bs[0] as int;
      var rest := HexEncode(bs[1..]);
      var h := [HexDigit(b / 16), HexDigit(b % 16)] + rest;
      assert forall i :: 2 <= i < |h| ==> h[i] == rest[i - 2];
      h
  }

  /**
    `Buffer.from(s, 'hex')`: digit pairs from the left, stopping at the
    first pair that is not two hex digits and ignoring an odd last digit.
   */
  function HexDecode(s: string): (bs: seq<byte>)
    ensures |bs| <= |s| / 2
    decreases |s|
  {
    if |s| < 2 then []
    else
      var hi, lo := HexValue(s[0]), HexValue(s[1]);
      if hi.Some? && lo.Some? then [(16 * hi.value + lo.value) as byte] + HexDecode(s[2..]) else []
  }

  lemma DigitValue(d: nat)
    requires d < 16
    ensures HexValue(HexDigit(d)) == Some(d)
  {
  }

  /** Decoding the hex of a byte string gives the byte string back. */
  lemma {:induction false} HexRoundTrip(bs: seq<byte>)
    ensures HexDecode(HexEncode(bs)) == bs
    decreases |bs|
  {
    if bs != [] {
      var b := bs[0] as int;
      var h := HexEncode(bs);
      DigitValue(b / 16);
      DigitValue(b % 16);
      assert h[2..] == HexEncode(bs[1..]);
      HexRoundTrip(bs[1..]);
      assert [bs[0]] + bs[1..] == bs;
    }
  }

  /** Hex text never holds the envelope's separator. */
  lemma HexHasNoColon(s: string)
    requires IsLowerHex(s)
    ensures NoChar(s, ':')
  {
    forall i | 0 <= i < |s| ensures s[i] != ':' {
      assert IsLowerHexChar(s[i]);
    }
  }

  /** Different byte strings have different hex encodings. */
  lemma HexInjective(a: seq<byte>, b: seq<byte>)
    requires HexEncode(a) == HexEncode(b)
    ensures a == b
  {
    HexRoundTrip(a);
    HexRoundTrip(b);
  }

  // ---------------------------------------------------------------------
  // `generateApiKey`.
  // ---------------------------------------------------------------------

  /** `generateApiKey()`, given the 24 bytes `crypto.randomBytes(24)` returned. */
  function GenerateApiKey(random: seq<byte>): (k: string)
    requires |random| == DefaultByteLength
    ensures |k| == 54
    ensures StartsWith(k, Prefix) && IsLowerHex(k[6..])
    ensures IsValidApiKey(JsString(k))
  {
    var k := "sleet_" + HexEncode(random);
    assert k[..6] == Prefix && k[6..] == HexEncode(random);
    k
  }

  /** The random bytes can be read back from the key: distinct bytes give distinct keys. */
  lemma GeneratedKeyDeterminesBytes(random: seq<byte>)
    requires |random| == DefaultByteLength
    ensures HexDecode(GenerateApiKey(random)[6..]) == random
  {
    assert GenerateApiKey(random)[6..] == HexEncode(random);
    HexRoundTrip(random);
  }

  // ---------------------------------------------------------------------
  // `encryptApiKey` / `decryptApiKey`.
  // ---------------------------------------------------------------------

  /**
    `crypto.createCipheriv('aes-256-cbc', key, iv)` fed the key in UTF-8:
    `update` and `final` together give these ciphertext bytes.
   */
  type Cipher = (seq<byte>, seq<byte>, string) -> seq<byte>

  /** The matching decipher; `final` can fail (a bad padding, say). */
  type Decipher = (seq<byte>, seq<byte>, seq<byte>) -> Result<string>

  /** The decipher undoes the cipher for every 32-byte key and 16-byte IV. */
  ghost predicate Inverts(cipher: Cipher, decipher: Decipher) {
    forall key, iv, plain :: |key| == KeyLength && |iv| == IvLength ==>
      decipher(key, iv, cipher(key, iv, plain)) == Success(plain)
  }

  /**
    `encryptApiKey(apiKey, secret)`, given the IV `crypto.randomBytes(16)`
    returned and `sha256` for the digest of the secret.
   */
  function EncryptApiKey(apiKey: string, secret: string, iv: seq<byte>,
                         sha256: string -> seq<byte>, cipher: Cipher): (r: string)
    requires |iv| == IvLength && |sha256(secret)| == KeyLength
    ensures |r| > 32 && IsLowerHex(r[..32]) && r[32] == ':' && IsLowerHex(r[33..])
    ensures HexDecode(r[..32]) == iv
  {
    var ivHex := HexEncode(iv);
    var ct := HexEncode(cipher(sha256(secret), iv, apiKey));
    var r := ivHex + ":" + ct;
    assert r[..32] == ivHex && r[33..] == ct;
    HexRoundTrip(iv);
    r
  }

  /** Node's error codes for the four ways `decryptApiKey` can fail before deciphering. */
  const InvalidKeyLength: string := "ERR_CRYPTO_INVALID_KEYLEN"
  const InvalidIv: string := "ERR_CRYPTO_INVALID_IV"
  const MissingData: string := "ERR_INVALID_ARG_TYPE"
  const OddHex: string := "ERR_INVALID_ARG_VALUE"

  /**
    `decryptApiKey(encrypted, secret)`. The text is split on every `:`;
    the first piece is read as the IV and the second as the ciphertext,
    any further piece being ignored. `createDecipheriv` refuses an IV
    that is not 16 bytes, and then a key that is not 32; `update` refuses a
    missing ciphertext and, unlike `Buffer.from`, hex text of odd length.
   */
  function DecryptApiKey(encrypted: string, secret: string,
                         sha256: string -> seq<byte>, decipher: Decipher): (r: Result<string>)
    ensures var pieces := SplitOn(encrypted, ':');
      r.Success? ==>
        && |pieces| >= 2 && |HexDecode(pieces[0])| == IvLength && |sha256(secret)| == KeyLength
        && |pieces[1]| % 2 == 0
        && r == decipher(sha256(secret), HexDecode(pieces[0]), HexDecode(pieces[1]))
    ensures var pieces := SplitOn(encrypted, ':');
      |pieces| >= 2 && |HexDecode(pieces[0])| == IvLength && |sha256(secret)| == KeyLength
      && |pieces[1]| % 2 == 0 ==>
        r == decipher(sha256(secret), HexDecode(pieces[0]), HexDecode(pieces[1]))
  {
    var pieces := SplitOn(encrypted, ':');
    var iv := HexDecode(pieces[0]);
    var key := sha256(secret);
    if |iv| != IvLength then Failure(InvalidIv)
    else if |key| != KeyLength then Failure(InvalidKeyLength)
    else if |pieces| < 2 then Failure(MissingData)
    else if |pieces[1]| % 2 == 1 then Failure(OddHex)
    else decipher(key, iv, HexDecode(pieces[1]))
  }

  /** The envelope splits on `:` into exactly the IV's hex and the ciphertext's hex. */
  lemma SplitEnvelope(apiKey: string, secret: string, iv: seq<byte>, sha256: string -> seq<byte>, cipher: Cipher)
    requires |iv| == IvLength && |sha256(secret)| == KeyLength
    ensures SplitOn(EncryptApiKey(apiKey, secret, iv, sha256, cipher), ':')
      == [HexEncode(iv), HexEncode(cipher(sha256(secret), iv, apiKey))]
  {
    var ivHex := HexEncode(iv);
    var ct := HexEncode(cipher(sha256(secret), iv, apiKey));
    HexHasNoColon(ivHex);
    HexHasNoColon(ct);
    assert ivHex + ":" + ct == ivHex + [':'] + ct;
    SplitAtFirst(ivHex, ':', ct);
    SplitNoSeparator(ct, ':');
  }

  /** Decrypting with the same secret gives the key back, when the decipher inverts the cipher. */
  lemma DecryptEncrypt(apiKey: string, secret: string, iv: seq<byte>,
                       sha256: string -> seq<byte>, cipher: Cipher, decipher: Decipher)
    requires Inverts(cipher, decipher)
    requires |iv| == IvLength && |sha256(secret)| == KeyLength
    ensures DecryptApiKey(EncryptApiKey(apiKey, secret, iv, sha256, cipher), secret, sha256, decipher) == Success(apiKey)
  {
    var key := sha256(secret);
    var ct := cipher(key, iv, apiKey);
    SplitEnvelope(apiKey, secret, iv, sha256, cipher);
    HexRoundTrip(iv);
    HexRoundTrip(ct);
  }

  /** A stored value without a `:` cannot be decrypted. */
  lemma NoSeparatorFails(encrypted: string, secret: string, sha256: string -> seq<byte>, decipher: Decipher)
    requires NoChar(encrypted, ':')
    ensures DecryptApiKey(encrypted, secret, sha256, decipher).Failure?
  {
    SplitNoSeparator(encrypted, ':');
  }

  /** An IV written with fewer than 32 hex digits is refused before anything is deciphered. */
  lemma ShortIvFails(ivHex: string, rest: string, secret: string, sha256: string -> seq<byte>, decipher: Decipher)
    requires NoChar(ivHex, ':') && |ivHex| < 32
    ensures DecryptApiKey(ivHex + ":" + rest, secret, sha256, decipher).Failure?
  {
    assert ivHex + ":" + rest == ivHex + [':'] + rest;
    SplitAtFirst(ivHex, ':', rest);
  }

  /**
    A ciphertext with one hex digit too many is refused by `update`, even
    though `Buffer.from` would have read it by dropping the digit.
   */
  lemma OddCiphertextFails(apiKey: string, secret: string, iv: seq<byte>,
                           sha256: string -> seq<byte>, cipher: Cipher, decipher: Decipher, d: char)
    requires |iv| == IvLength && |sha256(secret)| == KeyLength
    requires IsLowerHexChar(d)
    ensures DecryptApiKey(EncryptApiKey(apiKey, secret, iv, sha256, cipher) + [d], secret, sha256, decipher)
      == Failure(OddHex)
  {
    var ivHex := HexEncode(iv);
    var ct := HexEncode(cipher(sha256(secret), iv, apiKey)) + [d];
    HexHasNoColon(ivHex);
    HexHasNoColon(ct);
    assert EncryptApiKey(apiKey, secret, iv, sha256, cipher) + [d] == ivHex + [':'] + ct;
    SplitAtFirst(ivHex, ':', ct);
    SplitNoSeparator(ct, ':');
    HexRoundTrip(iv);
  }
}

=== FILE: cache.dfy ===
/**
  The dashboard's time-stamped cache (dashboard-admin/lib/cache-utils.ts).
  `localStorage` is a map from keys to what is stored under them, and
  `Date.now()` is the parameter `now`, in milliseconds. The JSON text is
  not modelled: an item is either a well-formed `{data, timestamp}`
  record or something `getCache` cannot use (an empty string, text that
  does not parse, or a record without a numeric timestamp).
 */
module Cache {
  import opened Wrappers
  import opened Strings

  /** `CACHE_DURATION`: five minutes in milliseconds. */
  const CacheDuration: int := 5 * 60 * 1000

  /** The prefix `clearCache()` sweeps. */
  const CachePrefix: string := "cache_"

  datatype Stored<T> = Item(data: T, timestamp: int) | Unusable

  type Storage<T> = map<string, Stored<T>>

  /** An item written at `timestamp` is still fresh at `now`. */
  predicate Fresh(timestamp: int, now: int) {
    now - timestamp < CacheDuration
  }

  /** `setCache(key, data)` at time `now`: replaces whatever was under `key`. */
  function SetCache<T>(store: Storage<T>, key: string, data: T, now: int): (s: Storage<T>)
    ensures s.Keys == store.Keys + {key}
    ensures s[key] == Item(data, now)
    ensures forall k :: k in store && k != key ==> s[k] == store[k]
  {
    store[key := Item(data, now)]
  }

  /** `getCache(key)` at time `now`: the data of a fresh, well-formed item, and nothing otherwise. */
  function GetCache<T>(store: Storage<T>, key: string, now: int): (r: Option<T>)
    ensures r.Some? <==> key in store && store[key].Item? && now - store[key].timestamp < 300000
    ensures r.Some? ==> r.value == store[key].data
  {
    if key !in store then None
    else match store[key]
      case Unusable => None
      case Item(data, timestamp) => if Fresh(timestamp, now) then Some(data) else None
  }

  /**
    `clearCache(key?)`: a key removes that entry alone; no key, or the
    empty key (falsy in JavaScript), removes every entry whose key starts
    with `cache_`.
   */
  function ClearCache<T>(store: Storage<T>, key: Option<string>): (s: Storage<T>)
    ensures s.Keys <= store.Keys
    ensures forall k :: k in s ==> s[k] == store[k]
  {
    if key.Some? && key.value != "" then store - {key.value}
    else map k | k in store && !StartsWith(k, CachePrefix) :: store[k]
  }

  /**
    What `setCache` wrote is read back exactly while it is fresh, and not at
    all after. "Exactly" holds for data that survives `JSON.stringify` and
    `JSON.parse` unchanged; the JSON round trip is not modelled.
   */
  lemma SetThenGet<T>(store: Storage<T>, key: string, data: T, written: int, now: int)
    ensures GetCache(SetCache(store, key, data, written), key, now)
      == if now < written + 300000 then Some(data) else None
  {
  }

  /** Writing one key leaves every other key's reading unchanged. */
  lemma SetLeavesOthers<T>(store: Storage<T>, key: string, data: T, written: int, other: string, now: int)
    requires other != key
    ensures GetCache(SetCache(store, key, data, written), other, now) == GetCache(store, other, now)
  {
  }

  /** An entry that has gone stale stays stale as time goes on. */
  lemma StaleStaysStale<T>(store: Storage<T>, key: string, now: int, later: int)
    requires now <= later
    requires key in store && store[key].Item? && GetCache(store, key, now).None?
    ensures GetCache(store, key, later).None?
  {
  }

  /** Clearing one key removes exactly that key. */
  lemma ClearOne<T>(store: Storage<T>, key: string)
    requires key != ""
    ensures var s := ClearCache(store, Some(key));
      s.Keys == store.Keys - {key} && forall k :: k in s ==> s[k] == store[k]
  {
  }

  /**
    Clearing without a key removes exactly the `cache_` entries, whose
    readings all become empty, and keeps every other entry as it was.
   */
  lemma ClearAll<T>(store: Storage<T>, now: int)
    ensures var s := ClearCache(store, None);
      && (forall k :: k in s <==> k in store && !StartsWith(k, "cache_"))
      && (forall k :: StartsWith(k, "cache_") ==> GetCache(s, k, now).None?)
      && (forall k :: !StartsWith(k, "cache_") ==> GetCache(s, k, now) == GetCache(store, k, now))
  {
  }

  /** An empty key is not a key: it sweeps like no key at all. */
  lemma EmptyKeySweeps<T>(store: Storage<T>)
    ensures ClearCache(store, Some("")) == ClearCache(store, None)
  {
  }
}

=== FILE: collections.dfy ===
/**
  Facts about sequences and maps, stated once for any element type
  so that each is proved in a context free of the model's own functions.
 */
module Collections {
  /** A prefix of a sequence is unchanged by appending an element. */
  lemma PrefixOfSnoc<T>(a: seq<T>, x: T, k: nat)
    requires k <= |a|
    ensures (a + [x])[..k] == a[..k]
    ensures k < |a| ==> (a + [x])[k] == a[k]
  {
  }

  /** Taking a prefix of a prefix. */
  lemma PrefixOfPrefix<T>(a: seq<T>, n: nat, k: nat)
    requires k <= n <= |a|
    ensures a[..n][..k] == a[..k]
    ensures k < n ==> a[..n][k] == a[k]
  {
  }

  /** A sequence is its prefix and its last element. */
  lemma SnocLast<T>(a: seq<T>)
    requires |a| > 0
    ensures a[..|a| - 1] + [a[|a| - 1]] == a
  {
  }

  /** The last element of the right operand of an append, split off. */
  lemma SplitLast<T>(a: seq<T>, v: seq<T>)
    requires |v| > 0
    ensures a + v == (a + v[..|v| - 1]) + [v[|v| - 1]]
    ensures |v| == 1 ==> a + v[..|v| - 1] == a && v == [v[0]]
    ensures |v| > 1 ==> (a + v[..|v| - 1])[|a|] == v[0]
  {
  }

  /** What appending an element leaves in front of it. */
  lemma SnocInit<T>(a: seq<T>, x: T)
    ensures (a + [x])[..|a|] == a && (a + [x])[|a|] == x
  {
  }

  /** A prefix that reaches into the right operand of an append. */
  lemma PrefixOfAppend<T>(a: seq<T>, b: seq<T>, k: nat)
    requires k <= |b|
    ensures (a + b)[..|a| + k] == a + b[..k]
  {
  }

  /** A sequence around one of its elements. */
  lemma SplitAt<T>(a: seq<T>, i: nat)
    requires i < |a|
    ensures a == a[..i] + ([a[i]] + a[i + 1..])
  {
  }

  lemma EmptyAppend<T>(a: seq<T>)
    ensures [] + a == a
  {
  }

  /** Taking the whole of a sequence gives it back. */
  lemma TakeAll<T>(a: seq<T>)
    ensures a[..|a|] == a
  {
  }

  lemma AppendEmpty<T>(a: seq<T>)
    ensures a + [] == a
  {
  }

  /** Updating a map with the empty map changes nothing. */
  lemma UpdateWithEmpty<K, V>(m: map<K, V>)
    ensures m + map[] == m
  {
  }

  /** A key of a map update, and what it maps to: the right operand wins. */
  lemma UpdateLookup<K, V>(a: map<K, V>, b: map<K, V>, k: K)
    ensures k in a + b <==> k in a || k in b
    ensures k in b ==> (a + b)[k] == b[k]
    ensures k in a && k !in b ==> (a + b)[k] == a[k]
  {
  }
}

=== FILE: content.dfy ===
/**
  The typed content tree the crawler emits for a page, and the page record
  that carries it into the corpus.
 */
module Content {
  import opened Wrappers
  import opened Strings

  type HeadingLevel = x: int | 1 <= x <= 6 witness 1

  datatype ListKind = Unordered | Ordered

  /**
    One extracted block. `kind` is the list's `list_type` and an image's
    `title` is its `title` attribute; both are `None` once the analyzer's
    optimisation has dropped those keys.
   */
  datatype ContentNode =
    | Heading(level: HeadingLevel, text: string)
    | Paragraph(text: string)
    | ListBlock(kind: Option<ListKind>, items: seq<string>)
    | Image(src: string, alt: string, title: Option<string>)
    | Container(tag: string, children: seq<ContentNode>)

  /** A crawled page. The fetch timestamp is not modelled. */
  datatype Page = Page(url: string, title: string, metadata: map<string, string>, content: seq<ContentNode>)

  /** The corpus: page identifiers with their pages, in insertion order. */
  type Corpus = seq<(string, Page)>

  predicate IsContainerTag(tag: string) {
    tag == "div" || tag == "section" || tag == "article"
  }

  /**
    The shape of a node as the crawler emits it: trimmed texts, no empty
    paragraph, list or image source, and no empty container at any depth.
   */
  predicate Extracted(n: ContentNode)
    decreases n
  {
    match n
    case Heading(_, text) => IsStripped(text)
    case Paragraph(text) => text != "" && IsStripped(text)
    case ListBlock(kind, items) =>
      kind.Some? && |items| >= 1 && forall i :: 0 <= i < |items| ==> IsStripped(items[i])
    case Image(src, _, title) => src != "" && title.Some?
    case Container(tag, children) =>
      IsContainerTag(tag) && |children| >= 1 && forall i :: 0 <= i < |children| ==> Extracted(children[i])
  }
}

=== FILE: crawler.dfy ===
/**
  The crawl loop of `WebScraper.scrape` (data_scrapper/main.py): a
  breadth-first walk from the start URL over admitted links, fetching each
  URL at most once and filing every page it could fetch under a five-digit
  identifier. The HTTP request and the parser are one function `fetch`
  from a URL to its parsed document, or `None` when the request or the
  parse fails; the politeness delay and the logging are left out.
 */
module Crawler {
  import opened Wrappers
  import opened Strings
  import opened Html
  import opened Content
  import opened Urls
  import opened Extractor

  /** `str(page_count).zfill(5)`: the corpus key of the `i`-th fetched page. */
  function PageId(i: nat): (id: string)
    ensures |id| >= 5
    ensures forall k :: 0 <= k < |id| ==> IsDigit(id[k])
    ensures ParseNat(id) == i
  {
    ParsePadded(i, 5);
    ZFill(NatToString(i), 5)
  }

  /** Different pages never share a key, so no page overwrites another. */
  lemma PageIdsDistinct(i: nat, j: nat)
    requires i != j
    ensures PageId(i) != PageId(j)
  {
    PaddedInjective(i, j, 5);
  }

  predicate Distinct(xs: seq<string>) {
    forall i, j :: 0 <= i < j < |xs| ==> xs[i] != xs[j]
  }

  /** A list with no repetition, less its last element, has none either, and never held that element. */
  lemma DistinctSnoc(init: seq<string>, last: string)
    ensures Distinct(init + [last]) ==> Distinct(init) && last !in init
  {
    var xs := init + [last];
    if Distinct(xs) {
      forall i, j | 0 <= i < j < |init| ensures init[i] != init[j] {
        assert init[i] == xs[i] && init[j] == xs[j];
      }
      forall i | 0 <= i < |init| ensures init[i] != last {
        assert init[i] == xs[i] && last == xs[|init|];
      }
    }
  }

  /** The requested URLs whose fetch succeeded, in request order. */
  function Successes(requests: seq<string>, fetch: string -> Option<seq<Node>>): (r: seq<string>)
    ensures |r| <= |requests|
    ensures forall i :: 0 <= i < |r| ==> r[i] in requests && fetch(r[i]).Some?
    ensures forall u :: u in requests && fetch(u).Some? ==> u in r
    ensures Distinct(requests) ==> Distinct(r)
    decreases |requests|
  {
    if requests == [] then []
    else
      var init, last := requests[..|requests| - 1], requests[|requests| - 1];
      var front := Successes(init, fetch);
      assert requests == init + [last];
      DistinctSnoc(init, last);
      front + (if fetch(last).Some? then [last] else [])
  }

  /** The URLs of the corpus pages, in corpus order. */
  function PageUrls(corpus: Corpus): (r: seq<string>)
    ensures |r| == |corpus|
    ensures forall i :: 0 <= i < |corpus| ==> r[i] == corpus[i].1.url
  {
    seq(|corpus|, i requires 0 <= i < |corpus| => corpus[i].1.url)
  }

  /** The admitted links of the page at `url`, or none when it cannot be fetched. */
  function LinksOf(url: string, pol: LinkPolicy, fetch: string -> Option<seq<Node>>): seq<string> {
    if fetch(url).Some? then ExtractLinks(fetch(url).value, url, pol) else []
  }

  /** The links not yet visited, in order: what one page adds to the queue. */
  function Unvisited(links: seq<string>, visited: set<string>): (r: seq<string>)
    ensures forall l :: l in r <==> l in links && l !in visited
  {
    if links == [] then []
    else (if links[0] in visited then [] else [links[0]]) + Unvisited(links[1..], visited)
  }

  /** Links are queued in the order the page lists them: two runs queue those of each, in turn. */
  lemma {:induction false} UnvisitedAppend(a: seq<string>, b: seq<string>, visited: set<string>)
    ensures Unvisited(a + b, visited) == Unvisited(a, visited) + Unvisited(b, visited)
    decreases |a|
  {
    if a == [] {
      assert a + b == b;
    } else {
      assert (a + b)[0] == a[0];
      assert (a + b)[1..] == a[1..] + b;
      UnvisitedAppend(a[1..], b, visited);
    }
  }

  /** The elements of a list, as a set. */
  function Members(xs: seq<string>): (r: set<string>)
    ensures forall u :: u in r <==> u in xs
  {
    set u | u in xs
  }

  lemma MembersSnoc(xs: seq<string>, x: string)
    ensures Members(xs + [x]) == Members(xs) + {x}
  {
  }

  /** The first occurrence of each element, in order: what the `visited` check lets through. */
  function Dedup(xs: seq<string>): (r: seq<string>)
    ensures forall u :: u in r <==> u in xs
    ensures Distinct(r)
    decreases |xs|
  {
    if xs == [] then []
    else
      var init, last := xs[..|xs| - 1], xs[|xs| - 1];
      var d := Dedup(init);
      assert xs == init + [last];
      if last in init then d
      else
        assert forall i :: 0 <= i < |d| ==> d[i] in init;
        d + [last]
  }

  /** The requests up to and including the first request of `u`; all of them when `u` was not requested. */
  function RequestsThrough(requests: seq<string>, u: string): (r: seq<string>)
    decreases |requests|
  {
    if requests == [] then []
    else if requests[0] == u then [u]
    else [requests[0]] + RequestsThrough(requests[1..], u)
  }

  /** Later requests do not change what had been requested when `u` was. */
  lemma {:induction false} RequestsThroughSnoc(requests: seq<string>, u: string, x: string)
    requires u in requests
    ensures RequestsThrough(requests + [x], u) == RequestsThrough(requests, u)
    decreases |requests|
  {
    assert (requests + [x])[0] == requests[0];
    if requests[0] != u {
      assert (requests + [x])[1..] == requests[1..] + [x];
      RequestsThroughSnoc(requests[1..], u, x);
    }
  }

  /** A URL requested for the first time has every request before it, and itself, behind it. */
  lemma {:induction false} RequestsThroughNew(requests: seq<string>, u: string)
    requires u !in requests
    ensures RequestsThrough(requests + [u], u) == requests + [u]
    decreases |requests|
  {
    if requests == [] {
      assert requests + [u] == [u];
    } else {
      assert (requests + [u])[0] == requests[0];
      assert (requests + [u])[1..] == requests[1..] + [u];
      RequestsThroughNew(requests[1..], u);
    }
  }

  /**
    Every URL the loop appends to the queue, in the order it appends them:
    the start URL, then, page by page in filing order, the page's links
    that had not been visited when it was fetched.
   */
  function Enqueued(startUrl: string, corpus: Corpus, requests: seq<string>,
                    pol: LinkPolicy, fetch: string -> Option<seq<Node>>): seq<string>
    decreases |corpus|
  {
    if corpus == [] then [startUrl]
    else
      var url := corpus[|corpus| - 1].1.url;
      Enqueued(startUrl, corpus[..|corpus| - 1], requests, pol, fetch)
        + Unvisited(LinksOf(url, pol, fetch), Members(RequestsThrough(requests, url)))
  }

  /** Requests made after every filed page leave the queue's history unchanged. */
  lemma {:induction false} EnqueuedSnoc(startUrl: string, corpus: Corpus, requests: seq<string>, x: string,
                                         pol: LinkPolicy, fetch: string -> Option<seq<Node>>)
    requires forall j :: 0 <= j < |corpus| ==> corpus[j].1.url in requests
    ensures Enqueued(startUrl, corpus, requests + [x], pol, fetch) == Enqueued(startUrl, corpus, requests, pol, fetch)
    decreases |corpus|
  {
    if corpus != [] {
      var init := corpus[..|corpus| - 1];
      assert forall j :: 0 <= j < |init| ==> init[j] == corpus[j];
      EnqueuedSnoc(startUrl, init, requests, x, pol, fetch);
      RequestsThroughSnoc(requests, corpus[|corpus| - 1].1.url, x);
    }
  }

  /**
    The crawl is breadth-first: the URLs requested are, first occurrences
    only, a prefix of the queue's history, so a page is requested only
    after every URL queued before it has been taken off the queue.
   */
  ghost predicate BreadthFirst(requests: seq<string>, startUrl: string, corpus: Corpus,
                               pol: LinkPolicy, fetch: string -> Option<seq<Node>>) {
    var log := Enqueued(startUrl, corpus, requests, pol, fetch);
    exists p :: 0 <= p <= |log| && requests == Dedup(log[..p])
  }

  /** Whether `url` is a link of one of the first pages of the corpus. */
  ghost predicate Discovered(url: string, corpus: Corpus, pol: LinkPolicy, fetch: string -> Option<seq<Node>>) {
    exists j :: 0 <= j < |corpus| && url in LinksOf(corpus[j].1.url, pol, fetch)
  }

  /**
    The crawler's state between two iterations of the loop. `popped` lists
    every URL taken off the queue, in order, whether or not it was requested.
   */
  datatype Crawl = Crawl(queue: seq<string>, visited: set<string>, corpus: Corpus, requests: seq<string>,
                         popped: seq<string>)

  /**
    One iteration of the loop: pop the next URL; skip it if it was visited,
    otherwise mark it visited, fetch it, and on success file its page under
    the next key and queue its links that are not yet visited.
   */
  function Step(c: Crawl, pol: LinkPolicy, fetch: string -> Option<seq<Node>>): (r: Crawl)
    requires |c.queue| > 0
    ensures |r.corpus| == |c.corpus| + 1 || (|r.corpus| == |c.corpus| && |r.queue| == |c.queue| - 1)
    ensures c.queue[0] in c.visited ==> r.requests == c.requests
    ensures c.queue[0] !in c.visited ==> r.requests == c.requests + [c.queue[0]]
    ensures |r.corpus| == |c.corpus| + 1 <==> c.queue[0] !in c.visited && fetch(c.queue[0]).Some?
    ensures r.popped == c.popped + [c.queue[0]]
  {
    var url := c.queue[0];
    var popped := c.popped + [url];
    if url in c.visited then c.(queue := c.queue[1..], popped := popped)
    else
      var visited := c.visited + {url};
      var doc := fetch(url);
      if doc.Some? then
        Crawl(c.queue[1..] + Unvisited(ExtractLinks(doc.value, url, pol), visited), visited,
              c.corpus + [(PageId(|c.corpus|), ExtractData(doc.value, url))], c.requests + [url], popped)
      else Crawl(c.queue[1..], visited, c.corpus, c.requests + [url], popped)
  }

  /** `visited` is the set of requested URLs, and no URL was requested twice. */
  ghost predicate Bookkept(c: Crawl) {
    && (forall u :: u in c.visited <==> u in c.requests)
    && Distinct(c.requests)
    && |c.corpus| <= |c.requests|
  }

  /** Each fetched page is filed, in request order, under its position as key. */
  ghost predicate Filed(c: Crawl, fetch: string -> Option<seq<Node>>) {
    && Keyed(c.corpus)
    && Parsed(c.corpus, fetch)
    && PageUrls(c.corpus) == Successes(c.requests, fetch)
  }

  ghost predicate Keyed(corpus: Corpus) {
    forall i :: 0 <= i < |corpus| ==> corpus[i].0 == PageId(i)
  }

  /** Each page is what `_extract_data` makes of the document fetched from its URL. */
  ghost predicate Parsed(corpus: Corpus, fetch: string -> Option<seq<Node>>) {
    forall i :: 0 <= i < |corpus| ==>
      var url := corpus[i].1.url;
      fetch(url).Some? && corpus[i].1 == ExtractData(fetch(url).value, url)
  }

  /** The start URL is the first request. */
  ghost predicate Started(c: Crawl, startUrl: string) {
    && (c.requests == [] ==> c.queue == [startUrl])
    && (|c.requests| > 0 ==> c.requests[0] == startUrl)
  }

  /** Every queued or requested URL is the start URL or a link of a fetched page. */
  ghost predicate Traced(c: Crawl, startUrl: string, pol: LinkPolicy, fetch: string -> Option<seq<Node>>) {
    && (forall k :: 0 <= k < |c.queue| ==> c.queue[k] == startUrl || Discovered(c.queue[k], c.corpus, pol, fetch))
    && (forall i :: 0 <= i < |c.requests| ==> c.requests[i] == startUrl || Discovered(c.requests[i], c.corpus, pol, fetch))
  }

  /** Every link of a fetched page has been visited or is waiting in the queue. */
  ghost predicate Closed(c: Crawl, pol: LinkPolicy, fetch: string -> Option<seq<Node>>) {
    forall j, l :: 0 <= j < |c.corpus| && l in LinksOf(c.corpus[j].1.url, pol, fetch) ==> l in c.visited || l in c.queue
  }

  /** FIFO order: what was popped and what waits make up the queue's history, and requests are first pops. */
  ghost predicate Ordered(c: Crawl, startUrl: string, pol: LinkPolicy, fetch: string -> Option<seq<Node>>) {
    && c.popped + c.queue == Enqueued(startUrl, c.corpus, c.requests, pol, fetch)
    && c.requests == Dedup(c.popped)
  }

  ghost predicate Inv(c: Crawl, startUrl: string, pol: LinkPolicy, fetch: string -> Option<seq<Node>>) {
    Bookkept(c) && Filed(c, fetch) && Started(c, startUrl) && Traced(c, startUrl, pol, fetch) && Closed(c, pol, fetch)
  }

  lemma StepBookkept(c: Crawl, pol: LinkPolicy, fetch: string -> Option<seq<Node>>)
    requires |c.queue| > 0 && Bookkept(c)
    ensures Bookkept(Step(c, pol, fetch))
  {
  }

  lemma StepFiled(c: Crawl, pol: LinkPolicy, fetch: string -> Option<seq<Node>>)
    requires |c.queue| > 0 && Filed(c, fetch)
    ensures Filed(Step(c, pol, fetch), fetch)
  {
    var url := c.queue[0];
    var r := Step(c, pol, fetch);
    if url !in c.visited {
      SuccessesSnoc(c.requests, url, fetch);
      if fetch(url).Some? {
        var entry := (PageId(|c.corpus|), ExtractData(fetch(url).value, url));
        assert r.corpus == c.corpus + [entry];
        AppendKeyed(c.corpus, entry);
        AppendParsed(c.corpus, entry, fetch);
        PageUrlsSnoc(c.corpus, entry);
      }
    }
  }

  lemma SuccessesSnoc(requests: seq<string>, url: string, fetch: string -> Option<seq<Node>>)
    ensures Successes(requests + [url], fetch)
      == Successes(requests, fetch) + (if fetch(url).Some? then [url] else [])
  {
    assert (requests + [url])[..|requests|] == requests;
  }

  lemma PageUrlsSnoc(corpus: Corpus, entry: (string, Page))
    ensures PageUrls(corpus + [entry]) == PageUrls(corpus) + [entry.1.url]
  {
    var a := PageUrls(corpus + [entry]);
    var b := PageUrls(corpus) + [entry.1.url];
    assert |a| == |b|;
    forall i | 0 <= i < |a| ensures a[i] == b[i] {
      if i < |corpus| {
        assert (corpus + [entry])[i] == corpus[i];
      }
    }
  }

  lemma AppendKeyed(corpus: Corpus, entry: (string, Page))
    requires Keyed(corpus) && entry.0 == PageId(|corpus|)
    ensures Keyed(corpus + [entry])
  {
  }

  lemma AppendParsed(corpus: Corpus, entry: (string, Page), fetch: string -> Option<seq<Node>>)
    requires Parsed(corpus, fetch)
    requires fetch(entry.1.url).Some? && entry.1 == ExtractData(fetch(entry.1.url).value, entry.1.url)
    ensures Parsed(corpus + [entry], fetch)
  {
  }

  lemma StepStarted(c: Crawl, startUrl: string, pol: LinkPolicy, fetch: string -> Option<seq<Node>>)
    requires |c.queue| > 0 && Bookkept(c) && Started(c, startUrl)
    ensures Started(Step(c, pol, fetch), startUrl)
  {
  }

  /** A URL discovered on the first pages stays discovered as the corpus grows. */
  lemma DiscoveredGrows(url: string, corpus: Corpus, more: Corpus, pol: LinkPolicy, fetch: string -> Option<seq<Node>>)
    requires Discovered(url, corpus, pol, fetch)
    ensures Discovered(url, corpus + more, pol, fetch)
  {
    var j :| 0 <= j < |corpus| && url in LinksOf(corpus[j].1.url, pol, fetch);
    assert (corpus + more)[j] == corpus[j];
  }

  lemma StepTraced(c: Crawl, startUrl: string, pol: LinkPolicy, fetch: string -> Option<seq<Node>>)
    requires |c.queue| > 0 && Traced(c, startUrl, pol, fetch)
    ensures Traced(Step(c, pol, fetch), startUrl, pol, fetch)
  {
    var url := c.queue[0];
    var r := Step(c, pol, fetch);
    if url !in c.visited && fetch(url).Some? {
      var doc := fetch(url).value;
      var visited := c.visited + {url};
      var entry := (PageId(|c.corpus|), ExtractData(doc, url));
      var added := Unvisited(ExtractLinks(doc, url, pol), visited);
      assert r == Crawl(c.queue[1..] + added, visited, c.corpus + [entry], c.requests + [url], c.popped + [url]);
      assert LinksOf(url, pol, fetch) == ExtractLinks(doc, url, pol);
      FiledTraced(c, startUrl, pol, fetch, entry, added, r);
    } else {
      assert r.corpus == c.corpus && r.queue == c.queue[1..];
      UnfiledTraced(c, startUrl, pol, fetch, r);
    }
  }

  /** Popping the front without filing a page leaves every URL traced. */
  lemma UnfiledTraced(c: Crawl, startUrl: string, pol: LinkPolicy, fetch: string -> Option<seq<Node>>, r: Crawl)
    requires |c.queue| > 0 && Traced(c, startUrl, pol, fetch)
    requires r.corpus == c.corpus && r.queue == c.queue[1..]
    requires r.requests == c.requests || r.requests == c.requests + [c.queue[0]]
    ensures Traced(r, startUrl, pol, fetch)
  {
    forall i | 0 <= i < |r.requests|
      ensures r.requests[i] == startUrl || Discovered(r.requests[i], r.corpus, pol, fetch)
    {
      if i == |c.requests| {
        assert r.requests[i] == c.queue[0];
      } else {
        assert r.requests[i] == c.requests[i];
      }
    }
  }

  /** Filing a page and queueing some of its links leaves every URL traced. */
  lemma FiledTraced(c: Crawl, startUrl: string, pol: LinkPolicy, fetch: string -> Option<seq<Node>>,
                    entry: (string, Page), added: seq<string>, r: Crawl)
    requires |c.queue| > 0 && Traced(c, startUrl, pol, fetch)
    requires entry.1.url == c.queue[0] && forall x :: x in added ==> x in LinksOf(c.queue[0], pol, fetch)
    requires r.corpus == c.corpus + [entry] && r.queue == c.queue[1..] + added
    requires r.requests == c.requests + [c.queue[0]]
    ensures Traced(r, startUrl, pol, fetch)
  {
    var url := c.queue[0];
    forall x | x == startUrl || Discovered(x, c.corpus, pol, fetch)
      ensures x == startUrl || Discovered(x, r.corpus, pol, fetch)
    {
      if x != startUrl {
        DiscoveredGrows(x, c.corpus, [entry], pol, fetch);
      }
    }
    forall k | |c.queue| - 1 <= k < |r.queue|
      ensures Discovered(r.queue[k], r.corpus, pol, fetch)
    {
      assert r.queue[k] in added;
      assert r.corpus[|c.corpus|].1.url == url;
    }
    forall i | 0 <= i < |r.requests|
      ensures r.requests[i] == startUrl || Discovered(r.requests[i], r.corpus, pol, fetch)
    {
      if i == |c.requests| {
        assert r.requests[i] == c.queue[0];
      } else {
        assert r.requests[i] == c.requests[i];
      }
    }
  }

  lemma StepClosed(c: Crawl, pol: LinkPolicy, fetch: string -> Option<seq<Node>>)
    requires |c.queue| > 0 && Closed(c, pol, fetch)
    ensures Closed(Step(c, pol, fetch), pol, fetch)
  {
    var url := c.queue[0];
    var r := Step(c, pol, fetch);
    assert r.visited == c.visited + {url};
    assert forall l :: l in c.queue ==> l == url || l in c.queue[1..];
    if url in c.visited || fetch(url).None? {
      assert r.corpus == c.corpus && r.queue == c.queue[1..];
    } else {
      var links := ExtractLinks(fetch(url).value, url, pol);
      var entry := (PageId(|c.corpus|), ExtractData(fetch(url).value, url));
      assert r.corpus == c.corpus + [entry];
      assert r.queue == c.queue[1..] + Unvisited(links, r.visited);
      assert LinksOf(url, pol, fetch) == links;
      forall j, l | 0 <= j < |r.corpus| && l in LinksOf(r.corpus[j].1.url, pol, fetch)
        ensures l in r.visited || l in r.queue
      {
        if j < |c.corpus| {
          assert r.corpus[j] == c.corpus[j];
          assert l in c.visited || l in c.queue;
        } else {
          assert r.corpus[j].1.url == url;
          assert l in links;
        }
      }
    }
  }

  lemma StepInv(c: Crawl, startUrl: string, pol: LinkPolicy, fetch: string -> Option<seq<Node>>)
    requires |c.queue| > 0 && Inv(c, startUrl, pol, fetch)
    ensures Inv(Step(c, pol, fetch), startUrl, pol, fetch)
  {
    StepBookkept(c, pol, fetch);
    StepFiled(c, pol, fetch);
    StepStarted(c, startUrl, pol, fetch);
    StepTraced(c, startUrl, pol, fetch);
    StepClosed(c, pol, fetch);
  }

  lemma InitInv(startUrl: string, pol: LinkPolicy, fetch: string -> Option<seq<Node>>)
    ensures Inv(Crawl([startUrl], {}, [], [], []), startUrl, pol, fetch)
    ensures Ordered(Crawl([startUrl], {}, [], [], []), startUrl, pol, fetch)
  {
  }

  /** One iteration keeps the queue first-in first-out. */
  lemma StepOrdered(c: Crawl, startUrl: string, pol: LinkPolicy, fetch: string -> Option<seq<Node>>)
    requires |c.queue| > 0 && Bookkept(c) && Filed(c, fetch) && Ordered(c, startUrl, pol, fetch)
    ensures Ordered(Step(c, pol, fetch), startUrl, pol, fetch)
  {
    var url := c.queue[0];
    assert url in c.visited <==> url in c.popped;
    if url in c.visited {
      SkipOrdered(c, startUrl, pol, fetch);
    } else {
      forall j | 0 <= j < |c.corpus| ensures c.corpus[j].1.url in c.requests {
        assert PageUrls(c.corpus)[j] == c.corpus[j].1.url;
      }
      if fetch(url).Some? {
        assert Members(c.requests) == c.visited;
        FetchedOrdered(c, startUrl, pol, fetch);
      } else {
        FailedOrdered(c, startUrl, pol, fetch);
      }
    }
  }

  /** The queue's history split at its front: what was popped, the URL popped now, and the rest. */
  lemma PopFront(c: Crawl, log: seq<string>)
    requires |c.queue| > 0 && c.popped + c.queue == log
    ensures (c.popped + [c.queue[0]]) + c.queue[1..] == log
  {
    assert c.queue == [c.queue[0]] + c.queue[1..];
  }

  lemma SkipOrdered(c: Crawl, startUrl: string, pol: LinkPolicy, fetch: string -> Option<seq<Node>>)
    requires |c.queue| > 0 && Ordered(c, startUrl, pol, fetch) && c.queue[0] in c.popped
    ensures Ordered(c.(queue := c.queue[1..], popped := c.popped + [c.queue[0]]), startUrl, pol, fetch)
  {
    PopFront(c, Enqueued(startUrl, c.corpus, c.requests, pol, fetch));
    DedupSnoc(c.popped, c.queue[0]);
  }

  lemma FailedOrdered(c: Crawl, startUrl: string, pol: LinkPolicy, fetch: string -> Option<seq<Node>>)
    requires |c.queue| > 0 && Ordered(c, startUrl, pol, fetch) && c.queue[0] !in c.popped
    requires forall j :: 0 <= j < |c.corpus| ==> c.corpus[j].1.url in c.requests
    ensures var url := c.queue[0];
      Ordered(Crawl(c.queue[1..], c.visited + {url}, c.corpus, c.requests + [url], c.popped + [url]), startUrl, pol, fetch)
  {
    var url := c.queue[0];
    PopFront(c, Enqueued(startUrl, c.corpus, c.requests, pol, fetch));
    DedupSnoc(c.popped, url);
    EnqueuedSnoc(startUrl, c.corpus, c.requests, url, pol, fetch);
  }

  lemma FetchedOrdered(c: Crawl, startUrl: string, pol: LinkPolicy, fetch: string -> Option<seq<Node>>)
    requires |c.queue| > 0 && Ordered(c, startUrl, pol, fetch) && c.queue[0] !in c.popped
    requires forall j :: 0 <= j < |c.corpus| ==> c.corpus[j].1.url in c.requests
    requires Members(c.requests) == c.visited && fetch(c.queue[0]).Some?
    ensures var url := c.queue[0];
      var doc := fetch(url).value;
      var visited := c.visited + {url};
      Ordered(Crawl(c.queue[1..] + Unvisited(ExtractLinks(doc, url, pol), visited), visited,
                    c.corpus + [(PageId(|c.corpus|), ExtractData(doc, url))], c.requests + [url], c.popped + [url]),
              startUrl, pol, fetch)
  {
    var url := c.queue[0];
    var doc := fetch(url).value;
    var visited := c.visited + {url};
    var entry := (PageId(|c.corpus|), ExtractData(doc, url));
    var added := Unvisited(ExtractLinks(doc, url, pol), visited);
    assert LinksOf(url, pol, fetch) == ExtractLinks(doc, url, pol);
    MembersSnoc(c.requests, url);
    FiledOrdered(c, startUrl, pol, fetch, entry, added);
  }

  /** Filing a page whose unvisited links are `added` keeps the queue first-in first-out. */
  lemma FiledOrdered(c: Crawl, startUrl: string, pol: LinkPolicy, fetch: string -> Option<seq<Node>>,
                     entry: (string, Page), added: seq<string>)
    requires |c.queue| > 0 && Ordered(c, startUrl, pol, fetch) && c.queue[0] !in c.popped
    requires forall j :: 0 <= j < |c.corpus| ==> c.corpus[j].1.url in c.requests
    requires entry.1.url == c.queue[0]
    requires added == Unvisited(LinksOf(c.queue[0], pol, fetch), Members(c.requests + [c.queue[0]]))
    ensures var url := c.queue[0];
      Ordered(Crawl(c.queue[1..] + added, c.visited + {url}, c.corpus + [entry], c.requests + [url], c.popped + [url]),
              startUrl, pol, fetch)
  {
    var url := c.queue[0];
    var log := Enqueued(startUrl, c.corpus, c.requests, pol, fetch);
    PopThenPush(c.popped, c.queue, log, added);
    EnqueuedFiled(startUrl, c.corpus, c.requests, entry, pol, fetch);
    DedupSnoc(c.popped, url);
  }

  /** Popping the front and pushing at the back keep the queue's history an append-only log. */
  lemma PopThenPush(popped: seq<string>, queue: seq<string>, log: seq<string>, added: seq<string>)
    requires |queue| > 0 && popped + queue == log
    ensures (popped + [queue[0]]) + (queue[1..] + added) == log + added
  {
    assert queue == [queue[0]] + queue[1..];
  }

  lemma DedupSnoc(xs: seq<string>, x: string)
    ensures Dedup(xs + [x]) == if x in xs then Dedup(xs) else Dedup(xs) + [x]
  {
    assert (xs + [x])[..|xs|] == xs;
  }

  /** Filing a newly requested page appends its unvisited links to the queue's history. */
  lemma EnqueuedFiled(startUrl: string, corpus: Corpus, requests: seq<string>, entry: (string, Page),
                      pol: LinkPolicy, fetch: string -> Option<seq<Node>>)
    requires forall j :: 0 <= j < |corpus| ==> corpus[j].1.url in requests
    requires entry.1.url !in requests
    ensures var url := entry.1.url;
      Enqueued(startUrl, corpus + [entry], requests + [url], pol, fetch)
        == Enqueued(startUrl, corpus, requests, pol, fetch) + Unvisited(LinksOf(url, pol, fetch), Members(requests + [url]))
  {
    var url := entry.1.url;
    var more := corpus + [entry];
    assert more[..|more| - 1] == corpus && more[|more| - 1] == entry;
    EnqueuedSnoc(startUrl, corpus, requests, url, pol, fetch);
    RequestsThroughNew(requests, url);
  }

  /** Once the loop has stopped with a positive page budget, the start URL was requested first. */
  lemma OutcomeStarted(c: Crawl, startUrl: string, maxPages: int)
    requires Started(c, startUrl) && |c.corpus| <= |c.requests|
    requires |c.queue| == 0 || |c.corpus| >= maxPages
    ensures maxPages > 0 ==> |c.requests| >= 1 && c.requests[0] == startUrl
  {
  }

  /** Every other request is a link of a fetched page. */
  lemma OutcomeTraced(c: Crawl, startUrl: string, pol: LinkPolicy, fetch: string -> Option<seq<Node>>)
    requires Distinct(c.requests) && Started(c, startUrl) && Traced(c, startUrl, pol, fetch)
    ensures forall i :: 0 < i < |c.requests| ==> Discovered(c.requests[i], c.corpus, pol, fetch)
  {
    forall i | 0 < i < |c.requests|
      ensures Discovered(c.requests[i], c.corpus, pol, fetch)
    {
      assert c.requests[i] != c.requests[0];
    }
  }

  /** When the queue ran dry, every link of every fetched page was requested. */
  lemma OutcomeClosed(c: Crawl, maxPages: int, pol: LinkPolicy, fetch: string -> Option<seq<Node>>)
    requires forall u :: u in c.visited <==> u in c.requests
    requires Closed(c, pol, fetch)
    requires |c.queue| == 0 || |c.corpus| >= maxPages
    ensures |c.corpus| < maxPages ==>
      forall j, l :: 0 <= j < |c.corpus| && l in LinksOf(c.corpus[j].1.url, pol, fetch) ==> l in c.requests
  {
    if |c.corpus| < maxPages {
      forall j, l | 0 <= j < |c.corpus| && l in LinksOf(c.corpus[j].1.url, pol, fetch)
        ensures l in c.requests
      {
        assert l in c.visited || l in c.queue;
      }
    }
  }

  /**
    `scrape()`: the corpus, in insertion order, and the URLs requested, in
    request order. The constructor takes the policy's base URL from the
    start URL.
   */
  method Scrape(startUrl: string, maxPages: int, pol: LinkPolicy, fetch: string -> Option<seq<Node>>)
    returns (corpus: Corpus, requests: seq<string>)
    requires pol.baseUrl == GetBaseUrl(startUrl)
    ensures |corpus| <= if maxPages > 0 then maxPages else 0
    ensures Keyed(corpus)
    ensures Parsed(corpus, fetch)
    ensures PageUrls(corpus) == Successes(requests, fetch)
    ensures Distinct(requests) && Distinct(PageUrls(corpus))
    ensures maxPages > 0 ==> |requests| >= 1 && requests[0] == startUrl
    ensures forall i :: 0 < i < |requests| ==> Discovered(requests[i], corpus, pol, fetch)
    ensures |corpus| < maxPages ==>
      forall j, l :: 0 <= j < |corpus| && l in LinksOf(corpus[j].1.url, pol, fetch) ==> l in requests
    ensures BreadthFirst(requests, startUrl, corpus, pol, fetch)
  {
    var c := Crawl([startUrl], {}, [], [], []);
    InitInv(startUrl, pol, fetch);
    while |c.queue| > 0 && |c.corpus| < maxPages
      invariant Inv(c, startUrl, pol, fetch)
      invariant Ordered(c, startUrl, pol, fetch)
      invariant |c.corpus| <= if maxPages > 0 then maxPages else 0
      decreases if maxPages > |c.corpus| then maxPages - |c.corpus| else 0, |c.queue|
    {
      StepInv(c, startUrl, pol, fetch);
      StepOrdered(c, startUrl, pol, fetch);
      c := Step(c, pol, fetch);
    }
    OutcomeBreadthFirst(c, startUrl, pol, fetch);
    OutcomeStarted(c, startUrl, maxPages);
    OutcomeTraced(c, startUrl, pol, fetch);
    OutcomeClosed(c, maxPages, pol, fetch);
    corpus, requests := c.corpus, c.requests;
  }

  /** The loop's FIFO invariant, read off its outputs. */
  lemma OutcomeBreadthFirst(c: Crawl, startUrl: string, pol: LinkPolicy, fetch: string -> Option<seq<Node>>)
    requires Ordered(c, startUrl, pol, fetch)
    ensures BreadthFirst(c.requests, startUrl, c.corpus, pol, fetch)
  {
    var log := Enqueued(startUrl, c.corpus, c.requests, pol, fetch);
    assert log[..|c.popped|] == c.popped;
  }
}

=== FILE: extractor.dfy ===
/**
  Page extraction (data_scrapper/main.py): the typed content walk
  `_extract_structured_content`, the page record of `_extract_data`, and the
  outbound links of `_extract_links`.
 */
module Extractor {
  import opened Wrappers
  import opened Strings
  import opened Html
  import opened Content
  import opened Urls

  // ---------------------------------------------------------------------
  // `_extract_structured_content`
  // ---------------------------------------------------------------------

  /** The heading level of a tag name `h1` .. `h6`. */
  function HeadingLevelOf(name: string): (r: Option<HeadingLevel>)
    ensures r.Some? <==> name in {"h1", "h2", "h3", "h4", "h5", "h6"}
  {
    if name == "h1" then Some(1)
    else if name == "h2" then Some(2)
    else if name == "h3" then Some(3)
    else if name == "h4" then Some(4)
    else if name == "h5" then Some(5)
    else if name == "h6" then Some(6)
    else None
  }

  /** The trimmed text of each direct `li` child: `find_all('li', recursive=False)`. */
  function ListItems(list: Node): (items: seq<string>)
    requires list.Element?
    ensures |items| == |ChildrenNamed(list, "li")|
    ensures forall i :: 0 <= i < |items| ==> IsStripped(items[i])
  {
    var lis := ChildrenNamed(list, "li");
    seq(|lis|, i requires 0 <= i < |lis| => Strip(GetText(lis[i])))
  }

  /**
    What one child contributes to the content list: at most one node, of
    the shape the crawler promises (trimmed text, nothing empty).
   */
  function ExtractChild(n: Node): (r: seq<ContentNode>)
    ensures |r| <= 1
    ensures forall i :: 0 <= i < |r| ==> Extracted(r[i])
    decreases n, 1
  {
    match n
    case Text(_) => []
    case Element(name, _, _, children) =>
      var level := HeadingLevelOf(name);
      if level.Some? then [Heading(level.value, Strip(GetText(n)))]
      else if name == "p" then
        var text := Strip(GetText(n));
        if text != "" then [Paragraph(text)] else []
      else if name == "ul" || name == "ol" then
        var items := ListItems(n);
        if |items| > 0 then [ListBlock(Some(if name == "ul" then Unordered else Ordered), items)] else []
      else if name == "img" && HasAttr(n, "src") then
        [Image(AttrOr(n, "src"), AttrOr(n, "alt"), Some(AttrOr(n, "title")))]
      else if IsContainerTag(name) then
        var inner := ExtractSeq(children);
        if |inner| > 0 then [Container(name, inner)] else []
      else []
  }

  /**
    `_extract_structured_content(element, out)` over the element's children:
    every node it emits is well formed, and each child adds at most one.
   */
  function ExtractSeq(ns: seq<Node>): (r: seq<ContentNode>)
    ensures |r| <= |ns|
    ensures forall i :: 0 <= i < |r| ==> Extracted(r[i])
    decreases ns, 0
  {
    if ns == [] then [] else ExtractChild(ns[0]) + ExtractSeq(ns[1..])
  }

  /** Document order: the content of two runs of siblings is the content of each, in turn. */
  lemma {:induction false} ExtractAppend(a: seq<Node>, b: seq<Node>)
    ensures ExtractSeq(a + b) == ExtractSeq(a) + ExtractSeq(b)
    decreases |a|
  {
    if a == [] {
      assert a + b == b;
    } else {
      assert (a + b)[1..] == a[1..] + b;
      ExtractAppend(a[1..], b);
    }
  }

  /** Text nodes, and elements of no recognised tag, contribute nothing. */
  lemma UnrecognisedIgnored(n: Node)
    ensures n.Text? ==> ExtractChild(n) == []
    ensures n.Element? && HeadingLevelOf(n.name).None? && !IsContainerTag(n.name)
      && n.name !in {"p", "ul", "ol", "img"}
      ==> ExtractChild(n) == []
  {
  }

  /** A heading is always emitted, with its trimmed text, even when that text is empty. */
  lemma HeadingRule(n: Node)
    requires n.Element? && n.name in {"h1", "h2", "h3", "h4", "h5", "h6"}
    ensures |ExtractChild(n)| == 1 && ExtractChild(n)[0].Heading?
    ensures ExtractChild(n)[0].text == Strip(GetText(n))
  {
  }

  /** A paragraph is emitted exactly when its trimmed text is not empty. */
  lemma ParagraphRule(n: Node)
    requires Named(n, "p")
    ensures |ExtractChild(n)| == 1 <==> Strip(GetText(n)) != ""
    ensures |ExtractChild(n)| == 1 ==> ExtractChild(n)[0] == Paragraph(Strip(GetText(n)))
  {
  }

  /** A list is emitted exactly when it has a direct `li` child. */
  lemma ListRule(n: Node)
    requires Named(n, "ul") || Named(n, "ol")
    ensures |ExtractChild(n)| == 1 <==> exists i :: 0 <= i < |n.children| && Named(n.children[i], "li")
  {
    assert HeadingLevelOf(n.name).None? && n.name != "p";
    assert |ExtractChild(n)| == 1 <==> |ChildrenNamed(n, "li")| > 0;
    SomeChildNamed(n, "li");
  }

  /** `find_all(name, recursive=False)` finds something exactly when some direct child has that tag. */
  lemma SomeChildNamed(n: Node, name: string)
    requires n.Element?
    ensures |ChildrenNamed(n, name)| > 0 <==> exists i :: 0 <= i < |n.children| && Named(n.children[i], name)
  {
    var found := ChildrenNamed(n, name);
    if exists i :: 0 <= i < |n.children| && Named(n.children[i], name) {
      var i :| 0 <= i < |n.children| && Named(n.children[i], name);
      FilterKeeps(n.children, i, c => Named(c, name));
    }
    if |found| > 0 {
      var x := found[0];
      assert x in n.children && Named(x, name);
      var i :| 0 <= i < |n.children| && n.children[i] == x;
      assert Named(n.children[i], name);
    }
  }

  /** An image is emitted exactly when it has a non-empty `src`. */
  lemma ImageRule(n: Node)
    requires Named(n, "img")
    ensures |ExtractChild(n)| == 1 <==> HasAttr(n, "src")
  {
  }

  /** A container is emitted, wrapping its children's content, exactly when that content is not empty. */
  lemma ContainerRule(n: Node)
    requires n.Element? && IsContainerTag(n.name)
    ensures |ExtractChild(n)| == 1 <==> |ExtractSeq(n.children)| >= 1
    ensures |ExtractChild(n)| == 1 ==> ExtractChild(n)[0] == Container(n.name, ExtractSeq(n.children))
  {
    assert HeadingLevelOf(n.name).None?;
    assert n.name != "p" && n.name != "ul" && n.name != "ol" && n.name != "img";
  }

  lemma {:induction false} FilterKeeps(ns: seq<Node>, i: nat, p: Node -> bool)
    requires i < |ns| && p(ns[i])
    ensures |Filter(ns, p)| > 0
    decreases |ns|
  {
    if i > 0 && !p(ns[0]) {
      FilterKeeps(ns[1..], i - 1, p);
    }
  }

  /** A container whose children yield nothing is pruned: an empty `div` leaves no trace. */
  lemma EmptyContainerPruned(tag: string, attrs: map<string, string>, classes: seq<string>)
    requires IsContainerTag(tag)
    ensures ExtractSeq([Element(tag, attrs, classes, [])]) == []
    ensures ExtractSeq([Element("div", map[], [], [Element(tag, attrs, classes, [])])]) == []
  {
    assert ExtractSeq([Element(tag, attrs, classes, [])]) == [] by {
      assert [Element(tag, attrs, classes, [])][1..] == [];
    }
    assert [Element("div", map[], [], [Element(tag, attrs, classes, [])])][1..] == [];
  }

  // ---------------------------------------------------------------------
  // `_extract_data`
  // ---------------------------------------------------------------------

  predicate IsMain(n: Node) {
    Named(n, "main")
  }

  predicate IsArticle(n: Node) {
    Named(n, "article")
  }

  /** `find('div', class_='content')` matches a `div` carrying the class `content`. */
  predicate IsContentDiv(n: Node) {
    Named(n, "div") && "content" in n.classes
  }

  predicate IsBody(n: Node) {
    Named(n, "body")
  }

  predicate Has(doc: seq<Node>, p: Node -> bool) {
    exists i :: 0 <= i < |Descendants(doc)| && p(Descendants(doc)[i])
  }

  /** `find` succeeds exactly when the document has a matching element, and then returns one. */
  lemma FindIffHas(doc: seq<Node>, p: Node -> bool)
    ensures Find(doc, p).Some? <==> Has(doc, p)
    ensures Find(doc, p).Some? ==> p(Find(doc, p).value) && Find(doc, p).value in Descendants(doc)
  {
    FindSucceedsIffPresent(doc, p);
  }

  /**
    The main-content root: the first `main`, else the first `article`,
    else the first `div.content`, else the first `body`, else none.
   */
  function SelectRoot(doc: seq<Node>): (r: Option<Node>)
    ensures r.Some? ==> r.value in Descendants(doc)
    ensures r.None? <==> !Has(doc, IsMain) && !Has(doc, IsArticle) && !Has(doc, IsContentDiv) && !Has(doc, IsBody)
    ensures Has(doc, IsMain) ==> r.Some? && IsMain(r.value)
    ensures !Has(doc, IsMain) && Has(doc, IsArticle) ==> r.Some? && IsArticle(r.value)
    ensures !Has(doc, IsMain) && !Has(doc, IsArticle) && Has(doc, IsContentDiv) ==> r.Some? && IsContentDiv(r.value)
    ensures !Has(doc, IsMain) && !Has(doc, IsArticle) && !Has(doc, IsContentDiv) && Has(doc, IsBody)
      ==> r.Some? && IsBody(r.value)
  {
    FindIffHas(doc, IsMain);
    FindIffHas(doc, IsArticle);
    FindIffHas(doc, IsContentDiv);
    FindIffHas(doc, IsBody);
    var main := Find(doc, IsMain);
    if main.Some? then main
    else
      var article := Find(doc, IsArticle);
      if article.Some? then article
      else
        var div := Find(doc, IsContentDiv);
        if div.Some? then div else Find(doc, IsBody)
  }

  /** `soup.title.text.strip() if soup.title else ""`. */
  function PageTitle(doc: seq<Node>): string {
    var t := Find(doc, n => Named(n, "title"));
    if t.Some? then Strip(GetText(t.value)) else ""
  }

  /** The key a `meta` tag is filed under: its `name`, else its `property`. */
  function MetaKey(m: Node): string {
    if HasAttr(m, "name") then AttrOr(m, "name") else AttrOr(m, "property")
  }

  /** Whether a `meta` tag is recorded under `key`: a non-empty key and a non-empty `content`. */
  predicate Files(m: Node, key: string) {
    MetaKey(m) == key && key != "" && HasAttr(m, "content")
  }

  /** The metadata loop of `_extract_data` over the `meta` tags, in document order. */
  function Metadata(metas: seq<Node>): map<string, string>
    decreases |metas|
  {
    if metas == [] then map[]
    else
      var m := metas[|metas| - 1];
      var md := Metadata(metas[..|metas| - 1]);
      if MetaKey(m) != "" && HasAttr(m, "content") then md[MetaKey(m) := AttrOr(m, "content")] else md
  }

  /**
    A key is present exactly when some `meta` tag files it, and it holds
    the `content` of the last such tag.
   */
  lemma {:induction false} MetadataSpec(metas: seq<Node>, k: string)
    ensures k in Metadata(metas) <==> exists i :: 0 <= i < |metas| && Files(metas[i], k)
    ensures k in Metadata(metas) ==>
      exists i :: 0 <= i < |metas| && Files(metas[i], k) && Metadata(metas)[k] == AttrOr(metas[i], "content")
        && forall j :: i < j < |metas| ==> !Files(metas[j], k)
    decreases |metas|
  {
    if metas != [] {
      var last := |metas| - 1;
      var init := metas[..last];
      var m := metas[last];
      MetadataSpec(init, k);
      assert forall i :: 0 <= i < |init| ==> init[i] == metas[i];
      if Files(m, k) {
        assert Metadata(metas)[k] == AttrOr(metas[last], "content");
      } else {
        assert k in Metadata(metas) <==> k in Metadata(init);
        if k in Metadata(init) {
          assert Metadata(metas)[k] == Metadata(init)[k];
          var i :| 0 <= i < |init| && Files(init[i], k) && Metadata(init)[k] == AttrOr(init[i], "content")
            && forall j :: i < j < |init| ==> !Files(init[j], k);
          assert Files(metas[i], k) && Metadata(metas)[k] == AttrOr(metas[i], "content");
          assert forall j :: i < j < |metas| ==> !Files(metas[j], k);
        }
      }
    }
  }

  predicate IsMeta(n: Node) {
    Named(n, "meta")
  }

  /**
    Over the whole page: a key is in the metadata exactly when some `meta`
    tag of the document files it, and its value is the `content` of such
    a tag (the last one in document order, by `MetadataSpec`).
   */
  lemma DocumentMetadata(doc: seq<Node>, url: string, k: string)
    ensures var md := ExtractData(doc, url).metadata;
      k in md <==> exists m :: m in Descendants(doc) && IsMeta(m) && Files(m, k)
    ensures var md := ExtractData(doc, url).metadata;
      k in md ==> exists m :: m in Descendants(doc) && IsMeta(m) && Files(m, k) && md[k] == AttrOr(m, "content")
  {
    var metas := FindAll(doc, IsMeta);
    assert ExtractData(doc, url).metadata == Metadata(metas);
    MetadataSpec(metas, k);
    if m :| m in Descendants(doc) && IsMeta(m) && Files(m, k) {
      assert m in metas;
      var i :| 0 <= i < |metas| && metas[i] == m;
      assert Files(metas[i], k);
    }
    if k in Metadata(metas) {
      var i :| 0 <= i < |metas| && Files(metas[i], k) && Metadata(metas)[k] == AttrOr(metas[i], "content")
        && forall j :: i < j < |metas| ==> !Files(metas[j], k);
      assert metas[i] in metas;
    }
  }

  /** `_extract_data`: title, metadata and the structured content under the selected root. */
  function ExtractData(doc: seq<Node>, url: string): (page: Page)
    ensures page.url == url
    ensures forall i :: 0 <= i < |page.content| ==> Extracted(page.content[i])
    ensures SelectRoot(doc).None? ==> page.content == []
  {
    var root := SelectRoot(doc);
    Page(url, PageTitle(doc), Metadata(FindAll(doc, IsMeta)),
         if root.Some? && root.value.Element? then ExtractSeq(root.value.children) else [])
  }

  // ---------------------------------------------------------------------
  // `_extract_links`
  // ---------------------------------------------------------------------

  /** An anchor that carries an `href` attribute. */
  predicate IsLinkAnchor(n: Node) {
    Named(n, "a") && "href" in n.attrs
  }

  /** `soup.find_all('a', href=True)`: anchors that carry an `href`, in document order. */
  function Anchors(doc: seq<Node>): seq<Node> {
    FindAll(doc, IsLinkAnchor)
  }

  /** The hrefs `_extract_links` passes over: empty, in-page anchors and `javascript:` links. */
  predicate Skipped(href: string) {
    href == "" || StartsWith(href, "#") || StartsWith(href, "javascript:")
  }

  /** The crawl's fixed parameters that decide what a link becomes. */
  datatype LinkPolicy = LinkPolicy(
    baseUrl: string,
    respectRobots: bool,
    canFetch: string -> bool,
    join: (string, string) -> string)

  /** Whether `href` on the page at `pageUrl` yields `link`. */
  predicate Yields(href: string, pageUrl: string, pol: LinkPolicy, link: string) {
    && !Skipped(href)
    && link == NormalizeUrl(pol.join, href, pageUrl)
    && IsValidUrl(link, pol.baseUrl, pol.respectRobots, pol.canFetch)
  }

  /**
    The loop of `_extract_links` over a list of hrefs. Every link it returns
    is normalised and admitted, and a link is returned exactly when some
    href yields it.
   */
  function LinksFrom(hrefs: seq<string>, pageUrl: string, pol: LinkPolicy): (links: seq<string>)
    ensures |links| <= |hrefs|
    ensures forall i :: 0 <= i < |links| ==>
      NoChar(links[i], '#') && IsValidUrl(links[i], pol.baseUrl, pol.respectRobots, pol.canFetch)
    ensures forall l :: l in links <==> exists j :: 0 <= j < |hrefs| && Yields(hrefs[j], pageUrl, pol, l)
  {
    if hrefs == [] then []
    else
      var h := hrefs[0];
      var rest := LinksFrom(hrefs[1..], pageUrl, pol);
      YieldedByCons(hrefs, pageUrl, pol);
      if Skipped(h) then rest
      else
        var n := NormalizeUrl(pol.join, h, pageUrl);
        if IsValidUrl(n, pol.baseUrl, pol.respectRobots, pol.canFetch) then [n] + rest else rest
  }

  /** Some href of a list yields a link exactly when its first one or one of the others does. */
  lemma YieldedByCons(hrefs: seq<string>, pageUrl: string, pol: LinkPolicy)
    requires |hrefs| > 0
    ensures forall l :: (exists j :: 0 <= j < |hrefs| && Yields(hrefs[j], pageUrl, pol, l)) <==>
      Yields(hrefs[0], pageUrl, pol, l) || exists j :: 0 <= j < |hrefs[1..]| && Yields(hrefs[1..][j], pageUrl, pol, l)
  {
    forall l ensures (exists j :: 0 <= j < |hrefs| && Yields(hrefs[j], pageUrl, pol, l)) <==>
      Yields(hrefs[0], pageUrl, pol, l) || exists j :: 0 <= j < |hrefs[1..]| && Yields(hrefs[1..][j], pageUrl, pol, l)
    {
      if j :| 0 <= j < |hrefs| && Yields(hrefs[j], pageUrl, pol, l) {
        if j > 0 {
          assert hrefs[1..][j - 1] == hrefs[j];
        }
      }
      if j :| 0 <= j < |hrefs[1..]| && Yields(hrefs[1..][j], pageUrl, pol, l) {
        assert hrefs[j + 1] == hrefs[1..][j];
      }
    }
  }

  /** Document order: the links of two runs of hrefs are the links of each, in turn. */
  lemma {:induction false} LinksAppend(a: seq<string>, b: seq<string>, pageUrl: string, pol: LinkPolicy)
    ensures LinksFrom(a + b, pageUrl, pol) == LinksFrom(a, pageUrl, pol) + LinksFrom(b, pageUrl, pol)
    decreases |a|
  {
    if a == [] {
      assert a + b == b;
    } else {
      assert (a + b)[1..] == a[1..] + b;
      LinksAppend(a[1..], b, pageUrl, pol);
    }
  }

  function Hrefs(anchors: seq<Node>): seq<string> {
    seq(|anchors|, i requires 0 <= i < |anchors| => AttrOr(anchors[i], "href"))
  }

  lemma HrefsAppend(x: seq<Node>, y: seq<Node>)
    ensures Hrefs(x + y) == Hrefs(x) + Hrefs(y)
  {
    var l, r := Hrefs(x + y), Hrefs(x) + Hrefs(y);
    assert |l| == |r|;
    forall i | 0 <= i < |l| ensures l[i] == r[i] {
      if i < |x| {
        assert (x + y)[i] == x[i];
      } else {
        assert (x + y)[i] == y[i - |x|];
      }
    }
  }

  /** `_extract_links(soup, page_url)`. */
  function ExtractLinks(doc: seq<Node>, pageUrl: string, pol: LinkPolicy): seq<string> {
    LinksFrom(Hrefs(Anchors(doc)), pageUrl, pol)
  }

  /**
    Over the whole page: a link is returned exactly when some anchor of the
    document carries an `href` that yields it.
   */
  lemma DocumentLinks(doc: seq<Node>, pageUrl: string, pol: LinkPolicy, l: string)
    ensures l in ExtractLinks(doc, pageUrl, pol) <==>
      exists a :: a in Descendants(doc) && IsLinkAnchor(a) && Yields(AttrOr(a, "href"), pageUrl, pol, l)
  {
    var anchors := Anchors(doc);
    var hrefs := Hrefs(anchors);
    if l in ExtractLinks(doc, pageUrl, pol) {
      var j :| 0 <= j < |hrefs| && Yields(hrefs[j], pageUrl, pol, l);
      assert anchors[j] in anchors;
    }
    if a :| a in Descendants(doc) && IsLinkAnchor(a) && Yields(AttrOr(a, "href"), pageUrl, pol, l) {
      assert a in anchors;
      var j :| 0 <= j < |anchors| && anchors[j] == a;
      assert Yields(hrefs[j], pageUrl, pol, l);
    }
  }

  /** Links come out in document order: those of two runs of trees are those of each, in turn. */
  lemma ExtractLinksAppend(a: seq<Node>, b: seq<Node>, pageUrl: string, pol: LinkPolicy)
    ensures ExtractLinks(a + b, pageUrl, pol) == ExtractLinks(a, pageUrl, pol) + ExtractLinks(b, pageUrl, pol)
  {
    FindAllAppend(a, b, IsLinkAnchor);
    HrefsAppend(Anchors(a), Anchors(b));
    LinksAppend(Hrefs(Anchors(a)), Hrefs(Anchors(b)), pageUrl, pol);
  }
}

=== FILE: flatten.dfy ===
/**
  The flattening loop of `ContentAnalyzer.analyze_content`
  (data_scrapper/content_analyzer.py): each page becomes a page marker
  followed by one line per heading, paragraph and list, and a title-to-URL
  map is filled in along the way.
 */
module Flattening {
  import opened Strings
  import opened Content
  import opened Sections
  import opened Collections

  /** A list as one line: `"\n" + "\n".join(f"- {item}" ...) + "\n"`. */
  function ListLine(items: seq<string>): (line: string)
    ensures |line| >= 2 && line[0] == '\n' && line[|line| - 1] == '\n'
    ensures !IsHeading(line)
  {
    var bullets := seq(|items|, i requires 0 <= i < |items| => "- " + items[i]);
    var body := JoinSep(bullets, "\n");
    JoinStartsWithDash(bullets);
    var line := "\n" + body + "\n";
    assert !StartsWith(line, HeadingPrefix) by {
      if |line| >= 4 {
        assert line[1] == if |body| > 0 then body[0] else '\n';
      }
    }
    line
  }

  lemma JoinStartsWithDash(bullets: seq<string>)
    requires forall i :: 0 <= i < |bullets| ==> |bullets[i]| > 0 && bullets[i][0] == '-'
    ensures var j := JoinSep(bullets, "\n"); |j| == 0 || j[0] == '-'
  {
  }

  /** The lines one content node renders to; images and containers render nothing. */
  function RenderNode(n: ContentNode): (r: seq<string>)
    ensures |r| <= 1
    ensures |r| == 0 <==> n.Image? || n.Container?
    ensures n.Heading? ==> r == [HeadingLine(n.text)] && IsHeading(r[0])
    ensures n.ListBlock? ==> !IsHeading(r[0])
  {
    match n
    case Heading(_, text) => [HeadingLine(text)]
    case Paragraph(text) => [text]
    case ListBlock(_, items) => [ListLine(items)]
    case _ => []
  }

  function RenderContent(ns: seq<ContentNode>): (r: seq<string>)
    ensures |r| <= |ns|
  {
    if ns == [] then [] else RenderNode(ns[0]) + RenderContent(ns[1..])
  }

  /** A page: its marker, then its content's lines. */
  function RenderPage(p: Page): (r: seq<string>)
    ensures |r| >= 1 && r[0] == PageMarker(p.title, p.url)
  {
    [PageMarker(p.title, p.url)] + RenderContent(p.content)
  }

  /** `all_content`: every page rendered, in corpus order. */
  function Lines(data: Corpus): (r: seq<string>)
    ensures |r| >= |data|
    ensures |data| > 0 ==> r[0] == PageMarker(data[0].1.title, data[0].1.url)
  {
    if data == [] then [] else RenderPage(data[0].1) + Lines(data[1..])
  }

  /** The lines of two runs of pages are the lines of each, in turn. */
  lemma {:induction false} LinesAppend(a: Corpus, b: Corpus)
    ensures Lines(a + b) == Lines(a) + Lines(b)
    decreases |a|
  {
    if a == [] {
      assert a + b == b;
    } else {
      assert (a + b)[0] == a[0];
      assert (a + b)[1..] == a[1..] + b;
      LinesAppend(a[1..], b);
    }
  }

  lemma LinesOfOne(x: (string, Page))
    ensures Lines([x]) == RenderPage(x.1)
  {
    assert [x][1..] == [];
  }

  /**
    Every page contributes its marker and its content's lines, in corpus
    order: the pages before it, then it, then the pages after it.
   */
  lemma PageLinesAt(data: Corpus, i: nat)
    requires i < |data|
    ensures Lines(data) == Lines(data[..i]) + RenderPage(data[i].1) + Lines(data[i + 1..])
  {
    var pre, x, post := data[..i], data[i], data[i + 1..];
    SplitAt(data, i);
    LinesAppend(pre, [x] + post);
    LinesAppend([x], post);
    LinesOfOne(x);
  }

  /** The texts of a page's headings, in order. */
  function HeadingTexts(ns: seq<ContentNode>): seq<string> {
    if ns == [] then []
    else (if ns[0].Heading? then [ns[0].text] else []) + HeadingTexts(ns[1..])
  }

  /** Whether a page files `key` in the URL map: its title, or one of its headings. */
  predicate Names(p: Page, key: string) {
    key == p.title || key in HeadingTexts(p.content)
  }

  /** The URL entries of one page: its title and each heading text, all to the page URL. */
  function PageEntries(p: Page): (m: map<string, string>)
    ensures forall k :: k in m <==> Names(p, k)
    ensures forall k :: k in m ==> m[k] == p.url
  {
    var keys := {p.title} + set h | h in HeadingTexts(p.content);
    map k | k in keys :: p.url
  }

  /** `page_urls` as the loop leaves it: pages in order, later entries overwriting earlier ones. */
  function PageUrlsOf(data: Corpus): map<string, string>
    decreases |data|
  {
    if data == [] then map[]
    else PageUrlsOf(data[..|data| - 1]) + PageEntries(data[|data| - 1].1)
  }

  /** Page `i` is the last page of the corpus that names `k`. */
  predicate LastNaming(data: Corpus, k: string, i: int) {
    0 <= i < |data| && Names(data[i].1, k) && forall j :: i < j < |data| ==> !Names(data[j].1, k)
  }

  /**
    A key is in the URL map exactly when some page names it, and it maps to
    the URL of the last page that does.
   */
  lemma {:induction false} PageUrlsSpec(data: Corpus, k: string)
    ensures k in PageUrlsOf(data) <==> exists i :: 0 <= i < |data| && Names(data[i].1, k)
    ensures k in PageUrlsOf(data) ==> exists i :: LastNaming(data, k, i) && PageUrlsOf(data)[k] == data[i].1.url
    decreases |data|
  {
    if data != [] {
      var last := |data| - 1;
      var init := data[..last];
      var p := data[last].1;
      PageUrlsSpec(init, k);
      assert PageUrlsOf(data) == PageUrlsOf(init) + PageEntries(p);
      UpdateLookup(PageUrlsOf(init), PageEntries(p), k);
      if Names(p, k) {
        assert LastNaming(data, k, last);
      } else {
        NamingSnoc(init, data, k);
        if k in PageUrlsOf(init) {
          var i :| LastNaming(init, k, i) && PageUrlsOf(init)[k] == init[i].1.url;
          LastNamingSnoc(data, k, i);
        }
      }
    }
  }

  /** A last page that does not name `k` changes nothing about which pages do. */
  lemma NamingSnoc(init: Corpus, data: Corpus, k: string)
    requires |data| > 0 && init == data[..|data| - 1] && !Names(data[|data| - 1].1, k)
    ensures (exists i :: 0 <= i < |data| && Names(data[i].1, k))
      <==> exists i :: 0 <= i < |init| && Names(init[i].1, k)
  {
    if i :| 0 <= i < |data| && Names(data[i].1, k) {
      PrefixOfPrefix(data, |init|, i);
    }
    if i :| 0 <= i < |init| && Names(init[i].1, k) {
      PrefixOfPrefix(data, |init|, i);
    }
  }

  lemma LastNamingSnoc(data: Corpus, k: string, i: int)
    requires |data| > 0 && !Names(data[|data| - 1].1, k)
    requires LastNaming(data[..|data| - 1], k, i)
    ensures LastNaming(data, k, i) && data[..|data| - 1][i] == data[i]
  {
    var init := data[..|data| - 1];
    PrefixOfPrefix(data, |data| - 1, i);
    forall j | i < j < |data| ensures !Names(data[j].1, k) {
      if j < |data| - 1 {
        PrefixOfPrefix(data, |data| - 1, j);
        assert !Names(init[j].1, k);
      }
    }
  }

  /** Rendering is node by node: two runs of content render to the lines of each. */
  lemma {:induction false} RenderAppend(a: seq<ContentNode>, b: seq<ContentNode>)
    ensures RenderContent(a + b) == RenderContent(a) + RenderContent(b)
    decreases |a|
  {
    if a == [] {
      assert a + b == b;
    } else {
      assert (a + b)[1..] == a[1..] + b;
      RenderAppend(a[1..], b);
    }
  }

  /**
    Without optimisation a container renders nothing, so the text inside
    it never reaches the analysis.
   */
  lemma ContainerContentLost(tag: string, children: seq<ContentNode>, rest: seq<ContentNode>)
    ensures RenderContent([Container(tag, children)] + rest) == RenderContent(rest)
  {
    assert ([Container(tag, children)] + rest)[1..] == rest;
  }

  /**
    A paragraph whose text begins with the page label renders to a line
    that the splitter takes for a page marker.
   */
  lemma ParagraphMistakenForMarker(text: string)
    requires StartsWith(text, PagePrefix)
    ensures RenderNode(Paragraph(text)) == [text] && IsHeading(text)
  {
  }
}

=== FILE: html.dfy ===
/**
  The parsed document that the HTML parser hands to the crawler: a tree of
  text and element nodes, with the handful of queries the crawler makes of it
  (`find`, `find_all`, `get_text`, attribute lookup).
 */
module Html {
  import opened Wrappers

  /**
    A node of the parse tree. `classes` is the element's multi-valued `class`
    attribute; `attrs` holds the single-valued attributes.
   */
  datatype Node =
    | Text(text: string)
    | Element(name: string, attrs: map<string, string>, classes: seq<string>, children: seq<Node>)

  /** Every node below `ns`, in document (pre-)order. */
  function Descendants(ns: seq<Node>): seq<Node>
    decreases ns
  {
    if ns == [] then []
    else [ns[0]] + (if ns[0].Element? then Descendants(ns[0].children) else []) + Descendants(ns[1..])
  }

  /** The text of the nodes, concatenated in document order. */
  function TextOf(ns: seq<Node>): string
    decreases ns
  {
    if ns == [] then ""
    else (match ns[0] case Text(t) => t case Element(_, _, _, cs) => TextOf(cs)) + TextOf(ns[1..])
  }

  /** bs4's `tag.get_text()`. */
  function GetText(n: Node): string {
    match n
    case Text(t) => t
    case Element(_, _, _, cs) => TextOf(cs)
  }

  predicate Named(n: Node, name: string) {
    n.Element? && n.name == name
  }

  /** bs4's `tag.get(key)` taken as a truth value: present and non-empty. */
  predicate HasAttr(n: Node, key: string) {
    n.Element? && key in n.attrs && n.attrs[key] != ""
  }

  /** `tag.get(key, '')`. */
  function AttrOr(n: Node, key: string): string {
    if n.Element? && key in n.attrs then n.attrs[key] else ""
  }

  /** The first node of a list that satisfies `p`. */
  function FirstMatch(ns: seq<Node>, p: Node -> bool): Option<Node> {
    if ns == [] then None else if p(ns[0]) then Some(ns[0]) else FirstMatch(ns[1..], p)
  }

  /**
    The nodes of a list that satisfy `p`, in order: every node it returns
    satisfies `p` and every node that satisfies `p` is returned; the order
    is pinned by `FilterAppend`.
   */
  function Filter(ns: seq<Node>, p: Node -> bool): (r: seq<Node>)
    ensures |r| <= |ns|
    ensures forall i :: 0 <= i < |r| ==> p(r[i]) && r[i] in ns
    ensures forall i :: 0 <= i < |ns| && p(ns[i]) ==> ns[i] in r
  {
    if ns == [] then []
    else
      var rest := Filter(ns[1..], p);
      assert forall i :: 1 <= i < |ns| ==> ns[i] == ns[1..][i - 1];
      (if p(ns[0]) then [ns[0]] else []) + rest
  }

  /** Filtering keeps document order: the matches of two runs are those of each, in turn. */
  lemma {:induction false} FilterAppend(a: seq<Node>, b: seq<Node>, p: Node -> bool)
    ensures Filter(a + b, p) == Filter(a, p) + Filter(b, p)
    decreases |a|
  {
    if a == [] {
      assert a + b == b;
    } else {
      assert (a + b)[0] == a[0];
      assert (a + b)[1..] == a[1..] + b;
      FilterAppend(a[1..], b, p);
    }
  }

  /** The listing of a forest is the listing of each tree, in turn. */
  lemma {:induction false} DescendantsAppend(a: seq<Node>, b: seq<Node>)
    ensures Descendants(a + b) == Descendants(a) + Descendants(b)
    decreases a
  {
    if a == [] {
      assert a + b == b;
    } else {
      assert (a + b)[0] == a[0];
      assert (a + b)[1..] == a[1..] + b;
      DescendantsAppend(a[1..], b);
    }
  }

  /**
    bs4's `find`: a depth-first search that stops at the first descendant
    satisfying `p`. It agrees with taking the first match of the whole
    document-order listing.
   */
  function Find(ns: seq<Node>, p: Node -> bool): (r: Option<Node>)
    ensures r == FirstMatch(Descendants(ns), p)
    decreases ns
  {
    if ns == [] then None
    else if p(ns[0]) then Some(ns[0])
    else
      var below := if ns[0].Element? then Descendants(ns[0].children) else [];
      var inner := if ns[0].Element? then Find(ns[0].children, p) else None;
      var rest := Find(ns[1..], p);
      FindStep(ns, p, below);
      if inner.Some? then inner else rest
  }

  /** bs4's `find_all`: every descendant satisfying `p`, in document order. */
  function FindAll(ns: seq<Node>, p: Node -> bool): (r: seq<Node>)
    ensures forall x :: x in r <==> x in Descendants(ns) && p(x)
  {
    var d := Descendants(ns);
    var r := Filter(d, p);
    assert forall x :: x in d ==> exists i :: 0 <= i < |d| && d[i] == x;
    r
  }

  /** `find_all` over two runs of trees finds the matches of each run, in turn. */
  lemma FindAllAppend(a: seq<Node>, b: seq<Node>, p: Node -> bool)
    ensures FindAll(a + b, p) == FindAll(a, p) + FindAll(b, p)
  {
    DescendantsAppend(a, b);
    FilterAppend(Descendants(a), Descendants(b), p);
  }

  /** bs4's `find_all(name, recursive=False)`: the direct children with that tag, all of them. */
  function ChildrenNamed(n: Node, name: string): (r: seq<Node>)
    requires n.Element?
    ensures forall i :: 0 <= i < |r| ==> Named(r[i], name) && r[i] in n.children
    ensures forall i :: 0 <= i < |n.children| && Named(n.children[i], name) ==> n.children[i] in r
  {
    Filter(n.children, c => Named(c, name))
  }

  lemma FindStep(ns: seq<Node>, p: Node -> bool, below: seq<Node>)
    requires ns != [] && !p(ns[0])
    requires below == if ns[0].Element? then Descendants(ns[0].children) else []
    ensures FirstMatch(Descendants(ns), p)
         == if FirstMatch(below, p).Some? then FirstMatch(below, p) else FirstMatch(Descendants(ns[1..]), p)
  {
    var d := Descendants(ns);
    assert d == [ns[0]] + (below + Descendants(ns[1..]));
    assert d[1..] == below + Descendants(ns[1..]);
    FirstMatchAppend(below, Descendants(ns[1..]), p);
  }

  lemma {:induction false} FirstMatchAppend(a: seq<Node>, b: seq<Node>, p: Node -> bool)
    ensures FirstMatch(a + b, p) == if FirstMatch(a, p).Some? then FirstMatch(a, p) else FirstMatch(b, p)
    decreases |a|
  {
    if a != [] {
      assert (a + b)[1..] == a[1..] + b;
      FirstMatchAppend(a[1..], b, p);
    } else {
      assert a + b == b;
    }
  }

  /** `find` succeeds exactly when some descendant satisfies the condition. */
  lemma {:induction false} FindSucceedsIffPresent(ns: seq<Node>, p: Node -> bool)
    ensures Find(ns, p).Some? <==> exists i :: 0 <= i < |Descendants(ns)| && p(Descendants(ns)[i])
    ensures Find(ns, p).Some? ==> p(Find(ns, p).value) && Find(ns, p).value in Descendants(ns)
  {
    var d := Descendants(ns);
    FirstMatchSpec(d, p);
    assert Find(ns, p) == FirstMatch(d, p);
  }

  lemma {:induction false} FirstMatchSpec(ns: seq<Node>, p: Node -> bool)
    ensures FirstMatch(ns, p).Some? <==> exists i :: 0 <= i < |ns| && p(ns[i])
    ensures FirstMatch(ns, p).Some? ==> p(FirstMatch(ns, p).value) && FirstMatch(ns, p).value in ns
    decreases |ns|
  {
    if ns != [] && !p(ns[0]) {
      FirstMatchSpec(ns[1..], p);
      if exists i :: 0 <= i < |ns| && p(ns[i]) {
        var i :| 0 <= i < |ns| && p(ns[i]);
        assert ns[1..][i - 1] == ns[i];
      }
    }
  }
}

=== FILE: model_limits.dfy ===
/**
  `_get_max_tokens` (data_scrapper/content_analyzer.py): the context limit
  of a model, looked up by name prefix in a fixed order.
 */
module ModelLimits {
  import opened Wrappers
  import opened Strings

  /** The prefixes and their limits, in the order the lookup tries them. */
  const LimitTable: seq<(string, int)> := [
    ("gpt-4o-mini", 125000),
    ("gpt-4o", 125000),
    ("gpt-4", 6500),
    ("gpt-3.5-turbo-16k", 14000),
    ("gpt-3.5-turbo", 3000)
  ]

  /** The limit for a model no prefix matches. */
  const DefaultLimit: int := 2000

  /** The limit of the first entry whose prefix starts `model`, if any. */
  function FirstPrefix(model: string, table: seq<(string, int)>): (r: Option<int>)
    ensures r.None? <==> forall i :: 0 <= i < |table| ==> !StartsWith(model, table[i].0)
    ensures r.Some? ==> exists i :: 0 <= i < |table| && FirstMatchAt(model, table, i) && r.value == table[i].1
    decreases |table|
  {
    if table == [] then None
    else if StartsWith(model, table[0].0) then
      assert FirstMatchAt(model, table, 0);
      Some(table[0].1)
    else
      var r := FirstPrefix(model, table[1..]);
      if r.Some? then
        var i :| 0 <= i < |table[1..]| && FirstMatchAt(model, table[1..], i) && r.value == table[1..][i].1;
        assert FirstMatchAt(model, table, i + 1);
        r
      else r
  }

  /** Entry `i` matches `model` and no earlier entry does. */
  predicate FirstMatchAt(model: string, table: seq<(string, int)>, i: nat) {
    i < |table| && StartsWith(model, table[i].0)
    && forall j :: 0 <= j < i ==> !StartsWith(model, table[j].0)
  }

  /** `_get_max_tokens(model)`. */
  function GetMaxTokens(model: string): (n: int)
    ensures (forall i :: 0 <= i < |LimitTable| ==> !StartsWith(model, LimitTable[i].0)) ==> n == DefaultLimit
    ensures (exists i :: 0 <= i < |LimitTable| && StartsWith(model, LimitTable[i].0)) ==>
      exists i :: 0 <= i < |LimitTable| && FirstMatchAt(model, LimitTable, i) && n == LimitTable[i].1
  {
    FirstPrefix(model, LimitTable).GetOr(DefaultLimit)
  }

  /**
    The specific `gpt-3.5-turbo-16k` entry is listed before the generic
    `gpt-3.5-turbo` one and wins; `gpt-4` captures every other `gpt-4`
    name, `gpt-4-turbo` included.
   */
  lemma PrefixOrder()
    ensures GetMaxTokens("gpt-3.5-turbo-16k-0613") == 14000
    ensures GetMaxTokens("gpt-3.5-turbo-0125") == 3000
    ensures GetMaxTokens("gpt-4-turbo") == 6500
    ensures GetMaxTokens("gpt-4o-mini-2024-07-18") == 125000
    ensures GetMaxTokens("o1-preview") == DefaultLimit
  {
    var t := LimitTable;
    var a, b, c, d, e := "gpt-3.5-turbo-16k-0613", "gpt-3.5-turbo-0125", "gpt-4-turbo", "gpt-4o-mini-2024-07-18", "o1-preview";
    assert a[..17] == t[3].0 && b[..13] == t[4].0 && c[..5] == t[2].0 && d[..11] == t[0].0;
    Differs(a, t[0].0, 4);
    Differs(a, t[1].0, 4);
    Differs(a, t[2].0, 4);
    Differs(b, t[0].0, 4);
    Differs(b, t[1].0, 4);
    Differs(b, t[2].0, 4);
    Differs(b, t[3].0, 14);
    Differs(c, t[0].0, 5);
    Differs(c, t[1].0, 5);
    forall i | 0 <= i < |t| ensures !StartsWith(e, t[i].0) {
      Differs(e, t[i].0, 0);
    }
  }

  lemma Differs(s: string, p: string, k: nat)
    requires k < |s| && k < |p| && s[k] != p[k]
    ensures !StartsWith(s, p)
  {
  }

  /**
    The limits that fall below a given number of reserved tokens are those
    of the `gpt-3.5-turbo` family without `-16k` and of unknown models:
    below the 4000 tokens the split reserves, every other model has room.
   */
  lemma SmallLimits(model: string)
    ensures GetMaxTokens(model) < 4000 <==>
      && !StartsWith(model, "gpt-4o-mini") && !StartsWith(model, "gpt-4o") && !StartsWith(model, "gpt-4")
      && !StartsWith(model, "gpt-3.5-turbo-16k")
  {
    var t := LimitTable;
    assert t[0].0 == "gpt-4o-mini" && t[1].0 == "gpt-4o" && t[2].0 == "gpt-4" && t[3].0 == "gpt-3.5-turbo-16k";
    var n := GetMaxTokens(model);
    if exists i :: 0 <= i < |t| && StartsWith(model, t[i].0) {
      var i :| 0 <= i < |t| && FirstMatchAt(model, t, i) && n == t[i].1;
      assert i == 4 ==> (!StartsWith(model, t[0].0) && !StartsWith(model, t[1].0)
        && !StartsWith(model, t[2].0) && !StartsWith(model, t[3].0));
    }
  }
}

=== FILE: optimizer.dfy ===
/**
  `ContentAnalyzer.optimize_input_json` (data_scrapper/content_analyzer.py):
  the corpus is slimmed before analysis. Each page keeps its URL, title and
  content; list kinds, image titles and metadata are dropped, images
  without a source disappear, and containers are replaced by their
  heading, paragraph and list children, one level deep.
 */
module Optimizer {
  import opened Wrappers
  import opened Content

  /** The shape of a node after optimisation. */
  predicate Slim(n: ContentNode) {
    match n
    case Heading(_, _) => true
    case Paragraph(_) => true
    case ListBlock(kind, _) => kind.None?
    case Image(src, _, title) => src != "" && title.None?
    case Container(_, _) => false
  }

  predicate AllSlim(ns: seq<ContentNode>) {
    forall i :: 0 <= i < |ns| ==> Slim(ns[i])
  }

  /** A container child that is kept: headings, paragraphs and lists (without their kind). */
  function LiftChild(c: ContentNode): (r: seq<ContentNode>)
    ensures |r| <= 1
    ensures AllSlim(r)
    ensures |r| == 1 <==> c.Heading? || c.Paragraph? || c.ListBlock?
  {
    match c
    case Heading(_, _) => [c]
    case Paragraph(_) => [c]
    case ListBlock(_, items) => [ListBlock(None, items)]
    case _ => []
  }

  /** The kept children of a container, in order. */
  function Lift(children: seq<ContentNode>): (r: seq<ContentNode>)
    ensures |r| <= |children|
    ensures AllSlim(r)
  {
    if children == [] then [] else LiftChild(children[0]) + Lift(children[1..])
  }

  /** What one top-level node becomes. */
  function OptimizeNode(n: ContentNode): (r: seq<ContentNode>)
    ensures AllSlim(r)
    ensures !n.Container? ==> |r| <= 1
    ensures n.Image? ==> (|r| == 1 <==> n.src != "")
    ensures Slim(n) ==> r == [n]
  {
    match n
    case Heading(_, _) => [n]
    case Paragraph(_) => [n]
    case ListBlock(_, items) => [ListBlock(None, items)]
    case Image(src, alt, _) => if src != "" then [Image(src, alt, None)] else []
    case Container(_, children) => Lift(children)
  }

  /** The optimised content of a page, in document order. */
  function OptimizeContent(ns: seq<ContentNode>): (r: seq<ContentNode>)
    ensures AllSlim(r)
  {
    if ns == [] then [] else OptimizeNode(ns[0]) + OptimizeContent(ns[1..])
  }

  /** The optimised page: URL, title and optimised content; nothing else survives. */
  function OptimizePage(p: Page): (r: Page)
    ensures r.url == p.url && r.title == p.title && r.metadata == map[]
    ensures AllSlim(r.content)
  {
    Page(p.url, p.title, map[], OptimizeContent(p.content))
  }

  /** `optimize_input_json(data)`: every page, under its own key, in order. */
  function Optimize(data: Corpus): (r: Corpus)
    ensures |r| == |data|
    ensures forall i :: 0 <= i < |data| ==> r[i].0 == data[i].0 && r[i].1 == OptimizePage(data[i].1)
  {
    seq(|data|, i requires 0 <= i < |data| => (data[i].0, OptimizePage(data[i].1)))
  }

  /** Content that is already slim is left exactly as it is. */
  lemma {:induction false} SlimIsFixed(ns: seq<ContentNode>)
    requires AllSlim(ns)
    ensures OptimizeContent(ns) == ns
    decreases |ns|
  {
    if ns != [] {
      SlimIsFixed(ns[1..]);
      assert [ns[0]] + ns[1..] == ns;
    }
  }

  /** Optimising content is idempotent. */
  lemma OptimizeContentIdempotent(ns: seq<ContentNode>)
    ensures OptimizeContent(OptimizeContent(ns)) == OptimizeContent(ns)
  {
    SlimIsFixed(OptimizeContent(ns));
  }

  /** `optimize_input_json` is idempotent on a whole corpus. */
  lemma OptimizeIdempotent(data: Corpus)
    ensures Optimize(Optimize(data)) == Optimize(data)
  {
    forall i | 0 <= i < |data|
      ensures Optimize(Optimize(data))[i] == Optimize(data)[i]
    {
      OptimizeContentIdempotent(data[i].1.content);
    }
  }

  /** Content is handled node by node: optimising two runs is optimising each. */
  lemma {:induction false} OptimizeAppend(a: seq<ContentNode>, b: seq<ContentNode>)
    ensures OptimizeContent(a + b) == OptimizeContent(a) + OptimizeContent(b)
    decreases |a|
  {
    if a == [] {
      assert a + b == b;
    } else {
      assert (a + b)[1..] == a[1..] + b;
      OptimizeAppend(a[1..], b);
    }
  }

  /**
    Lifting goes one level only: a container nested in a container is
    dropped with everything inside it, and so is an image inside a
    container, even one with a source.
   */
  lemma NestedDropped(tag: string, inner: ContentNode, sibling: ContentNode)
    requires inner.Container? || inner.Image?
    ensures OptimizeNode(Container(tag, [inner, sibling])) == LiftChild(sibling)
  {
    var cs := [inner, sibling];
    assert cs[1..] == [sibling];
    assert Lift([sibling]) == LiftChild(sibling) + Lift([]) by {
      assert [sibling][1..] == [];
    }
    assert LiftChild(inner) == [];
    assert Lift(cs) == LiftChild(inner) + Lift(cs[1..]);
  }
}

=== FILE: packing.dfy ===
/**
  The unit structure behind `_split_content`
  (data_scrapper/content_analyzer.py), as a reference definition in two
  stages: the lines are cut into units (a heading line with the
  non-heading lines after it, or a single line that precedes every
  heading), and the units are packed greedily into parts, a part being
  closed when the next unit would take it past the budget.
 */
module Packing {
  import opened Sections
  import opened Collections

  /** The concatenation of a sequence of runs, in order. */
  function Concat<T>(xss: seq<seq<T>>): seq<T>
    decreases |xss|
  {
    if xss == [] then [] else Concat(xss[..|xss| - 1]) + xss[|xss| - 1]
  }

  lemma {:induction false} ConcatAppend<T>(a: seq<seq<T>>, b: seq<seq<T>>)
    ensures Concat(a + b) == Concat(a) + Concat(b)
    decreases |b|
  {
    if b == [] {
      AppendEmpty(a);
    } else {
      var init, x := b[..|b| - 1], b[|b| - 1];
      SplitLast(a, b);
      SnocInit(a + init, x);
      SnocLast(b);
      ConcatAppend(a, init);
    }
  }

  /** The estimated token count of some lines: the sum of the estimates of each. */
  function Tokens(xs: seq<string>, est: string -> nat): nat
    decreases |xs|
  {
    if xs == [] then 0 else Tokens(xs[..|xs| - 1], est) + est(xs[|xs| - 1])
  }

  lemma {:induction false} TokensAppend(a: seq<string>, b: seq<string>, est: string -> nat)
    ensures Tokens(a + b, est) == Tokens(a, est) + Tokens(b, est)
    decreases |b|
  {
    if b == [] {
      assert a + b == a;
    } else {
      assert (a + b)[..|a + b| - 1] == a + b[..|b| - 1];
      TokensAppend(a, b[..|b| - 1], est);
    }
  }

  predicate AnyHeading(xs: seq<string>) {
    exists i :: 0 <= i < |xs| && IsHeading(xs[i])
  }

  /** A section: a heading line and the non-heading lines that follow it. */
  predicate Section(u: seq<string>) {
    |u| >= 1 && IsHeading(u[0]) && forall i :: 1 <= i < |u| ==> !IsHeading(u[i])
  }

  /** A loose line: one non-heading line, handled on its own. */
  predicate Loose(u: seq<string>) {
    |u| == 1 && !IsHeading(u[0])
  }

  predicate AllLoose(us: seq<seq<string>>) {
    forall j :: 0 <= j < |us| ==> Loose(us[j])
  }

  /** Units are sections, except loose lines, which all come first. */
  predicate WellUnits(us: seq<seq<string>>) {
    forall k :: 0 <= k < |us| ==> Section(us[k]) || (Loose(us[k]) && AllLoose(us[..k]))
  }

  /**
    The units of a list of lines. Every line before the first heading is a
    unit of its own; from the first heading on, a heading opens a unit and
    every other line joins the unit before it.
   */
  function Units(xs: seq<string>): (us: seq<seq<string>>)
    ensures |us| <= |xs|
    ensures |xs| > 0 ==> |us| > 0
    decreases |xs|
  {
    if xs == [] then []
    else
      var init := xs[..|xs| - 1];
      var x := xs[|xs| - 1];
      var us := Units(init);
      if IsHeading(x) || !AnyHeading(init) then us + [[x]]
      else us[..|us| - 1] + [us[|us| - 1] + [x]]
  }

  lemma ConcatSnoc<T>(xss: seq<seq<T>>, xs: seq<T>)
    ensures Concat(xss + [xs]) == Concat(xss) + xs
  {
    assert (xss + [xs])[..|xss|] == xss;
  }

  lemma AnyHeadingSnoc(xs: seq<string>, x: string)
    ensures AnyHeading(xs + [x]) <==> AnyHeading(xs) || IsHeading(x)
  {
    var ys := xs + [x];
    assert ys[|xs|] == x;
    if AnyHeading(xs) {
      var i :| 0 <= i < |xs| && IsHeading(xs[i]);
      assert ys[i] == xs[i];
    }
    if AnyHeading(ys) {
      var i :| 0 <= i < |ys| && IsHeading(ys[i]);
      if i < |xs| {
        assert xs[i] == ys[i];
      }
    }
  }

  /** One more line either opens a unit or joins the last one. */
  lemma UnitsSnoc(pp: seq<string>, x: string)
    ensures var us := Units(pp); var us' := Units(pp + [x]);
      if IsHeading(x) || !AnyHeading(pp) then us' == us + [[x]]
      else |us| >= 1 && us' == us[..|us| - 1] + [us[|us| - 1] + [x]]
  {
    assert (pp + [x])[..|pp|] == pp;
    if !IsHeading(x) && AnyHeading(pp) {
      assert |pp| > 0;
    }
  }

  /** The units hold the lines, in order, each exactly once. */
  lemma {:induction false} UnitsConcat(xs: seq<string>)
    ensures Concat(Units(xs)) == xs
    decreases |xs|
  {
    if xs != [] {
      var init := xs[..|xs| - 1];
      var x := xs[|xs| - 1];
      var us := Units(init);
      assert init + [x] == xs;
      UnitsConcat(init);
      UnitsSnoc(init, x);
      if IsHeading(x) || !AnyHeading(init) {
        ConcatSnoc(us, [x]);
      } else {
        var n := |us| - 1;
        var last := us[n];
        assert us[..n] + [last] == us;
        ConcatSnoc(us[..n], last);
        ConcatSnoc(us[..n], last + [x]);
      }
    }
  }

  /** Adding a section, or a loose line after loose lines only, keeps units well formed. */
  lemma WellAppendUnit(us: seq<seq<string>>, u: seq<string>)
    requires WellUnits(us)
    requires Section(u) || (Loose(u) && AllLoose(us))
    ensures WellUnits(us + [u])
    ensures AllLoose(us) && Loose(u) ==> AllLoose(us + [u])
  {
    var vs := us + [u];
    forall k | 0 <= k < |vs| ensures Section(vs[k]) || (Loose(vs[k]) && AllLoose(vs[..k])) {
      PrefixOfSnoc(us, u, k);
      if k == |us| {
        assert us[..k] == us;
      }
    }
  }

  /** A non-heading line joining a last unit that is a section keeps units well formed. */
  lemma WellExtendLast(us: seq<seq<string>>, x: string)
    requires WellUnits(us) && |us| >= 1 && Section(us[|us| - 1]) && !IsHeading(x)
    ensures var n := |us| - 1; var vs := us[..n] + [us[n] + [x]];
      WellUnits(vs) && Section(vs[|vs| - 1])
  {
    var n := |us| - 1;
    var v := us[n] + [x];
    assert Section(v) by {
      assert v[0] == us[n][0];
      forall i | 1 <= i < |v| ensures !IsHeading(v[i]) {
        if i < |us[n]| {
          assert v[i] == us[n][i];
        }
      }
    }
    WellUnitsPrefix(us, n);
    WellAppendUnit(us[..n], v);
  }

  /**
    The units are well formed: sections, and loose lines before them; the
    last unit is a section as soon as there is a heading.
   */
  lemma {:induction false} UnitsWell(xs: seq<string>)
    ensures WellUnits(Units(xs))
    ensures AnyHeading(xs) ==> Section(Units(xs)[|Units(xs)| - 1])
    ensures !AnyHeading(xs) ==> AllLoose(Units(xs))
    decreases |xs|
  {
    if xs != [] {
      var init := xs[..|xs| - 1];
      var x := xs[|xs| - 1];
      var us := Units(init);
      assert init + [x] == xs;
      UnitsWell(init);
      AnyHeadingSnoc(init, x);
      UnitsSnoc(init, x);
      if IsHeading(x) || !AnyHeading(init) {
        WellAppendUnit(us, [x]);
      } else {
        WellExtendLast(us, x);
      }
    }
  }

  lemma AllLooseNoHeading(us: seq<seq<string>>)
    requires AllLoose(us)
    ensures !AnyHeading(Concat(us))
    decreases |us|
  {
    if us != [] {
      AllLooseNoHeading(us[..|us| - 1]);
    }
  }

  /** A section minus its last line, when it has more than one, is still a section. */
  lemma SectionInit(v: seq<string>)
    requires Section(v) && |v| >= 2
    ensures Section(v[..|v| - 1])
  {
    var v' := v[..|v| - 1];
    assert v'[0] == v[0];
    forall i | 1 <= i < |v'| ensures !IsHeading(v'[i]) {
      assert v'[i] == v[i];
    }
  }

  /** Appending a section to some lines appends it to their units as one unit. */
  lemma {:induction false} UnitsAppendSection(a: seq<string>, v: seq<string>)
    requires Section(v)
    ensures Units(a + v) == Units(a) + [v]
    decreases |v|
  {
    var n := |v| - 1;
    var x := v[n];
    var v' := v[..n];
    SplitLast(a, v);
    SnocLast(v);
    UnitsSnoc(a + v', x);
    if n > 0 {
      SectionInit(v);
      UnitsAppendSection(a, v');
      assert IsHeading((a + v')[|a|]);
      SnocInit(Units(a), v');
    }
  }

  lemma WellUnitsPrefix(vs: seq<seq<string>>, n: nat)
    requires WellUnits(vs) && n <= |vs|
    ensures WellUnits(vs[..n])
  {
    var vs' := vs[..n];
    forall k | 0 <= k < |vs'| ensures Section(vs'[k]) || (Loose(vs'[k]) && AllLoose(vs'[..k])) {
      PrefixOfPrefix(vs, n, k);
    }
  }

  /**
    The cut into units is the only one of its kind: any list of well-formed
    units is the cut of its own concatenation.
   */
  lemma {:induction false} UnitsUnique(vs: seq<seq<string>>)
    requires WellUnits(vs)
    ensures Units(Concat(vs)) == vs
    decreases |vs|
  {
    if vs != [] {
      var n := |vs| - 1;
      var vs' := vs[..n];
      var v := vs[n];
      assert vs' + [v] == vs;
      WellUnitsPrefix(vs, n);
      UnitsUnique(vs');
      var a := Concat(vs');
      ConcatSnoc(vs', v);
      if Section(v) {
        UnitsAppendSection(a, v);
      } else {
        assert Loose(v) && AllLoose(vs');
        AllLooseNoHeading(vs');
        assert v == [v[0]];
        UnitsSnoc(a, v[0]);
      }
    }
  }

  // ---------------------------------------------------------------------
  // Greedy packing of units.
  // ---------------------------------------------------------------------

  /** The closed groups of units and the group still being filled. */
  datatype Packing = Packing(done: seq<seq<seq<string>>>, cur: seq<seq<string>>)

  /**
    One unit joins the open group; when it would take a non-empty open
    group past `eff`, that group is closed first and the unit opens the next.
   */
  function PackStep(p: Packing, u: seq<string>, eff: int, est: string -> nat): (q: Packing)
    ensures |q.done| == |p.done| || |q.done| == |p.done| + 1
  {
    if Tokens(Concat(p.cur), est) + Tokens(u, est) > eff && Concat(p.cur) != []
    then Packing(p.done + [p.cur], [u])
    else Packing(p.done, p.cur + [u])
  }

  /** The packing of a list of units, one unit at a time. */
  function Pack(us: seq<seq<string>>, eff: int, est: string -> nat): Packing
    decreases |us|
  {
    if us == [] then Packing([], [])
    else PackStep(Pack(us[..|us| - 1], eff, est), us[|us| - 1], eff, est)
  }

  /** The groups of units, the open one included when it holds any line. */
  function Groups(us: seq<seq<string>>, eff: int, est: string -> nat): seq<seq<seq<string>>> {
    var p := Pack(us, eff, est);
    if Concat(p.cur) != [] then p.done + [p.cur] else p.done
  }

  // ---------------------------------------------------------------------
  // What the packing guarantees.
  // ---------------------------------------------------------------------

  predicate NonEmptyUnits(us: seq<seq<string>>) {
    forall i :: 0 <= i < |us| ==> |us[i]| > 0
  }

  lemma WellUnitsNonEmpty(us: seq<seq<string>>)
    requires WellUnits(us)
    ensures NonEmptyUnits(us)
  {
  }

  lemma {:induction false} ConcatEmpty(us: seq<seq<string>>)
    requires NonEmptyUnits(us)
    ensures Concat(us) == [] <==> us == []
  {
    if us != [] {
      assert |Concat(us)| >= |us[|us| - 1]|;
    }
  }

  lemma ConcatOne<T>(x: seq<T>)
    ensures Concat([x]) == x
  {
    assert [x][..0] == [];
  }

  /** Every group holds at least one unit. */
  ghost predicate NonEmptyGroups(gs: seq<seq<seq<string>>>) {
    forall k :: 0 <= k < |gs| ==> |gs[k]| >= 1
  }

  /** Every group fits the budget, or is a single unit. */
  ghost predicate WithinBudget(gs: seq<seq<seq<string>>>, eff: int, est: string -> nat) {
    forall k :: 0 <= k < |gs| ==> Tokens(Concat(gs[k]), est) <= eff || |gs[k]| == 1
  }

  /** A group was closed only because the unit that opens the next one would not fit. */
  ghost predicate ClosedOnOverflow(gs: seq<seq<seq<string>>>, eff: int, est: string -> nat) {
    forall k :: 0 <= k < |gs| - 1 && |gs[k + 1]| >= 1 ==>
      Tokens(Concat(gs[k]), est) + Tokens(gs[k + 1][0], est) > eff
  }

  /** A group opens with a section, unless only loose lines came before it. */
  ghost predicate OpensCleanly(gs: seq<seq<seq<string>>>) {
    forall k :: 0 < k < |gs| && |gs[k]| >= 1 ==> Section(gs[k][0]) || AllLoose(Concat(gs[..k]))
  }

  /**
    The invariant the packing keeps, for a packing of the units `seen`:
    units in order, closed groups non-empty, within budget, closed on
    overflow and opening cleanly, and the open group continuing the same
    pattern.
   */
  ghost predicate Good(p: Packing, seen: seq<seq<string>>, eff: int, est: string -> nat) {
    && Concat(p.done) + p.cur == seen
    && NonEmptyUnits(p.cur)
    && NonEmptyGroups(p.done)
    && WithinBudget(p.done, eff, est)
    && (Tokens(Concat(p.cur), est) <= eff || |p.cur| <= 1)
    && ClosedOnOverflow(p.done, eff, est)
    && (|p.done| > 0 ==> |p.cur| >= 1 && Tokens(Concat(p.done[|p.done| - 1]), est) + Tokens(p.cur[0], est) > eff)
    && OpensCleanly(p.done)
    && (|p.done| > 0 ==> Section(p.cur[0]) || AllLoose(Concat(p.done)))
  }

  lemma StepOrder(p: Packing, seen: seq<seq<string>>, u: seq<string>, eff: int, est: string -> nat)
    requires Concat(p.done) + p.cur == seen
    ensures var q := PackStep(p, u, eff, est); Concat(q.done) + q.cur == seen + [u]
  {
    var q := PackStep(p, u, eff, est);
    if |q.done| > |p.done| {
      ConcatAppend(p.done, [p.cur]);
      ConcatOne(p.cur);
    }
  }

  lemma StepShape(p: Packing, u: seq<string>, eff: int, est: string -> nat)
    requires NonEmptyUnits(p.cur) && NonEmptyGroups(p.done) && WithinBudget(p.done, eff, est)
    requires Tokens(Concat(p.cur), est) <= eff || |p.cur| <= 1
    requires |u| > 0
    ensures var q := PackStep(p, u, eff, est);
      && NonEmptyUnits(q.cur)
      && NonEmptyGroups(q.done)
      && WithinBudget(q.done, eff, est)
      && (Tokens(Concat(q.cur), est) <= eff || |q.cur| <= 1)
  {
    var q := PackStep(p, u, eff, est);
    ConcatEmpty(p.cur);
    if |q.done| > |p.done| {
      assert q.done == p.done + [p.cur] && q.cur == [u];
      forall k | 0 <= k < |q.done| ensures |q.done[k]| >= 1 && (Tokens(Concat(q.done[k]), est) <= eff || |q.done[k]| == 1) {
        if k < |p.done| {
          PrefixOfSnoc(p.done, p.cur, k);
        }
      }
    } else {
      assert q.done == p.done && q.cur == p.cur + [u];
      forall i | 0 <= i < |q.cur| ensures |q.cur[i]| > 0 {
        PrefixOfSnoc(p.cur, u, i);
      }
      ConcatSnoc(p.cur, u);
      TokensAppend(Concat(p.cur), u, est);
    }
  }

  lemma StepOverflow(p: Packing, u: seq<string>, eff: int, est: string -> nat)
    requires ClosedOnOverflow(p.done, eff, est)
    requires |p.done| > 0 ==> |p.cur| >= 1 && Tokens(Concat(p.done[|p.done| - 1]), est) + Tokens(p.cur[0], est) > eff
    ensures var q := PackStep(p, u, eff, est);
      && ClosedOnOverflow(q.done, eff, est)
      && (|q.done| > 0 ==> |q.cur| >= 1 && Tokens(Concat(q.done[|q.done| - 1]), est) + Tokens(q.cur[0], est) > eff)
  {
    var q := PackStep(p, u, eff, est);
    if |q.done| > |p.done| {
      assert q.done == p.done + [p.cur] && q.cur == [u];
      OverflowAfterClose(p.done, p.cur, u, eff, est);
    } else {
      assert q.done == p.done && q.cur == p.cur + [u];
      if |p.done| > 0 {
        PrefixOfSnoc(p.cur, u, 0);
      }
    }
  }

  /** Closing a group because the next unit overflows it keeps the groups closed on overflow. */
  lemma OverflowAfterClose(done: seq<seq<seq<string>>>, cur: seq<seq<string>>, u: seq<string>, eff: int, est: string -> nat)
    requires ClosedOnOverflow(done, eff, est)
    requires |done| > 0 ==> |cur| >= 1 && Tokens(Concat(done[|done| - 1]), est) + Tokens(cur[0], est) > eff
    requires Tokens(Concat(cur), est) + Tokens(u, est) > eff
    ensures ClosedOnOverflow(done + [cur], eff, est)
    ensures Tokens(Concat((done + [cur])[|done|]), est) + Tokens([u][0], est) > eff
  {
    var gs := done + [cur];
    SnocInit(done, cur);
    forall k | 0 <= k < |gs| - 1 && |gs[k + 1]| >= 1
      ensures Tokens(Concat(gs[k]), est) + Tokens(gs[k + 1][0], est) > eff
    {
      PrefixOfSnoc(done, cur, k);
      PrefixOfSnoc(done, cur, k + 1);
    }
  }

  /** Closing a group that opens cleanly keeps every group opening cleanly. */
  lemma OpensAfterClose(done: seq<seq<seq<string>>>, cur: seq<seq<string>>)
    requires OpensCleanly(done) && |cur| >= 1
    requires |done| > 0 ==> Section(cur[0]) || AllLoose(Concat(done))
    ensures OpensCleanly(done + [cur])
  {
    var gs := done + [cur];
    forall k | 0 < k < |gs| && |gs[k]| >= 1
      ensures Section(gs[k][0]) || AllLoose(Concat(gs[..k]))
    {
      PrefixOfSnoc(done, cur, k);
      if k < |done| {
        assert Section(done[k][0]) || AllLoose(Concat(done[..k]));
      } else {
        assert done[..k] == done;
      }
    }
  }

  lemma StepOpens(p: Packing, seen: seq<seq<string>>, u: seq<string>, eff: int, est: string -> nat)
    requires Concat(p.done) + p.cur == seen && NonEmptyUnits(p.cur)
    requires OpensCleanly(p.done) && (|p.done| > 0 ==> |p.cur| >= 1 && (Section(p.cur[0]) || AllLoose(Concat(p.done))))
    requires Section(u) || (Loose(u) && AllLoose(seen))
    ensures var q := PackStep(p, u, eff, est);
      && OpensCleanly(q.done)
      && (|q.done| > 0 ==> Section(q.cur[0]) || AllLoose(Concat(q.done)))
  {
    var q := PackStep(p, u, eff, est);
    if |q.done| > |p.done| {
      assert q.done == p.done + [p.cur] && q.cur == [u];
      ConcatEmpty(p.cur);
      OpensAfterClose(p.done, p.cur);
      ConcatAppend(p.done, [p.cur]);
      ConcatOne(p.cur);
      assert Concat(q.done) == seen;
    } else {
      assert q.done == p.done && q.cur == p.cur + [u];
      if |p.done| > 0 {
        PrefixOfSnoc(p.cur, u, 0);
      }
    }
  }

  /** One packing step keeps the invariant. */
  lemma StepGood(p: Packing, seen: seq<seq<string>>, u: seq<string>, eff: int, est: string -> nat)
    requires Good(p, seen, eff, est) && |u| > 0
    requires Section(u) || (Loose(u) && AllLoose(seen))
    ensures Good(PackStep(p, u, eff, est), seen + [u], eff, est)
  {
    StepOrder(p, seen, u, eff, est);
    StepShape(p, u, eff, est);
    StepOverflow(p, u, eff, est);
    StepOpens(p, seen, u, eff, est);
  }

  /** Packing the units in order keeps the invariant. */
  lemma {:induction false} PackGood(us: seq<seq<string>>, eff: int, est: string -> nat)
    requires WellUnits(us)
    ensures Good(Pack(us, eff, est), us, eff, est)
    decreases |us|
  {
    if us != [] {
      var n := |us| - 1;
      var init := us[..n];
      var u := us[n];
      assert init + [u] == us;
      assert Pack(us, eff, est) == PackStep(Pack(init, eff, est), u, eff, est);
      WellUnitsPrefix(us, n);
      PackGood(init, eff, est);
      assert Section(u) || (Loose(u) && AllLoose(init));
      StepGood(Pack(init, eff, est), init, u, eff, est);
    }
  }

  /** The groups are the packing's closed groups, then the open one when it holds a line. */
  lemma GroupsShape(us: seq<seq<string>>, eff: int, est: string -> nat)
    requires WellUnits(us)
    ensures Good(Pack(us, eff, est), us, eff, est)
    ensures var p := Pack(us, eff, est);
      Groups(us, eff, est) == if p.cur != [] then p.done + [p.cur] else p.done
  {
    var p := Pack(us, eff, est);
    PackGood(us, eff, est);
    ConcatEmpty(p.cur);
  }

  lemma GroupsCover(us: seq<seq<string>>, eff: int, est: string -> nat)
    requires WellUnits(us)
    ensures Concat(Groups(us, eff, est)) == us
  {
    var p := Pack(us, eff, est);
    GroupsShape(us, eff, est);
    if p.cur != [] {
      ConcatAppend(p.done, [p.cur]);
      ConcatOne(p.cur);
    }
  }

  lemma GroupsNonEmptyWithin(us: seq<seq<string>>, eff: int, est: string -> nat)
    requires WellUnits(us)
    ensures NonEmptyGroups(Groups(us, eff, est))
    ensures WithinBudget(Groups(us, eff, est), eff, est)
  {
    var p := Pack(us, eff, est);
    var gs := Groups(us, eff, est);
    GroupsShape(us, eff, est);
    if p.cur != [] {
      forall k | 0 <= k < |gs| ensures |gs[k]| >= 1 && (Tokens(Concat(gs[k]), est) <= eff || |gs[k]| == 1) {
        if k < |p.done| {
          assert gs[k] == p.done[k];
        }
      }
    }
  }

  lemma GroupsClosed(us: seq<seq<string>>, eff: int, est: string -> nat)
    requires WellUnits(us)
    ensures ClosedOnOverflow(Groups(us, eff, est), eff, est)
  {
    var p := Pack(us, eff, est);
    var gs := Groups(us, eff, est);
    GroupsShape(us, eff, est);
    if p.cur != [] {
      forall k | 0 <= k < |gs| - 1 && |gs[k + 1]| >= 1
        ensures Tokens(Concat(gs[k]), est) + Tokens(gs[k + 1][0], est) > eff
      {
        assert gs[k] == p.done[k];
        if k < |p.done| - 1 {
          assert gs[k + 1] == p.done[k + 1];
        }
      }
    }
  }

  lemma GroupsOpen(us: seq<seq<string>>, eff: int, est: string -> nat)
    requires WellUnits(us)
    ensures OpensCleanly(Groups(us, eff, est))
  {
    var p := Pack(us, eff, est);
    var gs := Groups(us, eff, est);
    GroupsShape(us, eff, est);
    if p.cur != [] {
      forall k | 0 < k < |gs| && |gs[k]| >= 1 ensures Section(gs[k][0]) || AllLoose(Concat(gs[..k])) {
        if k < |p.done| {
          assert gs[k] == p.done[k] && gs[..k] == p.done[..k];
        } else {
          assert gs[..k] == p.done;
        }
      }
    }
  }

  /** What the reference packing guarantees about its groups. */
  lemma GroupsSpec(us: seq<seq<string>>, eff: int, est: string -> nat)
    requires WellUnits(us)
    ensures Concat(Groups(us, eff, est)) == us
    ensures NonEmptyGroups(Groups(us, eff, est))
    ensures WithinBudget(Groups(us, eff, est), eff, est)
    ensures ClosedOnOverflow(Groups(us, eff, est), eff, est)
    ensures OpensCleanly(Groups(us, eff, est))
  {
    GroupsCover(us, eff, est);
    GroupsNonEmptyWithin(us, eff, est);
    GroupsClosed(us, eff, est);
    GroupsOpen(us, eff, est);
  }
}

=== FILE: sections.dfy ===
/**
  The line format shared by the flattening in `analyze_content` and by
  `_split_content` (data_scrapper/content_analyzer.py): which lines open a
  section, and the title-to-URL entries a section contributes.
 */
module Sections {
  import opened Strings

  const PagePrefix: string := "### Page:"
  const HeadingPrefix: string := "\n## "

  /** `item.startswith('\n## ') or item.startswith('### Page:')`. */
  predicate IsHeading(line: string) {
    StartsWith(line, HeadingPrefix) || StartsWith(line, PagePrefix)
  }

  /** The page marker `f"### Page: {title}\nURL: {url}\n"`. */
  function PageMarker(title: string, url: string): (line: string)
    ensures IsHeading(line)
  {
    assert ("### Page: " + title + "\nURL: " + url + "\n")[..9] == PagePrefix;
    "### Page: " + title + "\nURL: " + url + "\n"
  }

  /** A heading line `f"\n## {text}"`. */
  function HeadingLine(text: string): (line: string)
    ensures IsHeading(line)
  {
    assert (HeadingPrefix + text)[..4] == HeadingPrefix;
    HeadingPrefix + text
  }

  /**
    The URL entries `_split_content` files for a section opened by `line`:
    a page marker gives its title and URL as read back from its first two
    lines; a heading gives its text, looked up in `pageUrls`; any other
    line gives nothing.
   */
  function SectionUrls(line: string, pageUrls: map<string, string>): (m: map<string, string>)
    ensures |m| <= 1
    ensures !IsHeading(line) ==> m == map[]
  {
    if StartsWith(line, PagePrefix) then
      var lines := SplitOn(line, '\n');
      var title := ReplaceAll(lines[0], "### Page: ", "");
      var url := if |lines| > 1 then ReplaceAll(lines[1], "URL: ", "") else "";
      map[title := url]
    else if StartsWith(line, HeadingPrefix) then
      var heading := ReplaceAll(line, HeadingPrefix, "");
      if heading in pageUrls then map[heading := pageUrls[heading]] else map[]
    else map[]
  }

  /** The URL map a run of lines accumulates: each section's entries, later ones winning. */
  function UrlsOf(lines: seq<string>, pageUrls: map<string, string>): map<string, string>
    decreases |lines|
  {
    if lines == [] then map[]
    else UrlsOf(lines[..|lines| - 1], pageUrls) + SectionUrls(lines[|lines| - 1], pageUrls)
  }

  /** `dict.update` composes: the URLs of two runs are the URLs of each, the second winning. */
  lemma {:induction false} UrlsOfAppend(a: seq<string>, b: seq<string>, pageUrls: map<string, string>)
    ensures UrlsOf(a + b, pageUrls) == UrlsOf(a, pageUrls) + UrlsOf(b, pageUrls)
    decreases |b|
  {
    if b == [] {
      assert a + b == a;
    } else {
      var b' := b[..|b| - 1];
      var x := b[|b| - 1];
      assert (a + b)[..|a + b| - 1] == a + b';
      assert (a + b)[|a + b| - 1] == x;
      UrlsOfAppend(a, b', pageUrls);
      UnionAssoc(UrlsOf(a, pageUrls), UrlsOf(b', pageUrls), SectionUrls(x, pageUrls));
    }
  }

  lemma UnionAssoc(x: map<string, string>, y: map<string, string>, z: map<string, string>)
    ensures (x + y) + z == x + (y + z)
  {
  }

  /** Only the heading lines of a run contribute URL entries. */
  lemma UrlsOfHeadingOnly(h: string, rest: seq<string>, pageUrls: map<string, string>)
    requires forall i :: 0 <= i < |rest| ==> !IsHeading(rest[i])
    ensures UrlsOf([h] + rest, pageUrls) == SectionUrls(h, pageUrls)
  {
    UrlsOfAppend([h], rest, pageUrls);
    NoHeadingNoUrls(rest, pageUrls);
    assert [h][..0] == [];
  }

  lemma {:induction false} NoHeadingNoUrls(lines: seq<string>, pageUrls: map<string, string>)
    requires forall i :: 0 <= i < |lines| ==> !IsHeading(lines[i])
    ensures UrlsOf(lines, pageUrls) == map[]
    decreases |lines|
  {
    if lines != [] {
      NoHeadingNoUrls(lines[..|lines| - 1], pageUrls);
    }
  }

  /**
    The page marker reads back as its title and URL, provided neither holds
    a newline and neither holds the label that the read-back removes.
   */
  lemma MarkerRoundTrip(title: string, url: string, pageUrls: map<string, string>)
    requires NoChar(title, '\n') && NoChar(url, '\n')
    requires !Contains(title, "### Page: ") && !Contains(url, "URL: ")
    ensures SectionUrls(PageMarker(title, url), pageUrls) == map[title := url]
  {
    var line := PageMarker(title, url);
    MarkerLines(title, url);
    var lines := SplitOn(line, '\n');
    assert StartsWith(line, PagePrefix);
    ReplaceLeading("### Page: ", title, "");
    ReplaceAbsent(title, "### Page: ", "");
    assert ReplaceAll(lines[0], "### Page: ", "") == title;
    ReplaceLeading("URL: ", url, "");
    ReplaceAbsent(url, "URL: ", "");
    assert ReplaceAll(lines[1], "URL: ", "") == url;
    assert |lines| > 1;
  }

  /** The page marker's lines: the labelled title, the labelled URL, and an empty tail. */
  lemma MarkerLines(title: string, url: string)
    requires NoChar(title, '\n') && NoChar(url, '\n')
    ensures SplitOn(PageMarker(title, url), '\n') == ["### Page: " + title, "URL: " + url, ""]
  {
    var a := "### Page: " + title;
    var c := "URL: " + url;
    assert PageMarker(title, url) == a + ['\n'] + (c + ['\n'] + "");
    assert NoChar(a, '\n') by {
      forall i | 0 <= i < |a| ensures a[i] != '\n' {
        if i >= 10 {
          assert a[i] == title[i - 10];
        }
      }
    }
    assert NoChar(c, '\n') by {
      forall i | 0 <= i < |c| ensures c[i] != '\n' {
        if i >= 5 {
          assert c[i] == url[i - 5];
        }
      }
    }
    SplitAtFirst(a, '\n', c + ['\n'] + "");
    SplitAtFirst(c, '\n', "");
  }

  /** A heading line reads back as its text, looked up in the URL map. */
  lemma HeadingRoundTrip(text: string, pageUrls: map<string, string>)
    requires !Contains(text, HeadingPrefix)
    ensures SectionUrls(HeadingLine(text), pageUrls)
      == if text in pageUrls then map[text := pageUrls[text]] else map[]
  {
    var line := HeadingLine(text);
    assert !StartsWith(line, PagePrefix) by {
      assert line[0] == '\n';
    }
    assert line[..4] == HeadingPrefix;
    ReplaceLeading(HeadingPrefix, text, "");
    ReplaceAbsent(text, HeadingPrefix, "");
    assert ReplaceAll(line, HeadingPrefix, "") == text;
  }
}

=== FILE: splitter.dfy ===
/**
  `_split_content` (data_scrapper/content_analyzer.py): the flattened lines
  are cut into parts that fit the model's context window, without breaking
  a section, and each part carries the URLs of the sections it holds.

  The loop is modelled as it is written, one line at a time over an
  explicit state, and is proved to compute the reference definition of
  the Packing module: the lines, once over-long ones are truncated, are
  cut into units and the units packed greedily.
 */
module Splitting {
  import opened Wrappers
  import opened Strings
  import opened Sections
  import opened Packing
  import opened Collections

  // ---------------------------------------------------------------------
  // The budget and the truncation of an over-long line.
  // ---------------------------------------------------------------------

  /** Tokens kept back for the instructions and the rest of the prompt. */
  const ReservedTokens: int := 4000

  /** What a part may hold: the model's limit, less the reserve and the URL table's own size. */
  function EffectiveBudget(maxTokens: int, urlsTokens: nat): (eff: int)
    ensures eff <= maxTokens - ReservedTokens
  {
    maxTokens - ReservedTokens - urlsTokens
  }

  /** Python's `s[:k]`, a negative `k` counting from the end. */
  function SliceTo(s: string, k: int): (r: string)
    ensures StartsWith(s, r)
    ensures 0 <= k ==> |r| == if k <= |s| then k else |s|
    ensures k < 0 ==> |r| == if |s| + k > 0 then |s| + k else 0
  {
    if k >= 0 then (if k <= |s| then s[..k] else s)
    else if |s| + k > 0 then s[..|s| + k] else []
  }

  /**
    `int(len(item) * ratio * 0.9)` with `ratio = eff / tokens`: the product
    taken exactly and truncated toward zero, as `int` does; its exact value
    is pinned by `KeptCharsTruncates`.
   */
  function KeptChars(len: nat, eff: int, tokens: nat): (k: int)
    requires tokens > 0
    ensures 0 <= eff ==> 0 <= k && 10 * tokens * k <= 9 * len * eff
    ensures eff < 0 ==> k <= 0 && 10 * tokens * (-k) <= 9 * len * (-eff)
  {
    var den := 10 * tokens;
    if eff >= 0 then
      var a: nat := 9 * len * eff;
      DivBound(a, den);
      a / den
    else
      var a: nat := 9 * len * (-eff);
      DivBound(a, den);
      -(a / den)
  }

  /**
    The kept count is the truncation toward zero of `9 * len * eff / (10 * tokens)`:
    its magnitude is the largest count whose `10 * tokens` multiple stays
    within `9 * len * |eff|`.
   */
  lemma KeptCharsTruncates(len: nat, eff: int, tokens: nat)
    requires tokens > 0
    ensures var k := KeptChars(len, eff, tokens);
      0 <= eff ==> 0 <= k && 10 * tokens * k <= 9 * len * eff < 10 * tokens * (k + 1)
    ensures var k := KeptChars(len, eff, tokens);
      eff < 0 ==> k <= 0 && 10 * tokens * (-k) <= 9 * len * (-eff) < 10 * tokens * (-k + 1)
  {
    var den := 10 * tokens;
    if eff >= 0 {
      DivBound(9 * len * eff, den);
    } else {
      DivBound(9 * len * (-eff), den);
    }
  }

  lemma DivBound(a: nat, d: nat)
    requires d > 0
    ensures 0 <= a / d && d * (a / d) <= a < d * (a / d + 1)
  {
  }

  const TruncationMark: string := "... [tronqué]"

  /**
    One line as the loop prepares it. A heading, or a line within the
    budget, is kept; a longer line keeps only its front, followed by the
    truncation mark; a line whose estimate is 0 while the budget is
    negative divides by zero.
   */
  function Prepare(item: string, eff: int, est: string -> nat): (r: Result<string>)
    ensures r.Failure? <==> !IsHeading(item) && est(item) == 0 && eff < 0
    ensures r.Failure? ==> r.error == "division by zero"
    ensures r.Success? && (IsHeading(item) || est(item) <= eff) ==> r.value == item
    ensures r.Success? && !IsHeading(item) && est(item) > eff ==>
      && EndsWith(r.value, TruncationMark)
      && StartsWith(item, r.value[..|r.value| - |TruncationMark|])
    ensures r.Success? ==> (IsHeading(r.value) <==> IsHeading(item))
  {
    if IsHeading(item) || est(item) <= eff then Success(item)
    else if est(item) == 0 then Failure("division by zero")
    else
      var kept := SliceTo(item, KeptChars(|item|, eff, est(item)));
      TruncatedNotHeading(item, kept);
      assert (kept + TruncationMark)[..|kept|] == kept;
      Success(kept + TruncationMark)
  }

  /** A truncated line never passes for a heading: the mark breaks both prefixes. */
  lemma TruncatedNotHeading(item: string, kept: string)
    requires !IsHeading(item) && StartsWith(item, kept)
    ensures !IsHeading(kept + TruncationMark)
  {
    var t := kept + TruncationMark;
    assert t[|kept|] == '.';
    if |kept| >= 4 {
      assert t[..4] == item[..4];
    }
    if |kept| >= 9 {
      assert t[..9] == item[..9];
    }
  }

  /**
    With the budget at or below zero, a truncated line keeps its first
    `|item| + k` characters, `k` the negative count: Python's slice reads a
    negative end from the back, so the line is cut by a share of its length
    and can stay far over the budget.
   */
  lemma NegativeBudgetKeepsFront(est: string -> nat)
    requires est("abcdefghij") == 10
    ensures Prepare("abcdefghij", -5, est) == Success("abcdef" + TruncationMark)
  {
    assert !IsHeading("abcdefghij") by {
      assert "abcdefghij"[..4][0] == 'a';
      assert "abcdefghij"[..9][0] == 'a';
    }
    assert KeptChars(10, -5, 10) == -4;
    assert "abcdefghij"[..6] == "abcdef";
  }

  /** Every line prepared, stopping at the first failure. */
  function PrepareAll(xs: seq<string>, eff: int, est: string -> nat): (r: Result<seq<string>>)
    ensures r.Success? <==> forall i :: 0 <= i < |xs| ==> Prepare(xs[i], eff, est).Success?
    ensures r.Failure? ==> r.error == "division by zero"
    ensures r.Success? ==> |r.value| == |xs|
    ensures r.Success? ==> forall i :: 0 <= i < |xs| ==> r.value[i] == Prepare(xs[i], eff, est).value
    decreases |xs|
  {
    if xs == [] then Success([])
    else
      var init := xs[..|xs| - 1];
      var front := PrepareAll(init, eff, est);
      var last := Prepare(xs[|xs| - 1], eff, est);
      if front.Failure? then
        assert exists i :: 0 <= i < |init| && Prepare(init[i], eff, est).Failure?;
        front
      else if last.Failure? then Failure(last.error)
      else Success(front.value + [last.value])
  }

  // ---------------------------------------------------------------------
  // Parts: the reference definition.
  // ---------------------------------------------------------------------

  /** A part: its lines, and the title-to-URL entries of the sections it holds. */
  datatype Part = Part(content: seq<string>, urls: map<string, string>)

  function PartOf(g: seq<seq<string>>, pageUrls: map<string, string>): Part {
    Part(Concat(g), UrlsOf(Concat(g), pageUrls))
  }

  function PartsOf(gs: seq<seq<seq<string>>>, pageUrls: map<string, string>): (ps: seq<Part>)
    ensures |ps| == |gs|
    ensures forall k :: 0 <= k < |gs| ==> ps[k] == PartOf(gs[k], pageUrls)
    decreases |gs|
  {
    if gs == [] then [] else PartsOf(gs[..|gs| - 1], pageUrls) + [PartOf(gs[|gs| - 1], pageUrls)]
  }

  /**
    The parts the loop should produce: the lines prepared, cut into units,
    the units packed greedily, and each group of units made a part.
   */
  function SplitParts(content: seq<string>, pageUrls: map<string, string>, eff: int, est: string -> nat)
    : Result<seq<Part>>
  {
    match PrepareAll(content, eff, est)
    case Failure(e) => Failure(e)
    case Success(prep) => Success(PartsOf(Groups(Units(prep), eff, est), pageUrls))
  }

  // ---------------------------------------------------------------------
  // The loop as written.
  // ---------------------------------------------------------------------

  /**
    The loop's variables: the finished parts; the part being filled, with
    its token count and URLs; whether a section is open (`current_section`
    is not `None`), and that section's lines, token count and URLs.
   */
  datatype Splitter = Splitter(
    parts: seq<Part>,
    current: seq<string>, currentTokens: int, currentUrls: map<string, string>,
    inSection: bool,
    section: seq<string>, sectionTokens: int, sectionUrls: map<string, string>)

  const Start: Splitter := Splitter([], [], 0, map[], false, [], 0, map[])

  /** Finish the part being filled and start an empty one. */
  function Flush(s: Splitter): Splitter {
    s.(parts := s.parts + [Part(s.current, s.currentUrls)], current := [], currentTokens := 0, currentUrls := map[])
  }

  /**
    Move the open section into the part being filled, finishing that part
    first when the section would take a non-empty part past the budget.
   */
  function Close(s: Splitter, eff: int): Splitter {
    var c := if s.currentTokens + s.sectionTokens > eff && s.current != [] then Flush(s) else s;
    c.(current := c.current + s.section,
       currentTokens := c.currentTokens + s.sectionTokens,
       currentUrls := c.currentUrls + s.sectionUrls)
  }

  /** One iteration of the loop, on a prepared line. */
  function Step(s: Splitter, x: string, pageUrls: map<string, string>, eff: int, est: string -> nat): Splitter {
    if IsHeading(x) then
      var c := if s.inSection then Close(s, eff) else s;
      c.(inSection := true, section := [x], sectionTokens := est(x), sectionUrls := SectionUrls(x, pageUrls))
    else if s.inSection then
      s.(section := s.section + [x], sectionTokens := s.sectionTokens + est(x))
    else AddLoose(s, x, eff, est)
  }

  /** A line that comes before any heading joins the part as it stands, after a flush on overflow. */
  function AddLoose(s: Splitter, x: string, eff: int, est: string -> nat): Splitter {
    var c := if s.currentTokens + est(x) > eff && s.current != [] then Flush(s) else s;
    c.(current := c.current + [x], currentTokens := c.currentTokens + est(x))
  }

  /** After the loop: close the last section, then finish the last part if it holds a line. */
  function Finish(s: Splitter, eff: int): seq<Part> {
    var c := if s.inSection && s.section != [] then Close(s, eff) else s;
    if c.current != [] then c.parts + [Part(c.current, c.currentUrls)] else c.parts
  }

  /**
    `_split_content(content, page_urls, max_tokens)`, with the token
    estimator passed in as `est` and `json.dumps` as `dumps`.
   */
  method SplitContent(content: seq<string>, pageUrls: map<string, string>, maxTokens: int,
                      dumps: map<string, string> -> string, est: string -> nat)
    returns (r: Result<seq<Part>>)
    ensures r == SplitParts(content, pageUrls, EffectiveBudget(maxTokens, est(dumps(pageUrls))), est)
    ensures r.Failure? <==>
      && EffectiveBudget(maxTokens, est(dumps(pageUrls))) < 0
      && exists i :: 0 <= i < |content| && !IsHeading(content[i]) && est(content[i]) == 0
  {
    var eff := EffectiveBudget(maxTokens, est(dumps(pageUrls)));
    var s := Start;
    ghost var pp: seq<string> := [];
    assert Tracks(s, pp, pageUrls, eff, est) by {
      assert Holds(s, Pack([], eff, est), pageUrls, est);
    }
    var i := 0;
    while i < |content|
      invariant 0 <= i <= |content|
      invariant PrepareAll(content[..i], eff, est) == Success(pp)
      invariant Tracks(s, pp, pageUrls, eff, est)
    {
      var x := Prepare(content[i], eff, est);
      if x.Failure? {
        PrepareStops(content, i, eff, est);
        SplitFails(content, pageUrls, eff, est);
        return Failure(x.error);
      }
      PrepareGoesOn(content, i, pp, eff, est);
      StepTracks(s, pp, x.value, pageUrls, eff, est);
      s := Step(s, x.value, pageUrls, eff, est);
      pp := pp + [x.value];
      i := i + 1;
    }
    TakeAll(content);
    FinishTracks(s, pp, pageUrls, eff, est);
    SplitFails(content, pageUrls, eff, est);
    r := Success(Finish(s, eff));
  }

  /**
    The split goes through: the budget is not negative, or every line that
    is not a heading has a positive estimate.
   */
  predicate Splittable(content: seq<string>, eff: int, est: string -> nat) {
    eff >= 0 || forall i :: 0 <= i < |content| ==> IsHeading(content[i]) || est(content[i]) > 0
  }

  /** The split fails exactly when the budget is negative and some line that is not a heading is estimated at nothing. */
  lemma SplitFails(content: seq<string>, pageUrls: map<string, string>, eff: int, est: string -> nat)
    ensures SplitParts(content, pageUrls, eff, est).Success? <==> Splittable(content, eff, est)
  {
    if SplitParts(content, pageUrls, eff, est).Failure? {
      var i :| 0 <= i < |content| && Prepare(content[i], eff, est).Failure?;
    }
    if !Splittable(content, eff, est) {
      var i :| 0 <= i < |content| && !IsHeading(content[i]) && est(content[i]) == 0;
      assert Prepare(content[i], eff, est).Failure?;
    }
  }

  /** A line that cannot be prepared makes the whole preparation fail. */
  lemma PrepareStops(content: seq<string>, i: nat, eff: int, est: string -> nat)
    requires i < |content| && Prepare(content[i], eff, est).Failure?
    ensures PrepareAll(content, eff, est) == Failure(Prepare(content[i], eff, est).error)
  {
  }

  /** Preparing one more line extends the prepared prefix by that line. */
  lemma PrepareGoesOn(content: seq<string>, i: nat, pp: seq<string>, eff: int, est: string -> nat)
    requires i < |content| && PrepareAll(content[..i], eff, est) == Success(pp)
    requires Prepare(content[i], eff, est).Success?
    ensures PrepareAll(content[..i + 1], eff, est) == Success(pp + [Prepare(content[i], eff, est).value])
  {
    assert content[..i + 1][..i] == content[..i];
  }

  // ---------------------------------------------------------------------
  // The loop computes the reference.
  // ---------------------------------------------------------------------

  /** The finished parts and the part being filled are those of a packing. */
  ghost predicate Holds(s: Splitter, p: Packing, pageUrls: map<string, string>, est: string -> nat) {
    && s.parts == PartsOf(p.done, pageUrls)
    && s.current == Concat(p.cur)
    && s.currentTokens == Tokens(s.current, est)
    && s.currentUrls == UrlsOf(s.current, pageUrls)
  }

  /**
    The state after the prepared lines `pp`: with no heading seen, it holds
    the packing of their units; once a heading is seen, the last unit is
    the open section and the state holds the packing of the units before it.
   */
  ghost predicate Tracks(s: Splitter, pp: seq<string>, pageUrls: map<string, string>, eff: int, est: string -> nat) {
    var us := Units(pp);
    && (s.inSection <==> AnyHeading(pp))
    && (if s.inSection then
          && |us| >= 1
          && s.section == us[|us| - 1]
          && s.sectionTokens == Tokens(s.section, est)
          && s.sectionUrls == UrlsOf(s.section, pageUrls)
          && Holds(s, Pack(us[..|us| - 1], eff, est), pageUrls, est)
        else Holds(s, Pack(us, eff, est), pageUrls, est))
  }

  lemma TokensSnoc(xs: seq<string>, x: string, est: string -> nat)
    ensures Tokens(xs + [x], est) == Tokens(xs, est) + est(x)
  {
    assert (xs + [x])[..|xs|] == xs;
  }

  lemma UrlsOfSnoc(xs: seq<string>, x: string, pageUrls: map<string, string>)
    ensures UrlsOf(xs + [x], pageUrls) == UrlsOf(xs, pageUrls) + SectionUrls(x, pageUrls)
  {
    assert (xs + [x])[..|xs|] == xs;
  }

  /** The tokens and URLs of a single line. */
  lemma OneLine(x: string, pageUrls: map<string, string>, est: string -> nat)
    ensures Tokens([x], est) == est(x)
    ensures UrlsOf([x], pageUrls) == SectionUrls(x, pageUrls)
  {
    assert [x][..0] == [];
  }

  lemma PartsOfSnoc(gs: seq<seq<seq<string>>>, g: seq<seq<string>>, pageUrls: map<string, string>)
    ensures PartsOf(gs + [g], pageUrls) == PartsOf(gs, pageUrls) + [PartOf(g, pageUrls)]
  {
    assert (gs + [g])[..|gs|] == gs;
  }

  /** Finishing the part being filled is closing the packing's open group. */
  lemma FlushHolds(s: Splitter, p: Packing, u: seq<string>, pageUrls: map<string, string>, est: string -> nat)
    requires Holds(s, p, pageUrls, est)
    ensures Holds(Flush(s), Packing(p.done + [p.cur], []), pageUrls, est)
  {
    PartsOfSnoc(p.done, p.cur, pageUrls);
  }

  /** The part being filled taking one more unit. */
  function Extend(c: Splitter, u: seq<string>, pageUrls: map<string, string>, est: string -> nat): Splitter {
    c.(current := c.current + u,
       currentTokens := c.currentTokens + Tokens(u, est),
       currentUrls := c.currentUrls + UrlsOf(u, pageUrls))
  }

  lemma ExtendHolds(c: Splitter, p: Packing, u: seq<string>, pageUrls: map<string, string>, est: string -> nat)
    requires Holds(c, p, pageUrls, est)
    ensures Holds(Extend(c, u, pageUrls, est), Packing(p.done, p.cur + [u]), pageUrls, est)
  {
    ConcatSnoc(p.cur, u);
    TokensAppend(c.current, u, est);
    UrlsOfAppend(c.current, u, pageUrls);
  }

  lemma CloseIsExtend(s: Splitter, pageUrls: map<string, string>, eff: int, est: string -> nat)
    requires s.sectionTokens == Tokens(s.section, est)
    requires s.sectionUrls == UrlsOf(s.section, pageUrls)
    ensures var c := if s.currentTokens + s.sectionTokens > eff && s.current != [] then Flush(s) else s;
      Close(s, eff) == Extend(c, s.section, pageUrls, est)
  {
  }

  /** Closing the open section into the part is one packing step with the section as the unit. */
  lemma CloseHolds(s: Splitter, p: Packing, pageUrls: map<string, string>, eff: int, est: string -> nat)
    requires Holds(s, p, pageUrls, est)
    requires s.sectionTokens == Tokens(s.section, est)
    requires s.sectionUrls == UrlsOf(s.section, pageUrls)
    ensures Holds(Close(s, eff), PackStep(p, s.section, eff, est), pageUrls, est)
  {
    var u := s.section;
    CloseIsExtend(s, pageUrls, eff, est);
    if s.currentTokens + s.sectionTokens > eff && s.current != [] {
      FlushHolds(s, p, u, pageUrls, est);
      ExtendHolds(Flush(s), Packing(p.done + [p.cur], []), u, pageUrls, est);
      EmptyAppend([u]);
    } else {
      ExtendHolds(s, p, u, pageUrls, est);
    }
  }

  /** Adding a loose line is extending the part by a one-line unit, after a flush on overflow. */
  lemma AddLooseIsExtend(s: Splitter, x: string, pageUrls: map<string, string>, eff: int, est: string -> nat)
    requires !IsHeading(x)
    ensures var c := if s.currentTokens + est(x) > eff && s.current != [] then Flush(s) else s;
      AddLoose(s, x, eff, est) == Extend(c, [x], pageUrls, est)
  {
    var c := if s.currentTokens + est(x) > eff && s.current != [] then Flush(s) else s;
    OneLine(x, pageUrls, est);
    UpdateWithEmpty(c.currentUrls);
    assert AddLoose(s, x, eff, est) == c.(current := c.current + [x], currentTokens := c.currentTokens + est(x));
  }

  /** A line before any heading is one packing step with the line as the unit. */
  lemma LooseHolds(s: Splitter, p: Packing, x: string, pageUrls: map<string, string>, eff: int, est: string -> nat)
    requires Holds(s, p, pageUrls, est) && !IsHeading(x)
    ensures Holds(AddLoose(s, x, eff, est), PackStep(p, [x], eff, est), pageUrls, est)
  {
    AddLooseIsExtend(s, x, pageUrls, eff, est);
    OneLine(x, pageUrls, est);
    if s.currentTokens + est(x) > eff && s.current != [] {
      FlushHolds(s, p, [x], pageUrls, est);
      ExtendHolds(Flush(s), Packing(p.done + [p.cur], []), [x], pageUrls, est);
      EmptyAppend([[x]]);
    } else {
      ExtendHolds(s, p, [x], pageUrls, est);
    }
  }

  /** Each iteration of the loop keeps the state in step with the reference. */
  lemma StepTracks(s: Splitter, pp: seq<string>, x: string, pageUrls: map<string, string>, eff: int, est: string -> nat)
    requires Tracks(s, pp, pageUrls, eff, est)
    ensures Tracks(Step(s, x, pageUrls, eff, est), pp + [x], pageUrls, eff, est)
  {
    if IsHeading(x) {
      HeadingTracks(s, pp, x, pageUrls, eff, est);
    } else if s.inSection {
      SectionLineTracks(s, pp, x, pageUrls, eff, est);
    } else {
      LooseTracks(s, pp, x, pageUrls, eff, est);
    }
  }

  /** A heading closes the open section, if any, and opens a new one. */
  lemma HeadingTracks(s: Splitter, pp: seq<string>, x: string, pageUrls: map<string, string>, eff: int, est: string -> nat)
    requires Tracks(s, pp, pageUrls, eff, est) && IsHeading(x)
    ensures Tracks(Step(s, x, pageUrls, eff, est), pp + [x], pageUrls, eff, est)
  {
    AnyHeadingSnoc(pp, x);
    UnitsSnoc(pp, x);
    var us := Units(pp);
    var c := if s.inSection then Close(s, eff) else s;
    if s.inSection {
      var n := |us| - 1;
      CloseHolds(s, Pack(us[..n], eff, est), pageUrls, eff, est);
      SnocLast(us);
      assert Pack(us, eff, est) == PackStep(Pack(us[..n], eff, est), s.section, eff, est);
    }
    OpenSection(c, pp, x, pageUrls, eff, est);
  }

  /** Opening a section on a heading leaves the parts as they are. */
  lemma OpenSection(c: Splitter, pp: seq<string>, x: string, pageUrls: map<string, string>, eff: int, est: string -> nat)
    requires Holds(c, Pack(Units(pp), eff, est), pageUrls, est) && IsHeading(x)
    requires AnyHeading(pp + [x])
    requires Units(pp + [x]) == Units(pp) + [[x]]
    ensures Tracks(c.(inSection := true, section := [x], sectionTokens := est(x), sectionUrls := SectionUrls(x, pageUrls)),
                   pp + [x], pageUrls, eff, est)
  {
    var s' := c.(inSection := true, section := [x], sectionTokens := est(x), sectionUrls := SectionUrls(x, pageUrls));
    var us := Units(pp);
    var us' := Units(pp + [x]);
    assert us'[..|us'| - 1] == us;
    OneLine(x, pageUrls, est);
    assert s'.section == us'[|us'| - 1];
    assert s'.sectionTokens == Tokens(s'.section, est);
    assert s'.sectionUrls == UrlsOf(s'.section, pageUrls);
    assert Holds(s', Pack(us'[..|us'| - 1], eff, est), pageUrls, est);
  }

  /** A non-heading line inside a section joins that section. */
  lemma SectionLineTracks(s: Splitter, pp: seq<string>, x: string, pageUrls: map<string, string>, eff: int, est: string -> nat)
    requires Tracks(s, pp, pageUrls, eff, est) && !IsHeading(x) && s.inSection
    ensures Tracks(Step(s, x, pageUrls, eff, est), pp + [x], pageUrls, eff, est)
  {
    AnyHeadingSnoc(pp, x);
    UnitsSnoc(pp, x);
    var us := Units(pp);
    var n := |us| - 1;
    SnocInit(us[..n], us[n] + [x]);
    TokensSnoc(s.section, x, est);
    UrlsOfSnoc(s.section, x, pageUrls);
    UpdateWithEmpty(UrlsOf(s.section, pageUrls));
    assert Step(s, x, pageUrls, eff, est) == s.(section := s.section + [x], sectionTokens := s.sectionTokens + est(x));
  }

  /** A line before any heading is packed on its own. */
  lemma LooseTracks(s: Splitter, pp: seq<string>, x: string, pageUrls: map<string, string>, eff: int, est: string -> nat)
    requires Tracks(s, pp, pageUrls, eff, est) && !IsHeading(x) && !s.inSection
    ensures Tracks(Step(s, x, pageUrls, eff, est), pp + [x], pageUrls, eff, est)
  {
    AnyHeadingSnoc(pp, x);
    UnitsSnoc(pp, x);
    var us := Units(pp);
    var us' := Units(pp + [x]);
    assert us'[..|us'| - 1] == us;
    LooseHolds(s, Pack(us, eff, est), x, pageUrls, eff, est);
  }

  /** After the loop the state finishes into the reference parts. */
  lemma FinishTracks(s: Splitter, pp: seq<string>, pageUrls: map<string, string>, eff: int, est: string -> nat)
    requires Tracks(s, pp, pageUrls, eff, est)
    ensures Finish(s, eff) == PartsOf(Groups(Units(pp), eff, est), pageUrls)
  {
    var us := Units(pp);
    var p := Pack(us, eff, est);
    var c := if s.inSection && s.section != [] then Close(s, eff) else s;
    if s.inSection {
      var n := |us| - 1;
      UnitsWell(pp);
      assert Section(us[n]);
      CloseHolds(s, Pack(us[..n], eff, est), pageUrls, eff, est);
      SnocLast(us);
      assert p == PackStep(Pack(us[..n], eff, est), us[n], eff, est);
    }
    FinishFromHolds(c, p, pageUrls, est);
  }

  /** Finishing a state that holds a packing gives the parts of its groups. */
  lemma FinishFromHolds(c: Splitter, p: Packing, pageUrls: map<string, string>, est: string -> nat)
    requires Holds(c, p, pageUrls, est)
    ensures (if c.current != [] then c.parts + [Part(c.current, c.currentUrls)] else c.parts)
      == PartsOf(if Concat(p.cur) != [] then p.done + [p.cur] else p.done, pageUrls)
  {
    if c.current != [] {
      PartsOfSnoc(p.done, p.cur, pageUrls);
    }
  }

  // ---------------------------------------------------------------------
  // What the parts satisfy.
  // ---------------------------------------------------------------------

  /** The lines of each part, in order. */
  function Contents(ps: seq<Part>): (cs: seq<seq<string>>)
    ensures |cs| == |ps| && forall k :: 0 <= k < |ps| ==> cs[k] == ps[k].content
  {
    seq(|ps|, k requires 0 <= k < |ps| => ps[k].content)
  }

  lemma ConcatFront<T>(xss: seq<seq<T>>)
    requires |xss| >= 1
    ensures Concat(xss) == xss[0] + Concat(xss[1..])
  {
    assert xss == [xss[0]] + xss[1..];
    ConcatAppend([xss[0]], xss[1..]);
    ConcatOne(xss[0]);
  }

  /** Concatenating the concatenations of groups is concatenating their concatenation. */
  lemma {:induction false} ConcatConcats<T>(cs: seq<seq<T>>, gs: seq<seq<seq<T>>>)
    requires |cs| == |gs| && forall k :: 0 <= k < |gs| ==> cs[k] == Concat(gs[k])
    ensures Concat(cs) == Concat(Concat(gs))
    decreases |gs|
  {
    if gs != [] {
      var n := |gs| - 1;
      ConcatConcats(cs[..n], gs[..n]);
      assert Concat(gs) == Concat(gs[..n]) + gs[n];
      ConcatAppend(Concat(gs[..n]), gs[n]);
    }
  }

  lemma ConcatParts(gs: seq<seq<seq<string>>>, pageUrls: map<string, string>)
    ensures Concat(Contents(PartsOf(gs, pageUrls))) == Concat(Concat(gs))
  {
    ConcatConcats(Contents(PartsOf(gs, pageUrls)), gs);
  }

  lemma WellUnitsSuffix(a: seq<seq<string>>, b: seq<seq<string>>)
    requires WellUnits(a + b)
    ensures WellUnits(b)
  {
    var ab := a + b;
    forall k | 0 <= k < |b| ensures Section(b[k]) || (Loose(b[k]) && AllLoose(b[..k])) {
      assert ab[|a| + k] == b[k];
      if !Section(b[k]) {
        assert AllLoose(ab[..|a| + k]);
        forall j | 0 <= j < k ensures Loose(b[..k][j]) {
          assert ab[..|a| + k][|a| + j] == b[j];
        }
      }
    }
  }

  /** Every group of well-formed units is itself well formed. */
  lemma {:induction false} ConcatWell(gs: seq<seq<seq<string>>>)
    requires WellUnits(Concat(gs))
    ensures forall k :: 0 <= k < |gs| ==> WellUnits(gs[k])
    decreases |gs|
  {
    if gs != [] {
      var n := |gs| - 1;
      var a := Concat(gs[..n]);
      assert Concat(gs) == a + gs[n];
      WellUnitsPrefix(a + gs[n], |a|);
      assert (a + gs[n])[..|a|] == a;
      WellUnitsSuffix(a, gs[n]);
      ConcatWell(gs[..n]);
      forall k | 0 <= k < n ensures WellUnits(gs[k]) {
        assert gs[..n][k] == gs[k];
      }
    }
  }

  /** Each part is a whole number of units: its own cut into units is its group. */
  lemma PartUnits(prep: seq<string>, eff: int, est: string -> nat, pageUrls: map<string, string>)
    ensures var gs := Groups(Units(prep), eff, est); var parts := PartsOf(gs, pageUrls);
      forall k :: 0 <= k < |parts| ==> Units(parts[k].content) == gs[k]
  {
    var us := Units(prep);
    var gs := Groups(us, eff, est);
    UnitsWell(prep);
    GroupsCover(us, eff, est);
    ConcatWell(gs);
    forall k | 0 <= k < |gs| ensures Units(Concat(gs[k])) == gs[k] {
      UnitsUnique(gs[k]);
    }
  }

  /** The split of content that can be prepared: the parts of the groups of its units. */
  lemma SplitIsGroups(content: seq<string>, pageUrls: map<string, string>, eff: int, est: string -> nat)
    requires Splittable(content, eff, est)
    ensures SplitParts(content, pageUrls, eff, est).Success?
    ensures PrepareAll(content, eff, est).Success?
    ensures var us := Units(PrepareAll(content, eff, est).value);
      && WellUnits(us)
      && SplitParts(content, pageUrls, eff, est).value == PartsOf(Groups(us, eff, est), pageUrls)
  {
    SplitFails(content, pageUrls, eff, est);
    UnitsWell(PrepareAll(content, eff, est).value);
  }

  lemma SplitCovers(content: seq<string>, pageUrls: map<string, string>, eff: int, est: string -> nat)
    requires Splittable(content, eff, est)
    ensures SplitParts(content, pageUrls, eff, est).Success?
    ensures Concat(Contents(SplitParts(content, pageUrls, eff, est).value)) == PrepareAll(content, eff, est).value
  {
    var prep := PrepareAll(content, eff, est).value;
    var us := Units(prep);
    SplitIsGroups(content, pageUrls, eff, est);
    UnitsConcat(prep);
    GroupsCover(us, eff, est);
    ConcatParts(Groups(us, eff, est), pageUrls);
  }

  /** Each part is a non-empty run of units that fits the budget, or a single unit. */
  ghost predicate PartsFit(parts: seq<Part>, eff: int, est: string -> nat) {
    forall k :: 0 <= k < |parts| ==>
      && |Units(parts[k].content)| >= 1
      && (Tokens(parts[k].content, est) <= eff || |Units(parts[k].content)| == 1)
  }

  /** A part was closed only because the first unit of the next one would not fit. */
  ghost predicate PartsClosedOnOverflow(parts: seq<Part>, eff: int, est: string -> nat) {
    forall j, k :: 0 <= j && k == j + 1 && k < |parts| ==>
      && |Units(parts[k].content)| >= 1
      && Tokens(parts[j].content, est) + Tokens(Units(parts[k].content)[0], est) > eff
  }

  /** A part opens with a heading, unless no part before it holds one. */
  ghost predicate PartsOpenCleanly(parts: seq<Part>) {
    forall k :: 0 < k < |parts| ==>
      && |parts[k].content| >= 1
      && (IsHeading(parts[k].content[0]) || forall j :: 0 <= j < k ==> !AnyHeading(parts[j].content))
  }

  lemma SplitWithinBudget(content: seq<string>, pageUrls: map<string, string>, eff: int, est: string -> nat)
    requires Splittable(content, eff, est)
    ensures SplitParts(content, pageUrls, eff, est).Success?
    ensures PartsFit(SplitParts(content, pageUrls, eff, est).value, eff, est)
  {
    var prep := PrepareAll(content, eff, est).value;
    SplitIsGroups(content, pageUrls, eff, est);
    GroupsNonEmptyWithin(Units(prep), eff, est);
    PartUnits(prep, eff, est, pageUrls);
  }

  lemma SplitClosed(content: seq<string>, pageUrls: map<string, string>, eff: int, est: string -> nat)
    requires Splittable(content, eff, est)
    ensures SplitParts(content, pageUrls, eff, est).Success?
    ensures PartsClosedOnOverflow(SplitParts(content, pageUrls, eff, est).value, eff, est)
  {
    var prep := PrepareAll(content, eff, est).value;
    SplitIsGroups(content, pageUrls, eff, est);
    GroupsNonEmptyWithin(Units(prep), eff, est);
    GroupsClosed(Units(prep), eff, est);
    PartUnits(prep, eff, est, pageUrls);
  }

  lemma SplitOpens(content: seq<string>, pageUrls: map<string, string>, eff: int, est: string -> nat)
    requires Splittable(content, eff, est)
    ensures SplitParts(content, pageUrls, eff, est).Success?
    ensures PartsOpenCleanly(SplitParts(content, pageUrls, eff, est).value)
  {
    var prep := PrepareAll(content, eff, est).value;
    var us := Units(prep);
    var gs := Groups(us, eff, est);
    SplitIsGroups(content, pageUrls, eff, est);
    GroupsNonEmptyWithin(us, eff, est);
    GroupsOpen(us, eff, est);
    GroupsCover(us, eff, est);
    WellUnitsNonEmpty(us);
    PartsOpen(gs, PartsOf(gs, pageUrls));
  }

  /** Groups that open cleanly make parts that open cleanly. */
  lemma PartsOpen(gs: seq<seq<seq<string>>>, parts: seq<Part>)
    requires OpensCleanly(gs) && NonEmptyGroups(gs)
    requires NonEmptyUnits(Concat(gs))
    requires |parts| == |gs| && forall i :: 0 <= i < |gs| ==> parts[i].content == Concat(gs[i])
    ensures PartsOpenCleanly(parts)
  {
    forall k | 0 < k < |parts|
      ensures |parts[k].content| >= 1
      ensures IsHeading(parts[k].content[0]) || forall j :: 0 <= j < k ==> !AnyHeading(parts[j].content)
    {
      PartOpens(gs, k, parts);
    }
  }

  /**
    What `_split_content` promises of its parts: together they hold the
    prepared lines in order; each is a non-empty run of whole units that
    fits the budget unless it is a single unit; a part was closed only
    because the next unit would not fit; a part opens with a heading
    unless no heading came before it.
   */
  lemma SplitPartsSpec(content: seq<string>, pageUrls: map<string, string>, eff: int, est: string -> nat)
    requires Splittable(content, eff, est)
    ensures SplitParts(content, pageUrls, eff, est).Success?
    ensures var parts := SplitParts(content, pageUrls, eff, est).value;
      && Concat(Contents(parts)) == PrepareAll(content, eff, est).value
      && PartsFit(parts, eff, est)
      && PartsClosedOnOverflow(parts, eff, est)
      && PartsOpenCleanly(parts)
  {
    SplitCovers(content, pageUrls, eff, est);
    SplitWithinBudget(content, pageUrls, eff, est);
    SplitClosed(content, pageUrls, eff, est);
    SplitOpens(content, pageUrls, eff, est);
  }

  lemma PartOpens(gs: seq<seq<seq<string>>>, k: nat, parts: seq<Part>)
    requires OpensCleanly(gs) && NonEmptyGroups(gs) && 0 < k < |gs|
    requires NonEmptyUnits(Concat(gs))
    requires |parts| == |gs| && forall i :: 0 <= i < |gs| ==> parts[i].content == Concat(gs[i])
    ensures |parts[k].content| >= 1
    ensures IsHeading(parts[k].content[0]) || forall j :: 0 <= j < k ==> !AnyHeading(parts[j].content)
  {
    ConcatWellNonEmpty(gs, k);
    ConcatFront(gs[k]);
    if !Section(gs[k][0]) {
      assert AllLoose(Concat(gs[..k]));
      forall j | 0 <= j < k ensures !AnyHeading(parts[j].content) {
        LooseGroup(gs[..k], j);
        AllLooseNoHeading(gs[j]);
      }
    }
  }

  lemma ConcatWellNonEmpty(gs: seq<seq<seq<string>>>, k: nat)
    requires NonEmptyGroups(gs) && NonEmptyUnits(Concat(gs)) && k < |gs|
    ensures |gs[k][0]| >= 1
  {
    ConcatMember(gs, k, 0);
  }

  /** A unit of a group is a unit of the concatenation. */
  lemma {:induction false} ConcatMember<T>(xss: seq<seq<T>>, k: nat, i: nat)
    requires k < |xss| && i < |xss[k]|
    ensures xss[k][i] in Concat(xss)
    decreases |xss|
  {
    var n := |xss| - 1;
    assert Concat(xss) == Concat(xss[..n]) + xss[n];
    if k < n {
      assert xss[..n][k] == xss[k];
      ConcatMember(xss[..n], k, i);
    }
  }

  lemma LooseGroup(gs: seq<seq<seq<string>>>, j: nat)
    requires AllLoose(Concat(gs)) && j < |gs|
    ensures AllLoose(gs[j])
  {
    forall i | 0 <= i < |gs[j]| ensures Loose(gs[j][i]) {
      ConcatMember(gs, j, i);
    }
  }

  /** Content whose lines all fit the budget together is not split. */
  lemma FitsInOnePart(content: seq<string>, pageUrls: map<string, string>, eff: int, est: string -> nat)
    requires PrepareAll(content, eff, est).Success?
    requires Tokens(PrepareAll(content, eff, est).value, est) <= eff
    ensures |SplitParts(content, pageUrls, eff, est).value| <= 1
  {
    var prep := PrepareAll(content, eff, est).value;
    assert SplitParts(content, pageUrls, eff, est).Success?;
    SplitFails(content, pageUrls, eff, est);
    var parts := SplitParts(content, pageUrls, eff, est).value;
    if |parts| >= 2 {
      SplitCovers(content, pageUrls, eff, est);
      SplitClosed(content, pageUrls, eff, est);
      var cs := Contents(parts);
      var u := Units(parts[1].content);
      assert |u| >= 1 && Tokens(parts[0].content, est) + Tokens(u[0], est) > eff;
      assert Concat(cs) == prep;
      UnitsConcat(parts[1].content);
      TwoPartsOverflow(cs, u, eff, est);
    }
  }

  /**
    If the first unit of the second run does not fit beside the first
    run, the whole concatenation exceeds the budget.
   */
  lemma TwoPartsOverflow(cs: seq<seq<string>>, u: seq<seq<string>>, eff: int, est: string -> nat)
    requires |cs| >= 2 && |u| >= 1 && Concat(u) == cs[1]
    requires Tokens(cs[0], est) + Tokens(u[0], est) > eff
    ensures Tokens(Concat(cs), est) > eff
  {
    var tail := cs[1..];
    ConcatFront(cs);
    TokensAppend(cs[0], Concat(tail), est);
    assert tail[0] == cs[1];
    ConcatFront(tail);
    TokensAppend(cs[1], Concat(tail[1..]), est);
    ConcatFront(u);
    TokensAppend(u[0], Concat(u[1..]), est);
  }

  /** With a budget below zero nothing fits: every unit is a part of its own. */
  lemma NegativeBudgetOnePartPerUnit(content: seq<string>, pageUrls: map<string, string>, eff: int, est: string -> nat)
    requires Splittable(content, eff, est) && eff < 0
    ensures SplitParts(content, pageUrls, eff, est).Success?
    ensures var parts := SplitParts(content, pageUrls, eff, est).value;
      var us := Units(PrepareAll(content, eff, est).value);
      |parts| == |us| && forall k :: 0 <= k < |parts| ==> parts[k].content == us[k]
  {
    var us := Units(PrepareAll(content, eff, est).value);
    var gs := Groups(us, eff, est);
    SplitIsGroups(content, pageUrls, eff, est);
    GroupsCover(us, eff, est);
    GroupsNonEmptyWithin(us, eff, est);
    forall k | 0 <= k < |gs| ensures |gs[k]| == 1 {
      assert Tokens(Concat(gs[k]), est) <= eff || |gs[k]| == 1;
    }
    SingletonParts(gs, pageUrls);
  }

  /** Groups of one unit each make one part per unit. */
  lemma SingletonParts(gs: seq<seq<seq<string>>>, pageUrls: map<string, string>)
    requires forall k :: 0 <= k < |gs| ==> |gs[k]| == 1
    ensures var parts := PartsOf(gs, pageUrls);
      |parts| == |Concat(gs)| && forall k :: 0 <= k < |parts| ==> parts[k].content == Concat(gs)[k]
  {
    ConcatSingletons(gs);
    var parts := PartsOf(gs, pageUrls);
    forall k | 0 <= k < |parts| ensures parts[k].content == Concat(gs)[k] {
      assert parts[k] == PartOf(gs[k], pageUrls);
      assert gs[k] == [gs[k][0]];
      ConcatOne(gs[k][0]);
    }
  }

  lemma {:induction false} ConcatSingletons<T>(xss: seq<seq<T>>)
    requires forall k :: 0 <= k < |xss| ==> |xss[k]| == 1
    ensures |Concat(xss)| == |xss| && forall k :: 0 <= k < |xss| ==> Concat(xss)[k] == xss[k][0]
    decreases |xss|
  {
    if xss != [] {
      var n := |xss| - 1;
      ConcatSingletons(xss[..n]);
      assert Concat(xss) == Concat(xss[..n]) + xss[n];
    }
  }
}

=== FILE: strings.dfy ===
/**
  String helpers with Python's semantics: `startswith`, `endswith`, `in`,
  `strip`, `split`, `replace`, `join`, `str(n)` and `zfill`.
  Strings are sequences of Unicode code points.
 */
module Strings {

  predicate StartsWith(s: string, prefix: string) {
    |prefix| <= |s| && s[..|prefix|] == prefix
  }

  predicate EndsWith(s: string, suffix: string) {
    |suffix| <= |s| && s[|s| - |suffix|..] == suffix
  }

  /** Python's `pat in s`: `pat` occurs somewhere in `s`. */
  predicate Contains(s: string, pat: string)
    decreases |s|
  {
    StartsWith(s, pat) || (|s| > 0 && Contains(s[1..], pat))
  }

  predicate NoChar(s: string, c: char) {
    forall i :: 0 <= i < |s| ==> s[i] != c
  }

  /** The characters for which Python's `str.isspace` holds. */
  predicate IsSpace(c: char) {
    || c == ' ' || c == '\t' || c == '\n' || c == '\r'
    || c == '\U{b}' || c == '\U{c}'
    || ('\U{1c}' <= c <= '\U{1f}') || c == '\U{85}' || c == '\U{a0}'
    || c == '\U{1680}' || ('\U{2000}' <= c <= '\U{200a}')
    || c == '\U{2028}' || c == '\U{2029}' || c == '\U{202f}' || c == '\U{205f}' || c == '\U{3000}'
  }

  /** The first position at or after `i` that does not hold white space. */
  function SkipSpace(s: string, i: nat): (k: nat)
    requires i <= |s|
    ensures i <= k <= |s| && (k == |s| || !IsSpace(s[k]))
    ensures forall m :: i <= m < k ==> IsSpace(s[m])
    decreases |s| - i
  {
    if i < |s| && IsSpace(s[i]) then SkipSpace(s, i + 1) else i
  }

  /** The position after the last character in `s[lo..j]` that is not white space, or `lo`. */
  function SkipSpaceBack(s: string, lo: nat, j: nat): (e: nat)
    requires lo <= j <= |s|
    ensures lo <= e <= j && (e == lo || !IsSpace(s[e - 1]))
    ensures forall m :: e <= m < j ==> IsSpace(s[m])
    decreases j
  {
    if j > lo && IsSpace(s[j - 1]) then SkipSpaceBack(s, lo, j - 1) else j
  }

  /** No white space at either end. */
  predicate IsStripped(s: string) {
    |s| == 0 || (!IsSpace(s[0]) && !IsSpace(s[|s| - 1]))
  }

  /** Where what `strip()` keeps begins. */
  function StripStart(s: string): (i: nat)
    ensures i <= |s|
  {
    SkipSpace(s, 0)
  }

  /**
    Python's `s.strip()`: the piece of `s` from its first to its last
    character that is not white space; only white space lies around it.
   */
  function Strip(s: string): (r: string)
    ensures IsStripped(r)
    ensures IsStripped(s) ==> r == s
    ensures var i := StripStart(s);
      && i + |r| <= |s| && s[i..i + |r|] == r
      && (forall m :: 0 <= m < i ==> IsSpace(s[m]))
      && (forall m :: i + |r| <= m < |s| ==> IsSpace(s[m]))
  {
    var i := SkipSpace(s, 0);
    var e := SkipSpaceBack(s, i, |s|);
    assert IsStripped(s) && |s| > 0 ==> i == 0 && e == |s|;
    s[i..e]
  }

  /** Python's `s.split(c)` with a one-character separator. */
  function SplitOn(s: string, c: char): (r: seq<string>)
    ensures |r| >= 1
    decreases |s|
  {
    if |s| == 0 then [""]
    else
      var rest := SplitOn(s[1..], c);
      if s[0] == c then [""] + rest else [[s[0]] + rest[0]] + rest[1..]
  }

  /** Python's `sep.join(xs)`. */
  function JoinSep(xs: seq<string>, sep: string): string
    decreases |xs|
  {
    if |xs| == 0 then ""
    else if |xs| == 1 then xs[0]
    else xs[0] + sep + JoinSep(xs[1..], sep)
  }

  /** Python's `s.replace(pat, rep)`: every non-overlapping occurrence, scanning left to right. */
  function ReplaceAll(s: string, pat: string, rep: string): string
    requires |pat| > 0
    decreases |s|
  {
    if |s| < |pat| then s
    else if s[..|pat|] == pat then rep + ReplaceAll(s[|pat|..], pat, rep)
    else [s[0]] + ReplaceAll(s[1..], pat, rep)
  }

  /** A string free of the separator splits into itself alone. */
  lemma {:induction false} SplitNoSeparator(s: string, c: char)
    requires NoChar(s, c)
    ensures SplitOn(s, c) == [s]
    decreases |s|
  {
    if |s| > 0 {
      SplitNoSeparator(s[1..], c);
      assert [s[0]] + s[1..] == s;
    }
  }

  /** The text up to the first separator is the first piece; the rest is split on its own. */
  lemma {:induction false} SplitAtFirst(a: string, c: char, b: string)
    requires NoChar(a, c)
    ensures SplitOn(a + [c] + b, c) == [a] + SplitOn(b, c)
    decreases |a|
  {
    if |a| == 0 {
      assert (a + [c] + b)[1..] == b;
    } else {
      assert (a + [c] + b)[1..] == a[1..] + [c] + b;
      SplitAtFirst(a[1..], c, b);
      assert [a[0]] + a[1..] == a;
    }
  }

  /** Joining the pieces of a split with the separator gives back the string. */
  lemma {:induction false} JoinSplit(s: string, c: char)
    ensures JoinSep(SplitOn(s, c), [c]) == s
    decreases |s|
  {
    if |s| > 0 {
      var rest := SplitOn(s[1..], c);
      JoinSplit(s[1..], c);
      if s[0] == c {
        assert SplitOn(s, c) == [""] + rest;
      } else {
        var r := SplitOn(s, c);
        assert r == [[s[0]] + rest[0]] + rest[1..];
        if |rest| == 1 {
          assert r == [[s[0]] + rest[0]];
          assert JoinSep(rest, [c]) == rest[0];
        } else {
          assert r[1..] == rest[1..];
          assert JoinSep(rest, [c]) == rest[0] + [c] + JoinSep(rest[1..], [c]);
        }
      }
    }
  }

  /** Replacing a pattern that does not occur changes nothing. */
  lemma {:induction false} ReplaceAbsent(s: string, pat: string, rep: string)
    requires |pat| > 0 && !Contains(s, pat)
    ensures ReplaceAll(s, pat, rep) == s
    decreases |s|
  {
    if |s| >= |pat| {
      assert s[..|pat|] != pat;
      ReplaceAbsent(s[1..], pat, rep);
      assert [s[0]] + s[1..] == s;
    }
  }

  /** A leading occurrence of the pattern is removed and the rest is scanned on its own. */
  lemma ReplaceLeading(pat: string, s: string, rep: string)
    requires |pat| > 0
    ensures ReplaceAll(pat + s, pat, rep) == rep + ReplaceAll(s, pat, rep)
  {
    assert (pat + s)[..|pat|] == pat;
    assert (pat + s)[|pat|..] == s;
  }

  /** Lower-case ASCII letters, as Python's `str.lower` does on URL schemes. */
  function LowerChar(c: char): char {
    if 'A' <= c <= 'Z' then (c as int + 32) as char else c
  }

  function Lower(s: string): (r: string)
    ensures |r| == |s|
    ensures forall i :: 0 <= i < |s| ==> r[i] == LowerChar(s[i])
  {
    seq(|s|, i requires 0 <= i < |s| => LowerChar(s[i]))
  }

  // ---------------------------------------------------------------------
  // Decimal numerals: Python's `str(n)`, `int(s)` and `s.zfill(width)`.
  // ---------------------------------------------------------------------

  predicate IsDigit(c: char) {
    '0' <= c <= '9'
  }

  function DigitChar(d: nat): char
    requires d < 10
  {
    ('0' as int + d) as char
  }

  function DigitValue(c: char): nat
    requires IsDigit(c)
  {
    c as int - '0' as int
  }

  /** Python's `str(n)` for a non-negative integer. */
  function NatToString(n: nat): (r: string)
    ensures |r| >= 1
    ensures forall i :: 0 <= i < |r| ==> IsDigit(r[i])
    decreases n
  {
    if n < 10 then [DigitChar(n)] else NatToString(n / 10) + [DigitChar(n % 10)]
  }

  /** Python's `int(s)` on a string of decimal digits. */
  function ParseNat(s: string): nat
    requires forall i :: 0 <= i < |s| ==> IsDigit(s[i])
    decreases |s|
  {
    if |s| == 0 then 0 else 10 * ParseNat(s[..|s| - 1]) + DigitValue(s[|s| - 1])
  }

  /** Python's `s.zfill(width)` for a string without a sign: pad with `0` on the left. */
  function ZFill(s: string, width: nat): (r: string)
    ensures |r| == if |s| >= width then |s| else width
    ensures EndsWith(r, s)
    ensures forall i :: 0 <= i < |r| - |s| ==> r[i] == '0'
  {
    if |s| >= width then s else seq(width - |s|, _ => '0') + s
  }

  /** Reading back a printed number gives the number. */
  lemma {:induction false} ParsePrinted(n: nat)
    ensures ParseNat(NatToString(n)) == n
    decreases n
  {
    if n >= 10 {
      var s := NatToString(n);
      assert s[..|s| - 1] == NatToString(n / 10);
      ParsePrinted(n / 10);
    }
  }

  /** Leading zeros do not change the value of a numeral. */
  lemma {:induction false} ParseLeadingZeros(z: nat, s: string)
    requires forall i :: 0 <= i < |s| ==> IsDigit(s[i])
    ensures ParseNat(seq(z, _ => '0') + s) == ParseNat(s)
    decreases |s|
  {
    var t := seq(z, _ => '0') + s;
    if |s| == 0 {
      ParseZeros(z);
      assert t == seq(z, _ => '0');
    } else {
      assert t[..|t| - 1] == seq(z, _ => '0') + s[..|s| - 1];
      ParseLeadingZeros(z, s[..|s| - 1]);
    }
  }

  lemma {:induction false} ParseZeros(z: nat)
    ensures ParseNat(seq(z, _ => '0')) == 0
    decreases z
  {
    if z > 0 {
      assert seq(z, _ => '0')[..z - 1] == seq(z - 1, _ => '0');
      ParseZeros(z - 1);
    }
  }

  /** `int(str(n).zfill(w)) == n`: zero-padded numerals are read back exactly. */
  lemma ParsePadded(n: nat, width: nat)
    ensures forall i :: 0 <= i < |ZFill(NatToString(n), width)| ==> IsDigit(ZFill(NatToString(n), width)[i])
    ensures ParseNat(ZFill(NatToString(n), width)) == n
  {
    var s := NatToString(n);
    ParsePrinted(n);
    if |s| < width {
      ParseLeadingZeros(width - |s|, s);
    }
  }

  /** Distinct numbers have distinct zero-padded numerals. */
  lemma PaddedInjective(m: nat, n: nat, width: nat)
    requires m != n
    ensures ZFill(NatToString(m), width) != ZFill(NatToString(n), width)
  {
    ParsePadded(m, width);
    ParsePadded(n, width);
  }
}

=== FILE: urls.dfy ===
/**
  The crawler's URL helpers (data_scrapper/main.py): the origin of the start
  URL, canonicalisation of discovered links, and the three-rule admission
  filter. `urljoin` and the robots.txt lookup are foreign and are passed in
  as functions.
 */
module Urls {
  import opened Wrappers
  import opened Strings
  import opened Collections

  // ---------------------------------------------------------------------
  // The origin: `scheme://netloc` as `urlparse` splits the start URL.
  // ---------------------------------------------------------------------

  predicate IsAsciiLetter(c: char) {
    ('a' <= c <= 'z') || ('A' <= c <= 'Z')
  }

  /** The characters `urlsplit` accepts in a scheme. */
  predicate IsSchemeChar(c: char) {
    IsAsciiLetter(c) || IsDigit(c) || c == '+' || c == '-' || c == '.'
  }

  /** A scheme as `urlsplit` recognises one: a letter, then scheme characters. */
  predicate IsScheme(s: string) {
    |s| > 0 && IsAsciiLetter(s[0]) && forall i :: 0 <= i < |s| ==> IsSchemeChar(s[i])
  }

  /** The position of the first occurrence of `c` in `s`, if any. */
  function IndexOf(s: string, c: char): (r: Option<nat>)
    ensures r.None? <==> NoChar(s, c)
    ensures r.Some? ==> r.value < |s| && s[r.value] == c && NoChar(s[..r.value], c)
  {
    if |s| == 0 then None
    else if s[0] == c then Some(0)
    else
      var r := IndexOf(s[1..], c);
      if r.None? then None
      else
        assert s[..r.value + 1] == [s[0]] + s[1..][..r.value];
        Some(r.value + 1)
  }

  /** Length of the longest prefix free of `/`, `?` and `#`: where a netloc ends. */
  function NetlocLength(s: string): (n: nat)
    ensures n <= |s|
    ensures forall i :: 0 <= i < n ==> s[i] != '/' && s[i] != '?' && s[i] != '#'
    ensures n < |s| ==> s[n] == '/' || s[n] == '?' || s[n] == '#'
  {
    if |s| == 0 || s[0] == '/' || s[0] == '?' || s[0] == '#' then 0 else 1 + NetlocLength(s[1..])
  }

  /** `urlsplit`'s scheme (lower-cased) and the text after its `:`; no scheme gives `""`. */
  function SplitScheme(url: string): (string, string) {
    var colon := IndexOf(url, ':');
    if colon.Some? && colon.value > 0 && IsScheme(url[..colon.value])
    then (Lower(url[..colon.value]), url[colon.value + 1..])
    else ("", url)
  }

  /** `urlsplit`'s netloc: what follows a leading `//` up to the first `/`, `?` or `#`. */
  function Netloc(afterScheme: string): string {
    if StartsWith(afterScheme, "//")
    then afterScheme[2..][..NetlocLength(afterScheme[2..])]
    else ""
  }

  /** The characters `urlsplit` strips from the front of a URL: C0 controls and the space. */
  predicate IsControlOrSpace(c: char) {
    c <= ' '
  }

  /** The characters `urlsplit` deletes wherever they occur: tab, CR and LF. */
  predicate IsUnsafeUrlChar(c: char) {
    c == '\t' || c == '\r' || c == '\n'
  }

  /** Free of tabs, CRs and LFs. */
  predicate NoUnsafe(s: string) {
    forall i :: 0 <= i < |s| ==> !IsUnsafeUrlChar(s[i])
  }

  /** `url.lstrip(_WHATWG_C0_CONTROL_OR_SPACE)`. */
  function LstripControl(s: string): (r: string)
    ensures |r| <= |s| && r == s[|s| - |r|..]
    ensures forall i :: 0 <= i < |s| - |r| ==> IsControlOrSpace(s[i])
    ensures |r| > 0 ==> !IsControlOrSpace(r[0])
  {
    if |s| > 0 && IsControlOrSpace(s[0]) then LstripControl(s[1..]) else s
  }

  /** `url.replace(b, "")` for each of tab, CR and LF. */
  function RemoveUnsafe(s: string): (r: string)
    ensures |r| <= |s|
    ensures NoUnsafe(r)
  {
    if |s| == 0 then ""
    else if IsUnsafeUrlChar(s[0]) then RemoveUnsafe(s[1..])
    else [s[0]] + RemoveUnsafe(s[1..])
  }

  /** The clean-up `urlsplit` applies before it looks for a scheme. */
  function Sanitize(url: string): string {
    RemoveUnsafe(LstripControl(url))
  }

  /** `_get_base_url`: `f"{scheme}://{netloc}"` of the URL as `urlparse` cleans it. */
  function GetBaseUrl(url: string): string {
    var (scheme, rest) := SplitScheme(Sanitize(url));
    scheme + "://" + Netloc(rest)
  }

  lemma {:induction false} RemoveUnsafeAppend(a: string, b: string)
    ensures RemoveUnsafe(a + b) == RemoveUnsafe(a) + RemoveUnsafe(b)
    decreases |a|
  {
    if |a| == 0 {
      assert a + b == b;
    } else {
      assert (a + b)[0] == a[0];
      assert (a + b)[1..] == a[1..] + b;
      RemoveUnsafeAppend(a[1..], b);
    }
  }

  lemma {:induction false} RemoveUnsafeKeepsSafe(s: string)
    requires NoUnsafe(s)
    ensures RemoveUnsafe(s) == s
    decreases |s|
  {
    if |s| > 0 {
      RemoveUnsafeKeepsSafe(s[1..]);
    }
  }

  /**
    Blanks and control characters typed before the URL do not change its
    origin: `" https://example.com/a"` has the origin of `"https://example.com/a"`.
   */
  lemma {:induction false} LeadingBlankIgnored(pad: string, url: string)
    requires forall i :: 0 <= i < |pad| ==> IsControlOrSpace(pad[i])
    ensures LstripControl(pad + url) == LstripControl(url)
    ensures GetBaseUrl(pad + url) == GetBaseUrl(url)
    decreases |pad|
  {
    if |pad| == 0 {
      assert pad + url == url;
    } else {
      assert (pad + url)[0] == pad[0];
      assert (pad + url)[1..] == pad[1..] + url;
      LeadingBlankIgnored(pad[1..], url);
    }
  }

  /** Tabs, CR and LF anywhere after the scheme do not change the origin. */
  lemma UnsafeCharsIgnored(scheme: string, rest: string)
    requires IsScheme(scheme) && Lower(scheme) == scheme
    ensures GetBaseUrl(scheme + "://" + rest) == GetBaseUrl(scheme + "://" + RemoveUnsafe(rest))
  {
    BaseUrlIsPrefix(scheme, rest);
    BaseUrlIsPrefix(scheme, RemoveUnsafe(rest));
    RemoveUnsafeKeepsSafe(RemoveUnsafe(rest));
  }

  /**
    For a start URL written with a lower-case scheme and a `//` authority,
    the origin is the scheme, `://` and the netloc of the URL with tabs, CR
    and LF removed; when there are none it is a prefix of the URL, so the
    URL passes the origin rule.
   */
  lemma BaseUrlIsPrefix(scheme: string, rest: string)
    requires IsScheme(scheme) && Lower(scheme) == scheme
    ensures var clean := RemoveUnsafe(rest);
      GetBaseUrl(scheme + "://" + rest) == scheme + "://" + clean[..NetlocLength(clean)]
    ensures NoUnsafe(rest) ==> StartsWith(scheme + "://" + rest, GetBaseUrl(scheme + "://" + rest))
  {
    OriginOfClean(scheme, rest);
    if NoUnsafe(rest) {
      OriginIsPrefix(scheme, rest);
    }
  }

  lemma OriginIsPrefix(scheme: string, rest: string)
    requires IsScheme(scheme) && Lower(scheme) == scheme && NoUnsafe(rest)
    ensures StartsWith(scheme + "://" + rest, GetBaseUrl(scheme + "://" + rest))
  {
    OriginOfClean(scheme, rest);
    RemoveUnsafeKeepsSafe(rest);
    var head, n := scheme + "://", NetlocLength(rest);
    assert GetBaseUrl(head + rest) == head + rest[..n];
    PrefixOfAppend(head, rest, n);
  }

  lemma OriginOfClean(scheme: string, rest: string)
    requires IsScheme(scheme) && Lower(scheme) == scheme
    ensures var clean := RemoveUnsafe(rest);
      GetBaseUrl(scheme + "://" + rest) == scheme + "://" + clean[..NetlocLength(clean)]
  {
    var clean := RemoveUnsafe(rest);
    SanitizeSchemeUrl(scheme, rest);
    SchemeOfClean(scheme, clean);
    assert ("//" + clean)[2..] == clean;
  }

  lemma SanitizeSchemeUrl(scheme: string, rest: string)
    requires IsScheme(scheme)
    ensures Sanitize(scheme + "://" + rest) == scheme + "://" + RemoveUnsafe(rest)
  {
    var head := scheme + "://";
    assert (head + rest)[0] == scheme[0];
    assert LstripControl(head + rest) == head + rest;
    RemoveUnsafeAppend(head, rest);
    SchemeHeadSafe(scheme);
    RemoveUnsafeKeepsSafe(head);
  }

  lemma SchemeHeadSafe(scheme: string)
    requires IsScheme(scheme)
    ensures NoUnsafe(scheme + "://")
  {
    var head := scheme + "://";
    forall i | 0 <= i < |head| ensures !IsUnsafeUrlChar(head[i]) {
      if i < |scheme| {
        assert head[i] == scheme[i] && IsSchemeChar(scheme[i]);
      }
    }
  }

  lemma SchemeOfClean(scheme: string, rest: string)
    requires IsScheme(scheme) && Lower(scheme) == scheme
    ensures SplitScheme(scheme + "://" + rest) == (scheme, "//" + rest)
  {
    var url := scheme + "://" + rest;
    assert url[..|scheme|] == scheme;
    assert url[|scheme|] == ':';
    assert NoChar(scheme, ':') by {
      forall i | 0 <= i < |scheme| ensures scheme[i] != ':' {
        assert IsSchemeChar(scheme[i]);
      }
    }
    IndexOfFirst(scheme, ':', url[|scheme|..]);
    assert url[..|scheme|] + url[|scheme|..] == url;
    assert url[|scheme| + 1..] == "//" + rest;
    assert ("//" + rest)[2..] == rest;
  }

  /** The start URL typed with a leading space still gets the site's origin. */
  lemma TypedWithLeadingSpace()
    ensures GetBaseUrl(" http://x/a") == "http://x"
  {
    ExampleParts();
    LeadingBlankIgnored(" ", "http" + "://" + "x/a");
    BaseUrlIsPrefix("http", "x/a");
  }

  lemma ExampleParts()
    ensures IsScheme("http") && Lower("http") == "http"
    ensures RemoveUnsafe("x/a") == "x/a" && NetlocLength("x/a") == 1
    ensures " " + ("http" + "://" + "x/a") == " http://x/a"
    ensures "http" + "://" + "x/a"[..1] == "http://x"
  {
    assert "http" == ['h', 't', 't', 'p'];
    assert "x/a" == ['x', '/', 'a'];
  }

  lemma {:induction false} IndexOfFirst(a: string, c: char, b: string)
    requires NoChar(a, c) && |b| > 0 && b[0] == c
    ensures IndexOf(a + b, c) == Some(|a|)
    decreases |a|
  {
    if |a| > 0 {
      assert (a + b)[1..] == a[1..] + b;
      IndexOfFirst(a[1..], c, b);
    }
  }

  // ---------------------------------------------------------------------
  // `_normalize_url`: join, drop the fragment, strip one trailing `/`.
  // ---------------------------------------------------------------------

  /** Everything before the first `#`. */
  function DropFragment(s: string): (r: string)
    ensures NoChar(r, '#')
    ensures StartsWith(s, r)
    ensures NoChar(s, '#') ==> r == s
    ensures |r| < |s| ==> s[|r|] == '#'
  {
    var i := IndexOf(s, '#');
    if i.None? then s else s[..i.value]
  }

  /** The part of `_normalize_url` after `urljoin`. */
  function Canonical(full: string): string {
    var t := DropFragment(full);
    if EndsWith(t, "/") then t[..|t| - 1] else t
  }

  /**
    `_normalize_url(url, base_url)`, with `urljoin` passed in as `join`.
    The result is the joined URL cut at its first `#`, less exactly one
    trailing `/` when there was one.
   */
  function NormalizeUrl(join: (string, string) -> string, url: string, base: string): (r: string)
    ensures NoChar(r, '#')
    ensures var t := DropFragment(join(base, url));
      (EndsWith(t, "/") ==> r + "/" == t) && (!EndsWith(t, "/") ==> r == t)
  {
    Canonical(join(base, url))
  }

  /**
    Canonicalising a canonical URL is the identity exactly when the URL
    does not end in `/`: a URL that ended in `//` loses one slash per pass.
   */
  lemma CanonicalIdempotentIff(s: string)
    ensures Canonical(Canonical(s)) == Canonical(s) <==> !EndsWith(Canonical(s), "/")
  {
    var c := Canonical(s);
    assert NoChar(c, '#') by {
      var t := DropFragment(s);
      if EndsWith(t, "/") {
        assert c == t[..|t| - 1];
        forall i | 0 <= i < |c| ensures c[i] != '#' {
          assert c[i] == t[i];
        }
      }
    }
    assert DropFragment(c) == c;
  }

  /**
    Re-normalising a normalised link is the identity when `urljoin` leaves
    absolute URLs alone and the link does not end in `/`.
   */
  lemma NormalizeIdempotent(join: (string, string) -> string, url: string, base: string, base2: string)
    requires var n := NormalizeUrl(join, url, base); join(base2, n) == n
    requires !EndsWith(NormalizeUrl(join, url, base), "/")
    ensures NormalizeUrl(join, NormalizeUrl(join, url, base), base2) == NormalizeUrl(join, url, base)
  {
    CanonicalIdempotentIff(join(base, url));
  }

  /**
    A URL ending in `//` keeps one slash, so normalising it a second time
    changes it again.
   */
  lemma DoubleSlashNotIdempotent(u: string)
    requires NoChar(u, '#')
    ensures Canonical(u + "//") == u + "/"
    ensures Canonical(Canonical(u + "//")) == u
  {
    assert NoChar(u + "//", '#');
    assert (u + "//")[..|u| + 1] == u + "/";
    assert NoChar(u + "/", '#');
    assert (u + "/")[..|u|] == u;
  }

  // ---------------------------------------------------------------------
  // `_is_valid_url`: the admission filter.
  // ---------------------------------------------------------------------

  /** The extensions `_is_valid_url` refuses, in the order it tests them. */
  const IgnoredExtensions: seq<string> := [".pdf", ".jpg", ".png", ".gif", ".zip"]

  /** The outcome of the filter: admitted, or the first rule that refused. */
  datatype Verdict = Admitted | OffOrigin | RobotsDenied | IgnoredExtension

  /** Python's `any(url.endswith(ext) for ext in exts)`. */
  predicate AnyEndsWith(url: string, exts: seq<string>) {
    exists i :: 0 <= i < |exts| && EndsWith(url, exts[i])
  }

  lemma BlocklistSpelledOut(url: string)
    ensures AnyEndsWith(url, IgnoredExtensions) <==>
      EndsWith(url, ".pdf") || EndsWith(url, ".jpg") || EndsWith(url, ".png")
      || EndsWith(url, ".gif") || EndsWith(url, ".zip")
  {
    var e := IgnoredExtensions;
    assert e[0] == ".pdf" && e[1] == ".jpg" && e[2] == ".png" && e[3] == ".gif" && e[4] == ".zip";
  }

  /**
    `_is_valid_url`: the origin rule (a plain string-prefix test on the base
    URL), then robots.txt when it is respected (`canFetch` stands for
    `rp.can_fetch('*', url)`), then the extension blocklist.
   */
  function CheckUrl(url: string, baseUrl: string, respectRobots: bool, canFetch: string -> bool): (v: Verdict)
    ensures v == OffOrigin <==> !StartsWith(url, baseUrl)
    ensures v == RobotsDenied <==> StartsWith(url, baseUrl) && respectRobots && !canFetch(url)
    ensures v == IgnoredExtension <==>
      && StartsWith(url, baseUrl) && (!respectRobots || canFetch(url))
      && (EndsWith(url, ".pdf") || EndsWith(url, ".jpg") || EndsWith(url, ".png")
          || EndsWith(url, ".gif") || EndsWith(url, ".zip"))
    ensures v == Admitted <==>
      && StartsWith(url, baseUrl) && (!respectRobots || canFetch(url))
      && !EndsWith(url, ".pdf") && !EndsWith(url, ".jpg") && !EndsWith(url, ".png")
      && !EndsWith(url, ".gif") && !EndsWith(url, ".zip")
  {
    BlocklistSpelledOut(url);
    if !StartsWith(url, baseUrl) then OffOrigin
    else if respectRobots && !canFetch(url) then RobotsDenied
    else if AnyEndsWith(url, IgnoredExtensions) then IgnoredExtension
    else Admitted
  }

  predicate IsValidUrl(url: string, baseUrl: string, respectRobots: bool, canFetch: string -> bool) {
    CheckUrl(url, baseUrl, respectRobots, canFetch) == Admitted
  }

  /**
    The origin rule compares strings, not hosts: a page on another host
    whose name merely begins with the crawled host's name is admitted.
   */
  lemma PrefixRuleAdmitsOtherHost(canFetch: string -> bool)
    ensures CheckUrl("http://example.com.evil.net/page", "http://example.com", false, canFetch) == Admitted
  {
    assert "http://example.com.evil.net/page"[..18] == "http://example.com";
  }
}

=== FILE: wrappers.dfy ===
/** Failure-compatible wrappers shared by every module of the model. */
module Wrappers {

  /** An optional value: Python's `None`, JavaScript's `null`. */
  datatype Option<+T> = None | Some(value: T) {

    predicate IsFailure() {
      None?
    }

    function PropagateFailure<U>(): Option<U>
      requires None?
    {
      None
    }

    function Extract(): T
      requires Some?
    {
      value
    }

    function GetOr(default: T): T {
      match this
      case Some(v) => v
      case None => default
    }
  }

  /** A value or the exception that the source raises instead. */
  datatype Result<+R> = Success(value: R) | Failure(error: string) {

    predicate IsFailure() {
      Failure?
    }

    function PropagateFailure<U>(): Result<U>
      requires Failure?
    {
      Failure(error)
    }

    function Extract(): R
      requires Success?
    {
      value
    }
  }
}
